=== FILE: README.md ===
# Distributed Relay and LACP control plane, in Dafny

This project models the control plane of a simulator of IEEE Std 802.1AX link aggregation
with the Distributed Resilient Network Interconnect (DRNI) extension. Two parts are modelled.

- **One Aggregation Port.** This covers the LACP Receive machine (`LacpRx`) and the LACP
  Transmit machine for versions 1 and 2 (`LacpTx`). It also covers what one port's receive
  machine records from the LACPDU the other end's transmit machine builds (`LacpLink`). The
  port's constructor, `reset`, `run` and its management attributes are in `PortManagement`.
- **The Distributed Relay of one portal system.** This covers:
  - its record, the Distributed Relay machine and the DRNI Gateway and Aggregator machine
    (`DistributedRelay`);
  - the DRCP Receive machine (`DrcpRx`) and the DRCP Transmit machine (`DrcpTx`);
  - one scheduling cycle of the relay with its frame routing (`DrniRun`);
  - the state vectors and one-byte flag sets the two portal systems exchange
    (`DistRelayState`);
  - the link-number lists the aggregator selection merges and scans (`LinkLists`).

Every routine is a pure function, or a method with a contract, from the record it works on
to the updated record. Collaborators outside the modelled files become parameters or
records:
- The attached Aggregator is the `Aggregator` record.
- `updateConversationLinkVector` is the function parameter `linkVector`.
- `LinkAgg::frameConvID` gives the conversation identifiers that the routing functions take.
- The port's timing constants are the `PortConstants` record.
- Whether the ISS is operational or point-to-point is passed in as a boolean.

Sequence numbers are unbounded naturals. 16-bit fields are the subset type `uint16`, and the
code's truncations are written out (`U16`, `% 0x8000`). The DRCP timer constants are those of
`drni/DistributedRelay.h`: fast periodic 9919 ticks, slow periodic and short timeout three
times that, long timeout nine times.

The model follows the code in three places where the 802.1AX text reads differently:
- `algorithmUsesMap` in gateway selection is `GwAlgorithm && 0x80`. That holds for every
  non-zero algorithm, and the model keeps it (`DistributedRelay.AlgorithmUsesMap`).
  `updateHomeState` tests the map bit itself with `&`, and the model keeps that too
  (`MapBitSet`).
- `DrcpTxHold` is cleared at the end of `runDrniGwAggMachines`, before the DRCP transmit
  machine runs. So the transmit machine never sees the hold set.
- `recordDefault` in the DRCP receive machine leaves the neighbour IRP state, the
  neighbour's DRNI key and the reflected IRP state as they were.

## Model

| member | source | states |
|---|---|---|
| DistRelayState.IrpFromByte | drni/DistRelayState.h:25-41 | reading a byte through the IRP-state bit fields gives back the same byte; each named flag is its bit |
| DistRelayState.IrpRoundTrip | drni/DistRelayState.h:25-41 | packing an IRP state into its byte and reading it back gives the same state |
| DistRelayState.CscdFromByte | drni/DistRelayState.h:43-59 | reading a byte through the CSCD bit fields gives back the same byte; gateway control and DWC are bits 2 and 3 |
| DistRelayState.CscdRoundTrip | drni/DistRelayState.h:43-59 | packing a CSCD state into its byte and reading it back gives the same state |
| DistRelayState.CopiedBitsDiffer | drni/DrcpRxSM.cpp:540-546 | the `& 0xf4` comparison differs exactly when short timeout, IRC data, DRNI, defaulted or expired differ |
| DistRelayState.MergeCopiedBits | drni/DrcpRxSM.cpp:540-546 | the masked merge takes those five flags from the received state and keeps IRC sync and the reserved bits |
| DistRelayState.ResetAggState | drni/DistRelayState.cpp:32-44 | sequence 0, unspecified algorithm, zero digests, null partner, CSCD byte 0, no active links, whatever was there before |
| DistRelayState.ResetGwState | drni/DistRelayState.cpp:55-62 | sequence 0, unspecified algorithm, zero digest, every gateway conversation available |
| DistRelayState.ResetGwPreference | drni/DistRelayState.cpp:73-77 | sequence 0, every gateway conversation preferred |
| LinkLists.Merge | drni/DistributedRelay.cpp:788 | the merged list holds every element of both lists once: a multiset union |
| LinkLists.MergeSorted | drni/DistributedRelay.cpp:788 | merging two sorted active-link lists gives a sorted list |
| LinkLists.MergeSymmetric | drni/DistributedRelay.cpp:788 | both portal systems merge the two sorted lists in opposite order and get the same list |
| LinkLists.ScanLinks | drni/DistributedRelay.cpp:792-806 | the "last match wins" loop sets the owner exactly when the link occurs in the list |
| DistributedRelay.Create | drni/DistributedRelay.cpp:20-68 | admin identity and key as given; DRCP version 2; admin IRP state 0x14; solo; all gateways enabled and preferred; empty selection; state vectors reset |
| DistributedRelay.ResetHomeState | drni/DistributedRelay.cpp:550-559 | the three home vectors are reset, nothing counts as transmitted, and nothing else changes |
| DistributedRelay.SetDefaultDrniSystemParameters | drni/DistributedRelay.cpp:759-767 | no conversation selected and no forwarding mask set; the sync mask and the rest are unchanged |
| DistributedRelay.Reset | drni/DistributedRelay.cpp:94-131 | not operational; neighbour and reflected state defaulted; sync cleared; when configured, paired with fresh home state; mask exclusivity is kept |
| DistributedRelay.OperDrniIdentity | drni/DistributedRelay.cpp:476-510 | solo uses the Aggregator's own identity and key; paired uses the admin DRNI identity, or the lower system's when the admin address is zero |
| DistributedRelay.InstallDrniIdentity | drni/DistributedRelay.cpp:471-548 | the Aggregator gets the chosen identity and key; a change of solo status raises the Aggregator's change flag and the flag is never lowered |
| DistributedRelay.DistributedRelayMachine | drni/DistributedRelay.cpp:380-496 | solo unless both IRC-sync flags are set; on a change the DRNI bit is the inverse of solo and the sync mask is reset to every conversation when solo and to none when paired, otherwise it is kept; IRC data only when paired and all six flags hold |
| DistributedRelay.NextSequenceNumber | drni/DistributedRelay.cpp:583-587 | the new number is at least 1, not below the old one, never the last transmitted one, and past the reflected one when that was ahead or the old one was 0 |
| DistributedRelay.ClearChanged | drni/DistributedRelay.cpp:676-679 | synchronisation survives exactly at the conversations whose bit did not change |
| DistributedRelay.UpdateHomeAggregatorState | drni/DistributedRelay.cpp:566-638 | a stale home Aggregator state is rewritten from the Aggregator so it is no longer stale, and a transmission is requested; otherwise nothing changes; sync is fully cleared exactly when the gateway-control mode changed, or it is on and the algorithm, a digest or the active links changed, and kept otherwise |
| DistributedRelay.GatewayAvailable | drni/DistributedRelay.cpp:641-648 | a gateway conversation is available exactly when the gateway port is enabled and admin-enabled for it |
| DistributedRelay.UpdateHomeGatewayState | drni/DistributedRelay.cpp:640-708 | a stale home Gateway state is brought in line and no longer stale; a change of gateway algorithm, or of the service map the algorithm uses, clears all sync; otherwise exactly the conversations whose availability changed lose sync |
| DistributedRelay.UpdateHomeGatewayPreference | drni/DistributedRelay.cpp:711-755 | a stale preference is brought in line and no longer stale; only the conversations whose preference changed lose sync |
| DistributedRelay.UpdateHomeState | drni/DistributedRelay.cpp:561-757 | afterwards no vector is stale and no home sequence number is behind its reflection; a conversation keeps sync exactly when it had it, no Aggregator or mapping change cleared every conversation, and neither its availability nor its preference changed; a transmission is requested when something was stale; otherwise nothing changes |
| DistributedRelay.LinkOwner | drni/DistributedRelay.cpp:792-806 | this system owns a conversation iff its link is in the home list; the neighbour owns it iff the link is only in the neighbour's list |
| DistributedRelay.AggregatorSelection | drni/DistributedRelay.cpp:769-842 | solo or unspecified: everything home; matching partners: each conversation goes to the owner of its link over the merged list; otherwise everything to the neighbour when its identity is lower and it has links, else everything home |
| DistributedRelay.DefaultDrn | drni/DistributedRelay.cpp:845-978 | the tie-breaker names the neighbour exactly when paired and the neighbour's identity is lower, and always names a system |
| DistributedRelay.GatewaySelection | drni/DistributedRelay.cpp:845-978 | solo: home iff available; disagreeing parameters: the lower system; otherwise availability, then the aggregator choice when the gateway follows it, then a single preference, then the tie-breaker |
| DistributedRelay.GatedBit | drni/DistributedRelay.cpp:981-1056 | a gateway mask bit is set only for the selected side, is set once synchronised, and otherwise keeps its value |
| DistributedRelay.DrniMasks | drni/DistributedRelay.cpp:981-1056 | home and neighbour masks are mutually exclusive; aggregator masks follow the aggregator vector; gateway bits rise only when synchronised |
| DistributedRelay.RestrictPartner | drni/DistributedRelay.cpp:387-419 | a restricting neighbour imposes its partner on an unrestricted Aggregator; without restriction the Aggregator's partner restriction is removed |
| DistributedRelay.RunDrniGwAggMachinesAggregator | drni/DistributedRelay.cpp:376-469 | the Aggregator side of one machine pass: solo status re-elected on a sync change, the partner restriction applied, the update request consumed |
| DistributedRelay.UpdateSelection | drni/DistributedRelay.cpp:448-466 | on a home-vector update the aggregator and gateway vectors become `AggregatorSelection` and `GatewaySelection` of the current home and neighbour state, else they are kept; on a mask update the masks become `DrniMasks` of those vectors, with every conversation synchronised when solo or all acknowledged, else the masks are kept; exclusivity holds afterwards |
| DistributedRelay.GatewayAggregatorPass | drni/DistributedRelay.cpp:446-466 | new home or neighbour information recomputes the vectors with `AggregatorSelection` and `GatewaySelection`; that or new reflected state recomputes the masks with `DrniMasks`; home state is updated by `updateHomeState` exactly when new home information or an Aggregator request is pending, and NTT is raised iff that update announces a change (never lowered); the sync mask handed to the selection is the Distributed Relay machine's as that update reduced it, and it is what the selection keeps unless the masks are recomputed with every conversation counting as synchronised, when it becomes all set; mask exclusivity is kept |
| DistributedRelay.RunDrniGwAggMachines | drni/DistributedRelay.cpp:376-469 | solo iff not both IRC-sync; the selection is recomputed by `AggregatorSelection`, `GatewaySelection` and `DrniMasks` exactly when home, neighbour, Aggregator or solo status changed, and the masks alone on new reflected state; every change flag consumed and TxHold cleared; neighbour, reflected, admin and receive state untouched and the home IRP state changed in its DRNI bit alone; NTT never lowered; the home vectors are the refreshed ones and the sync mask starts from the Distributed Relay machine's (reset on a solo change, kept otherwise), reduced by the refresh; the Aggregator is `RunDrniGwAggMachinesAggregator`'s |
| DistributedRelay.GwAggPassOnRelay | drni/DistributedRelay.cpp:446-469 | the relay side of the pass once the Distributed Relay machine has run: the solo status, IRP state and IRC data it decided, the refreshed home vectors and sync mask, the selection recomputed, the flags and TxHold cleared and everything received kept |
| DistributedRelay.SelectionRecomputedSameVectors | drni/DistributedRelay.cpp:446-466 | the recomputed selection depends on the home state vectors and not on their last-transmitted sequence numbers |
| DistributedRelay.DrniMasksOwnSync | drni/DistributedRelay.cpp:981-1056 | recomputing the masks from their own synchronisation mask gives the same masks |
| DistributedRelay.SetHomeAdminGatewayEnable | drni/DistributedRelay.cpp:1061-1065 | the mask is stored and a change is always flagged; nothing else changes |
| DistributedRelay.SetHomeAdminGatewayPreference | drni/DistributedRelay.cpp:1072-1076 | the mask is stored and a change is always flagged; nothing else changes |
| DistributedRelay.SetHomeAdminGatewayAlgorithm | drni/DistributedRelay.cpp:1083-1090 | the algorithm is stored; the change is flagged iff the value differs; setting the same value is a no-op |
| DistributedRelay.SetHomeAdminCscdGatewayControl | drni/DistributedRelay.cpp:1097-1105 | the control is stored; the change is flagged iff the value differs; setting the same value is a no-op |
| DrcpRx.RecordDefault | drni/DrcpRxSM.cpp:206-232 | home IRP byte becomes 0x40 (or 0x44 with short timeout); neighbour vectors reset; reflected numbers 0; all three change flags raised |
| DrcpRx.RecordDefaultIdempotent | drni/DrcpRxSM.cpp:206-232 | recording the defaults twice is recording them once |
| DrcpRx.EnterInitialize | drni/DrcpRxSM.cpp:107-120 | the defaults recorded and the machine in INITIALIZE |
| DrcpRx.EnterExpired | drni/DrcpRxSM.cpp:122-138 | expired set, the neighbour assumed on short timeouts, NTT raised, a short current-while timer, waiting to receive |
| DrcpRx.EnterDefaulted | drni/DrcpRxSM.cpp:154-167 | the defaults recorded, waiting to receive, the timer untouched |
| DrcpRx.RecordReflectedState | drni/DrcpRxSM.cpp:358-426 | each reflected number becomes the larger of the stored and received echo; NTT iff an echo is older; new home info iff an echo is ahead of the home number |
| DrcpRx.RecordReflectedIdempotent | drni/DrcpRxSM.cpp:358-426 | the same DRCPDU again changes nothing more |
| DrcpRx.RecordNeighborState | drni/DrcpRxSM.cpp:428-522 | identity and key always recorded; each vector adopted iff it is newer and its TLV is consistent; changed iff the record changed; NTT iff the header does not match what is known |
| DrcpRx.RecordNeighborIdempotent | drni/DrcpRxSM.cpp:428-522 | the same DRCPDU again leaves the record as it is and raises nothing |
| DrcpRx.AcceptedHomeIrp | drni/DrcpRxSM.cpp:524-581 | no longer expired or defaulted; IRC sync iff the DRCPDU was compatible; IRC data follows the admin value on a sync change |
| DrcpRx.AcceptedNborIrp | drni/DrcpRxSM.cpp:524-581 | the five copied flags come from the DRCPDU; the neighbour's IRC sync holds only when it echoed this system correctly |
| DrcpRx.UpdateIrpState | drni/DrcpRxSM.cpp:524-581 | both IRP states as above; NTT iff this system's sync changed, the neighbour's IRP state changed, the echo check failed (`EchoMismatch`), or the DRCPDU's echo of the home IRP state differs from the accepted home IRP state |
| DrcpRx.RecordPdu | drni/DrcpRxSM.cpp:186-204 | the reflected state is what `RecordReflectedState` leaves, the neighbour state what `RecordNeighborState` leaves with the IRP state `UpdateIrpState` merges, and the home IRP state is `UpdateIrpState`'s; the change flags, TxHold and NTT gain the recorders' requests and nothing else changes |
| DrcpRx.EnterCurrent | drni/DrcpRxSM.cpp:186-204 | the DRCPDU recorded exactly as `RecordPdu` records it, the timer loaded per the short-timeout bit, waiting to receive, admin and home state untouched |
| DrcpRx.EnterDrniCheck | drni/DrcpRxSM.cpp:169-184 | an incompatible DRCPDU is dropped with nothing recorded; a compatible one is recorded exactly as `RecordPdu` records it and synchronises the IRC; no change flag is lowered |
| DrcpRx.DiffersDrni | drni/DrcpRxSM.cpp:343-355 | a DRCPDU carrying this system's own identity is always refused; one of version 2 or later for the same DRNI system and key, or for a DRNI system with a zero address, is refused only when it carries this system's own identity |
| DrcpRx.WaitStep | drni/DrcpRxSM.cpp:80-87 | in WAIT_TO_RECEIVE a transition happens iff a DRCPDU arrived or the timer ran out; a compatible DRCPDU is recorded as `RecordPdu` records it; a timeout expires or defaults; without either nothing changes |
| DrcpRx.RxStep | drni/DrcpRxSM.cpp:50-105 | the global transition to INITIALIZE, leaving INITIALIZE iff the IRP is up with DRCP enabled; in WAIT_TO_RECEIVE a DRCPDU from an incompatible neighbour is only marked, one from a compatible neighbour is recorded as `PduRecorded` states, and without one a timer that ran out leads to EXPIRED or, already expired, to DEFAULTED; every transition brings the machine closer to rest, and no home or neighbour change flag is lowered |
| DrcpRx.RxRun | drni/DrcpRxSM.cpp:35-48 | at most three transitions; without single-stepping the machine ends at rest; single-stepping has exactly the effect of one step, a received DRCPDU included; the frame slot is emptied; no home or neighbour change flag is lowered |
| DrcpRx.RxReset | drni/DrcpRxSM.cpp:21-26 | INITIALIZE with the timer stopped and the defaults recorded; at rest exactly when the IRP is not up with DRCP enabled |
| DrcpTx.AdvertisedKey | drni/DrcpTxSM.cpp:165-248 | the neighbour's DRNI key once synchronised with a lower neighbour, the admin key otherwise |
| DrcpTx.PrepareDrcpdu | drni/DrcpTxSM.cpp:165-248 | the header always carries identities, every sequence number and both IRP states; a vector TLV is present iff its number is unacknowledged, and then the last-transmitted number is updated |
| DrcpTx.TransmitDrcpdu | drni/DrcpTxSM.cpp:134-163 | a DRCPDU is sent iff the IRP is operational, and it is the prepared one |
| DrcpTx.EnterPeriodic | drni/DrcpTxSM.cpp:96-121 | the machine passes to FAST_PERIODIC iff the neighbour wants short timeouts, with the matching non-zero timer |
| DrcpTx.TxNext | drni/DrcpTxSM.cpp:48-93 | a transmission happens iff the IRP is up and one is due; sending clears NTT; every move brings the machine closer to rest |
| DrcpTx.TxStep | drni/DrcpTxSM.cpp:48-93 | one step: a transition iff the machine is not at rest; a sent DRCPDU is the prepared one; NTT cleared only by sending; relay state outside the machine untouched |
| DrcpTx.TxRun | drni/DrcpTxSM.cpp:33-46 | at most two transitions and one DRCPDU when up; nothing sent when down; every DRCPDU names this system; a single step sends at most the DRCPDU `PrepareDrcpdu` builds from the relay as found, and only that preparation touches the home information |
| DrcpTx.TxRunToRest | drni/DrcpTxSM.cpp:33-46 | run without single-stepping: with the IRP up it rests after at most two transitions and one DRCPDU; with it down nothing is sent and, outside NO_TX, the run stops only at the cap of ten |
| DrcpTx.PrepareAgain | drni/DrcpTxSM.cpp:165-248 | preparing moves only the last-transmitted sequence numbers, which the DRCPDU does not carry, so preparing again from the result gives the same DRCPDU |
| DrniRun.TimerTick | drni/DistributedRelay.cpp:133-142 | with the relay attached, both timers count down by one and stop at zero; otherwise nothing changes |
| DrniRun.TicksCountDown | drni/DistributedRelay.cpp:133-142 | a timer loaded with t reads zero after exactly t ticks, and no state changes meanwhile |
| DrniRun.Run | drni/DistributedRelay.cpp:144-374 | transparent without an IRP; with one, operational iff the Aggregator is or IRC data flows to a neighbour with links; at most one DRCPDU, the one `PrepareDrcpdu` builds from the relay the cycle leaves, which this relay would itself reject; the selection is recomputed by the reference selection functions, and forcibly so after a home, neighbour or Aggregator change; `received` is the relay the receive step leaves, DRCPDU included, and its neighbour and reflected state, home IRP state (but for the DRNI bit), refreshed home vectors, sync mask and installed Aggregator identity, key and partner restriction are what the cycle ends with |
| DrniRun.AttachedCycle | drni/DistributedRelay.cpp:310-319 | receive step, DRNI Gateway and Aggregator machines and transmit step: the relay the receive step leaves, with what it recorded carried to the end, the selection the cycle leaves, the Aggregator the machines install, the DRCPDU sent and the operational status |
| DrniRun.AfterReceive | drni/DistributedRelay.cpp:313-319 | after the receive step, the selection is what `runDrniGwAggMachines` recomputes, the sync mask and home vectors what it leaves, the Aggregator what it installs, the received neighbour and reflected state kept, the DRCPDU sent is the prepared one, TxHold is clear |
| DrniRun.TransmitStep | drni/DistributedRelay.cpp:314-319 | the DRCPDU sent, if any, is the one the relay it leaves would prepare; only the last-transmitted numbers of the home information move; operational status as the code computes it |
| DrniRun.SelectionRecomputedCases | drni/DistributedRelay.cpp:446-466 | a cycle recomputes the vectors and masks, only the masks, or neither, and the first after a forced update |
| DrniRun.IrpIngressRoute | drni/DistributedRelay.cpp:182-198 | an IRP frame goes Down iff the neighbour holds its gateway, Up iff this system does (and the port conversation is acceptable); never back to the IRP |
| DrniRun.UpRoute | drni/DistributedRelay.cpp:267-307 | an accepted Up frame goes to the gateway iff this system holds it, through the IRP iff the neighbour holds it and IRC data flows; never back Down |
| DrniRun.DownRouteAsWritten | drni/DistributedRelay.cpp:225-264 | as written, the IRP branch needs the port conversation here and not at the neighbour |
| DrniRun.DownRouteStrandsNeighbourLinks | drni/DistributedRelay.cpp:247-248 | a Down frame for the neighbour's links is discarded as written and goes through the IRP as intended |
| DrniRun.DownRoute | drni/DistributedRelay.cpp:225-264 | a Down frame goes to the Aggregator iff it is here and operational, and through the IRP iff the conversation is the neighbour's and IRC data flows |
| DrniRun.UpFrameCrossesToGateway | drni/DistributedRelay.cpp:154-207 | between systems with mirrored masks, an Up frame sent through the IRP reaches the other system's gateway |
| DrniRun.DownFrameCrossesToOwner | drni/DistributedRelay.cpp:154-207 | between systems with mirrored masks, a Down frame sent through the IRP goes Down at the Aggregator that owns it |
| DrniRun.TakeDownFrameAsWritten | drni/DistributedRelay.cpp:210-224 | as written, no frame ever reaches the routing; the queue is popped or flushed |
| DrniRun.TakeDownFrame | drni/DistributedRelay.cpp:210-224 | while operational the head is taken and the rest stays queued; otherwise the queue is flushed |
| DrniRun.DownFrameLost | drni/DistributedRelay.cpp:210-216 | a queued frame is lost as written and routed as intended, here and in the transparent case at line 328 |
| DrniRun.DownStage | drni/DistributedRelay.cpp:210-264 | the next queued frame, if any, is taken and routed by the intended Down routing |
| LacpRx.RecordVersion2Defaults | drni/LacpRxSM.cpp:431-452 | the partner falls back to version 1, link numbers to the admin number, the algorithm to none and the digests to zero; the actor's own values are kept |
| LacpRx.RecordDefault | drni/LacpRxSM.cpp:257-271 | the partner's operational identity and state become the admin ones; the actor is defaulted; the partner-admin change request is consumed |
| LacpRx.UpdateDefaultSelected | drni/LacpRxSM.cpp:246-255 | the port is unselected iff the defaults change the partner's LAG identity, or it already was |
| LacpRx.DefaultsKeepSelection | drni/LacpRxSM.cpp:246-271 | once recorded, the defaults are the partner's identity, so defaulting again keeps the selection |
| LacpRx.CompareActorViewOfPartner | drni/LacpRxSM.cpp:388-394 | the LACPDU's actor matches the recorded partner exactly when system, port, key and aggregation bit agree |
| LacpRx.ComparePartnerViewOfActor | drni/LacpRxSM.cpp:380-386 | the LACPDU names this actor by system and port, and every LACPDU that passes the NTT check passes this comparison |
| LacpRx.PartnerViewCurrent | drni/LacpRxSM.cpp:282-299 | the LACPDU's view of this actor agrees in the four compared state bits, whatever its other bits |
| LacpRx.UpdateSelected | drni/LacpRxSM.cpp:273-280 | a LACPDU from a different partner unselects the port and marks a new partner; otherwise nothing changes |
| LacpRx.UpdateNtt | drni/LacpRxSM.cpp:282-299 | NTT is raised iff the partner's view of this actor is out of date; NTT is never lowered |
| LacpRx.NttQuietImpliesPartnerMatch | drni/LacpRxSM.cpp:282-299 | a LACPDU that leaves NTT alone names this actor as its partner |
| LacpRx.PartnerSync | drni/LacpRxSM.cpp:326-328 | the partner counts as in sync only when it says so, and an aggregating partner only when it names this actor; a current view from an in-sync partner with either end active is in sync |
| LacpRx.RecordPortAlgorithmTlv | drni/LacpRxSM.cpp:454-478 | the partner's algorithm is the TLV's or unspecified; a distribution-algorithm change is requested iff collecting and it changed |
| LacpRx.RecordConversationPortDigestTlv | drni/LacpRxSM.cpp:480-524 | the partner's link number and digest are recorded; link-state and distribution requests are raised only when they changed |
| LacpRx.RecordServiceMappingDigestTlv | drni/LacpRxSM.cpp:547-571 | the partner's service digest is recorded; a request is raised iff collecting and it changed |
| LacpRx.RecordTlvs | drni/LacpRxSM.cpp:301-376 | the three TLV recorders in order; the actor's values are kept; nothing is requested when nothing changed |
| LacpRx.RecordPduVersion2 | drni/LacpRxSM.cpp:301-376 | the version-2 half of recordPdu: requests are only raised, and none when the link information is unchanged |
| LacpRx.RecordPartner | drni/LacpRxSM.cpp:301-330 | the LACPDU's actor becomes the partner and the actor is no longer defaulted |
| LacpRx.RecordPdu | drni/LacpRxSM.cpp:301-376 | the partner becomes the LACPDU's actor, with sync as computed; version-2 information is recorded only when both ends run version 2 |
| LacpRx.RecordPduIdempotent | drni/LacpRxSM.cpp:301-376 | recording the same LACPDU twice is recording it once |
| LacpRx.RecordedSenderIsPartner | drni/LacpRxSM.cpp:301-376 | after recording, the sender is the known partner, so the same LACPDU does not unselect the port |
| LacpRx.Version1PduRecordsDefaults | drni/LacpRxSM.cpp:301-376 | with a version-1 end, the link information recorded is the version-2 defaults |
| LacpRx.ActorAdminChange | drni/LacpRxSM.cpp:396-428 | the admin bits and key become operational; NTT raised; unselected iff the LAG identity changed or it already was |
| LacpRx.ActorAdminChangeIdempotent | drni/LacpRxSM.cpp:396-428 | applying the admin values twice is applying them once |
| LacpRx.UpdateLinkNumber | drni/LacpRxSM.cpp:526-544 | a defaulted or version-1 partner's link number falls back to the admin number; a collecting port keeps its operational number and asks for a link-state update when selected; otherwise the admin number is adopted and NTT raised when in sync |
| LacpRx.EnterInitialize | drni/LacpRxSM.cpp:140-149 | unselected, defaulted, not expired, not moved |
| LacpRx.EnterPortDisabled | drni/LacpRxSM.cpp:151-164 | the partner is out of sync and taken as version 1; nothing else changes |
| LacpRx.EnterLacpDisabled | drni/LacpRxSM.cpp:166-180 | unselected and defaulted, with the partner recorded as individual |
| LacpRx.EnterExpired | drni/LacpRxSM.cpp:182-207 | the partner is out of sync with short timeouts, the actor expired, the short timer loaded; NTT raised for version 1 |
| LacpRx.EnterDefaulted | drni/LacpRxSM.cpp:209-222 | the defaults recorded, unselected iff they change the partner's identity |
| LacpRx.EnterCurrent | drni/LacpRxSM.cpp:224-243 | a new partner is unselected; NTT iff the partner's view is stale; the actor neither defaulted nor expired |
| LacpRx.EnterCurrentRecordsPdu | drni/LacpRxSM.cpp:224-243 | CURRENT records exactly what recordPdu records |
| LacpRx.EnterCurrentRequests | drni/LacpRxSM.cpp:224-243 | the change requests CURRENT raises are those of recordPdu after updateSelected |
| LacpRx.AdminPrelude | drni/LacpRxSM.cpp:64-73 | pending admin changes are applied and consumed; the partner and the machine state are untouched |
| LacpRx.Prepare | drni/LacpRxSM.cpp:60-73 | the prelude and the ISS state read: the frame slot emptied, the operational flag set from the ISS, the administrative change requests consumed, the partner, transmit state and the machine's state and timer kept |
| LacpRx.DisabledStep | drni/LacpRxSM.cpp:60-138 | the PORT_DISABLED and LACP_DISABLED transitions, and nothing changes without one |
| LacpRx.ReceiveStep | drni/LacpRxSM.cpp:60-138 | a LACPDU enters CURRENT exactly as `EnterCurrent` does; a timeout leaves CURRENT for PORT_DISABLED and EXPIRED for DEFAULTED; nothing changes without either |
| LacpRx.Step | drni/LacpRxSM.cpp:58-138 | the exact result of every transition, on the port as the management prelude and the port's operational state leave it: the global transition to PORT_DISABLED; INITIALIZE and any unknown state to PORT_DISABLED; PORT_DISABLED to INITIALIZE if moved, else once operational to EXPIRED or LACP_DISABLED; LACP_DISABLED to PORT_DISABLED when LACP is enabled and re-entered on a partner admin change; a LACPDU in EXPIRED, DEFAULTED or CURRENT enters CURRENT, recording the partner and unselecting a new one; without one EXPIRED to DEFAULTED and CURRENT to PORT_DISABLED on timeout, DEFAULTED re-entered on a partner admin change; no transition leaves the prepared port and a machine at rest takes none |
| LacpRx.Run | drni/LacpRxSM.cpp:44-57 | at most ten transitions, one when single-stepping; a down port that has not moved ends in PORT_DISABLED out of sync; single-stepping a LACPDU in EXPIRED, DEFAULTED or CURRENT gives exactly the CURRENT entry on the prepared port |
| LacpRx.Reset | drni/LacpRxSM.cpp:22-33 | INITIALIZE with the timer stopped and the port taken as down; unselected with a new partner; NTT; defaults recorded |
| LacpRx.TimerTick | drni/LacpRxSM.cpp:37-40 | the current-while timer counts down by one and stops at zero |
| LacpTx.PrepareLacpdu | drni/LacpTxSM.cpp:247-304 | the version is the actor's; the version-2 TLVs are present iff the version is at least 2; the mask TLVs never are |
| LacpTx.TransmitLacpdu | drni/LacpTxSM.cpp:210-244 | a LACPDU is sent iff the port is up, and it is the prepared one |
| LacpTx.EnterNoTx | drni/LacpTxSM.cpp:136-150 | NO_TX; version 1 clears NTT, the count and the limit timer; version 2 stops the periodic timer |
| LacpTx.EnterPeriodic | drni/LacpTxSM.cpp:152-164 | FAST or SLOW_PERIODIC with the matching timer; the count and NTT are kept |
| LacpTx.EnterResetTxCount | drni/LacpTxSM.cpp:166-171 | the transmit count is zero; nothing else changes |
| LacpTx.EnterTxLacpduV1 | drni/LacpTxSM.cpp:174-191 | the prepared LACPDU is sent iff the port is up; sending clears NTT and counts the frame in the current limit interval |
| LacpTx.EnterTxLacpduV2 | drni/LacpTxSM.cpp:192-206 | the prepared LACPDU is sent iff up; NTT cleared, the count raised by one, the periodic state re-entered |
| LacpTx.StepV1 | drni/LacpTxSM.cpp:60-83 | disabling sends the machine to NO_TX; enabled NO_TX enters RESET_TX_COUNT; RESET_TX_COUNT enters TX_LACPDU iff NTT; TX_LACPDU transmits again iff NTT and the count is below the limit, else returns to RESET_TX_COUNT iff the limit timer has run out; any other state goes to NO_TX; outside NO_TX the count restarts only when the limit interval has run out or the machine enters NO_TX; inside a running interval the timer is untouched and the count grows by the frames sent; a LACPDU is sent iff up, enabled, NTT pending and the count below the limit |
| LacpTx.OpportunityPrelude | drni/LacpTxSM.cpp:86-91 | an expired limit interval restarts with the count at zero; the opportunity holds iff the count is within the limit |
| LacpTx.NoTxStepAsWritten | drni/LacpTxSM.cpp:104-107 | as written, NO_TX is left only for FAST_PERIODIC, by exactly its entry; otherwise the port is unchanged but for the slow timer being loaded |
| LacpTx.NoTxAsWrittenStuck | drni/LacpTxSM.cpp:104-107 | with long partner timeouts, as written, the machine stays in NO_TX and never sends |
| LacpTx.NoTxStep | drni/LacpTxSM.cpp:104-107 | as intended, NO_TX passes to the periodic state that matches the partner's timeout |
| LacpTx.NoTxStepLeavesNoTx | drni/LacpTxSM.cpp:104-107 | as intended, NO_TX is always left, FAST_PERIODIC iff the partner uses short timeouts |
| LacpTx.PeriodicStepV2 | drni/LacpTxSM.cpp:104-122 | NO_TX is left by the corrected rule `NoTxStep`; a periodic state with its trigger and an opportunity enters TX_LACPDU; FAST_PERIODIC without a send moves to SLOW_PERIODIC iff neither NTT nor an expired timer and the partner uses long timeouts; SLOW_PERIODIC without a send rests; any other state goes to NO_TX; a state that rests is unchanged |
| LacpTx.StepV2 | drni/LacpTxSM.cpp:84-123 | after the prelude, the global condition sends the machine to NO_TX; otherwise NO_TX is left by the corrected rule, a triggered periodic state with an opportunity enters TX_LACPDU, FAST_PERIODIC drops to SLOW_PERIODIC exactly under the long-timeout rule, SLOW_PERIODIC rests and other states go to NO_TX; sending needs the port up, the opportunity and a trigger; the count stays within one past the limit |
| LacpTx.Step | drni/LacpTxSM.cpp:55-133 | version 1 or version 2 with the corrected NO_TX rule; only the transmit state changes; a sent frame is the prepared LACPDU, needs the port up and clears NTT; both count bounds are kept; outside NO_TX a version-1 count restarts only when the limit interval has run out or the machine enters NO_TX, and inside a running interval it grows by exactly the frames sent |
| LacpTx.Run | drni/LacpTxSM.cpp:39-52 | steps of `LacpTx.Step`: at most ten transitions and no more frames than transitions; every frame is the prepared LACPDU; nothing is sent when down; count bounds kept; inside a running version-1 limit interval the run stays in it, the count grows by the frames sent and no more frames go out than the limit allows |
| LacpTx.Reset | drni/LacpTxSM.cpp:22-27 | NO_TX with the count and limit timer at zero; version 1 leaves NTT clear |
| LacpTx.ResetWithinLimits | drni/LacpTxSM.cpp:22-27 | a reset port satisfies both count bounds |
| LacpTx.TimerTick | drni/LacpTxSM.cpp:31-35 | the limit and periodic timers count down by one and stop at zero |
| LacpLink.ReceiverLearnsSender | drni/LacpRxSM.cpp:301-376 | the receiver of a prepared LACPDU takes the sender's actor as its partner, and its version-2 link information when both ends run version 2 |
| LacpLink.NttQuietIffEcho | drni/LacpRxSM.cpp:282-299 | the receiver's NTT stays clear iff the sender's partner view equals the receiver's actor in identity, key and the four compared bits |
| LacpLink.RecordedPartnerEchoes | drni/LacpRxSM.cpp:380-386 | once b has recorded a's LACPDU, the reply names a as its partner, and leaves a's NTT alone iff the recorded sync bit matches |
| LacpLink.RepeatedLacpduIsQuiet | drni/LacpRxSM.cpp:273-280 | a repeated LACPDU from the same sender records nothing new and does not unselect |
| PortManagement.DefaultLinkNumber | drni/AggPort.cpp:68-70 | the default link number is the port number's low byte plus one, so it lies in 1..256 |
| PortManagement.NewAggPort | drni/AggPort.cpp:23-102 | identifiers, keys and states from the system and port numbers; the partner admin identity equals its operational one; no change flags; unselected; empty masks |
| PortManagement.PortNumbersDistinguish | drni/AggPort.cpp:23-102 | distinct port numbers below 0x0f00 give distinct port identifiers; default link numbers agree iff the low bytes do |
| PortManagement.Reset | drni/AggPort.cpp:116-150 | both LACP machines reset; unselected; actor algorithm unspecified with zero digests; all masks clear; NTT unless version 1 |
| PortManagement.TimerTick | drni/AggPort.cpp:152-158 | every port timer counts down by one and stops at zero; nothing else changes |
| PortManagement.Run | drni/AggPort.cpp:160-166 | the receive machine then the transmit machine, with the corrected NO_TX rule; nothing is sent when down; every frame is the prepared LACPDU; single-stepping a received LACPDU leaves the partner, link, selection, actor, receive state and change requests exactly as the CURRENT entry records them |
| PortManagement.SetActorSystemId | drni/AggPort.cpp:178-183 | the address is replaced and the priority kept; a change is flagged iff the identity changed |
| PortManagement.SetActorSystemPriority | drni/AggPort.cpp:191-196 | the priority is replaced and the address kept; a change is flagged iff the identity changed |
| PortManagement.ActorSystemId | drni/AggPort.cpp:185-189 | the 64-bit identifier, priority above address |
| PortManagement.SystemIdSettersCompose | drni/AggPort.cpp:178-196 | setting address then priority gives exactly that identifier |
| PortManagement.SetActorAdminKey | drni/AggPort.cpp:203-209 | the key is stored; the key-change flag is raised iff it differs while the oper key still equals the admin key; flags are sticky |
| PortManagement.AdminKeyReachesOperKey | drni/AggPort.cpp:203-209 | after the receive machine's prelude, the new admin key is the operational key |
| PortManagement.SetPartnerAdmin | drni/AggPort.cpp:221-260 | one partner admin field takes the new value, every other one is kept, and the partner-admin change is flagged |
| PortManagement.SetActorPort | drni/AggPort.cpp:287-302 | the port number or priority is replaced and an actor admin change is flagged |
| PortManagement.SetActorAdminState | drni/AggPort.cpp:341-346 | the admin state reads back as the given octet and an actor admin change is flagged |
| PortManagement.ActorAdminState | drni/AggPort.cpp:348-351 | the returned octet decodes to the admin state |
| PortManagement.SetProtocolDA | drni/AggPort.cpp:379-382 | the destination address is stored and nothing else changes |
| PortManagement.SelectedAggId | drni/AggPort.cpp:271-277 | the Aggregator identifier iff the port is SELECTED, otherwise 0 |
| PortManagement.AttachedAggId | drni/AggPort.cpp:279-285 | the Aggregator identifier iff the actor is in sync, otherwise 0 |
| PortManagement.SetWtrTime | drni/AggPort.cpp:389-399 | the stored time is at most 0x7fff; revertive iff the top bit is clear |
| PortManagement.WtrTime | drni/AggPort.cpp:401-407 | the low 15 bits are the stored time; the top bit is set iff non-revertive |
| PortManagement.WtrRoundTrip | drni/AggPort.cpp:389-407 | reading back after setting gives every 16-bit value unchanged |
| PortManagement.WtrReadBack | drni/AggPort.cpp:389-407 | setting the value read back leaves the port unchanged |
| PortManagement.SetLinkNumber | drni/AggPort.cpp:433-442 | a non-zero new number is stored and flagged; 0 and the current value are ignored |
| PortManagement.LinkNumber | drni/AggPort.cpp:444-447 | the getter reads the administrative link number that `SetLinkNumber` stores |
| PortManagement.LinkNumberRoundTrip | drni/AggPort.cpp:433-447 | reading back after setting gives the new number, or the old one when 0 was given |
| PortManagement.OperLinkNumberAsWritten | drni/AggPort.cpp:449-452 | as written, the operational link number getter returns the admin number |
| PortManagement.OperLinkNumber | drni/AggPort.cpp:449-452 | as intended, the operational link number is the one the port's LACPDUs carry |
| PortManagement.OperLinkNumberAsWrittenDiffers | drni/AggPort.cpp:449-452 | after an admin change on a collecting port, the getter as written disagrees with the transmitted number |

## Left out

- The Mux, Periodic and Selection machines of the Aggregation Port, and the Aggregator. They are not part of this model. Their fields that the modelled routines read or write are plain record fields.
- Frame plumbing: queues of frames, the MAC and ISS objects, and `LinkAgg::frameConvID`. The routing functions take the conversation identifiers and the operational states as parameters.
- `AggPort.h`, `Aggregator.h` and `Mac.h` are not part of this model. The LACP timing constants and the transmit limit are the `PortConstants` parameter. The progress bounds that need non-zero timeouts state that as a hypothesis.
- The algorithm enumeration's numeric values are declared in a header that is not part of this model. Only "unspecified" (`0x0080C200`) and "none" (0) are used, and nothing depends on their values beyond being distinct.
- Sequence numbers never wrap: they are naturals here, and `unsigned long` in the code.
- Logging, and the simulation clock used only for logging.
- Code that is commented out is not modelled. This covers the AX-2014-only attributes in `AggPort.cpp` (long-PDU transmission, the partner admin conversation mask) and `drniCompareLists`.
- The plain getters of `AggPort.cpp` that return one field unchanged have no member of their own, except `get_aAggPortLinkNumberID` (`PortManagement.LinkNumber`), which the link-number finding needs. The others' fields are read directly.
- `DrcpTxSM::reset` and `DrcpTxSM::timerTick` have empty bodies. The DRCP timers are ticked by `DrniRun.TimerTick`.
- Machine states that the constructors leave unset before the first `reset` are inputs (`unset` in `DistributedRelay.Create`).
- LacpTx.PeriodicStepV2: in NO_TX it runs the corrected rule `NoTxStep`, not `drni/LacpTxSM.cpp:106` as written (`NoTxStepAsWritten`), following the finding on that line. With long partner timeouts the code stays in NO_TX; the model moves to SLOW_PERIODIC.
- LacpTx.StepV2: the NO_TX transition it states is the corrected one, for the same reason as `LacpTx.PeriodicStepV2`.
- LacpTx.Step: its version-2 branch is `LacpTx.StepV2`, so it runs the corrected NO_TX rule.
- LacpTx.Run: steps with `LacpTx.Step`, so it runs the corrected NO_TX rule.
- PortManagement.Run: runs `LacpTx.Run`, so a version-2 port with long partner timeouts leaves NO_TX and transmits, where the code as written never does.
- PortManagement.NewAggPort: states `changeActorSystem` and `changeActorAdminPortKey` false. The constructor in `drni/AggPort.cpp` never assigns them; their initial value comes from `AggPort.h`, which is not part of this model.

## Findings

| source | as written | input that shows it | evidently intended | confidence | as-written member | corrected member |
|---|---|---|---|---|---|---|
| drni/DistributedRelay.cpp:214 and drni/DistributedRelay.cpp:328 | the Down frame is moved into a new `pTempFrame` declared inside the `if`, with the IRP attached (line 214) and in the transparent case (line 328); it shadows the outer one and is destroyed at the end of the block | any Down frame queued while the relay is operational: it is popped and never routed | move the frame into the outer `pTempFrame` so that the routing below sees it | high, not executed | DrniRun.TakeDownFrameAsWritten | DrniRun.TakeDownFrame |
| drni/DistributedRelay.cpp:247-248 | a Down frame goes through the IRP only when its port conversation is on this system's Aggregator and not on the neighbour's | gateway open here, port conversation on the neighbour's Aggregator, IRC data enabled: the frame is discarded | send it through the IRP when the port conversation is the neighbour's (`!homeAggregatorMask && nborAggregatorMask`) | medium, not executed | DrniRun.DownRouteAsWritten | DrniRun.DownRoute |
| drni/LacpTxSM.cpp:106 | in NO_TX with long partner timeouts, `enterSlowPeriodic` is called but its returned state is discarded | a version-2 port whose partner uses long timeouts: the machine stays in NO_TX and never sends | `nextTxSmState = enterSlowPeriodic(port)` | high, not executed | LacpTx.NoTxStepAsWritten | LacpTx.NoTxStep |
| drni/AggPort.cpp:449-452 | the operational link-number getter returns the admin link number | a collecting version-2 port whose admin link number is changed: the getter returns the new number while LACPDUs still carry the old one | return the operational link number | medium, not executed | PortManagement.OperLinkNumberAsWritten | PortManagement.OperLinkNumber |

=== FILE: agg_port.dfy ===
/** An Aggregation Port as management sees it: the constructor's initial values, `reset`,
    `timerTick` and `run` over the port's LACP machines, and the managed-object accessors
    of section 7.3.2 of IEEE Std 802.1AX-2014 (the `aAggPort...` attributes). */
module PortManagement {
  import opened Common
  import opened LacpPort
  import LacpRx
  import LacpTx

  /** The Slow_Protocols_Multicast address 01-80-C2-00-00-02, the default LACPDU destination. */
  const SlowProtocolsDA: uint48 := 0x0180_C200_0002

  /** What the port's Aggregator part contributes when a port is built: the system
      identifier and the LACP versions and collector delay it starts with.  The Aggregator
      class is not part of this model, so these are parameters. */
  datatype AggregatorInit = AggregatorInit(
    system: SysId,
    actorVersion: uint8,
    partnerVersion: uint8,
    collectorMaxDelay: uint16)

  /** The low 16 bits of a non-negative value: assignment to an `unsigned short`. */
  function U16(x: nat): (r: uint16)
    ensures r == x % 0x1_0000
    ensures x < 0x1_0000 ==> r == x
  {
    x % 0x1_0000
  }

  /** `aggregationPortIdentifier` of port `portNum` of system `systemNum`. */
  function PortIdentifier(systemNum: uint16, portNum: uint16): uint16 {
    U16(systemNum * 0x1000 + 0x0100 + portNum)
  }

  /** The default administrative link number of port `portNum`: its low eight bits plus
      one, since link number zero means "no link". */
  function DefaultLinkNumber(portNum: uint16): (n: LinkNum)
    ensures 1 <= n <= 256
    ensures n == (portNum % 0x100) + 1
  {
    (portNum % 0x100) + 1
  }

  /** The `AggPort` constructor.  The machines' states are left unset until `reset`; the
      receive machine's LACP is enabled and the transmit machine's transmission is
      disabled until the Periodic machine enables it. */
  function NewAggPort(agg: AggregatorInit, systemNum: uint16, portNum: uint16, k: PortConstants): (p: AggPort)
    ensures p.portId == PortIdentifier(systemNum, portNum) && p.actor.port == PortId(0, p.portId)
    ensures p.actor.adminKey == U16(systemNum * 0x100 + k.defaultActorKey) && p.actor.operKey == p.actor.adminKey
    ensures p.actor.operState == p.actor.adminState == k.defaultPortState
    ensures p.actor.operSystem == p.actor.adminSystem == agg.system
    ensures p.partner.adminSystem == NullSysId && p.partner.adminPort == PortId(0, portNum)
    ensures p.partner.adminKey == U16(systemNum * 0x100 + k.defaultPartnerKey + portNum)
    ensures p.partner.adminState == k.defaultPartnerPortState
    ensures !LacpRx.PartnerOperNotAdmin(p.partner) && p.partner.operState == p.partner.adminState
    ensures p.link.adminLinkNumber == DefaultLinkNumber(portNum)
    ensures p.link.linkNumber == p.link.partnerLinkNumber == p.link.adminLinkNumber
    ensures p.link.actorAlgorithm == Unspecified && p.link.partnerAlgorithm == NoneAlg
    ensures p.link.actorLinkDigest == p.link.actorServiceDigest == ZeroDigest
    ensures p.link.partnerLinkDigest == p.link.partnerServiceDigest == ZeroDigest
    ensures p.change == ChangeFlags(false, false, false, false, false, false, false, false)
    ensures !p.ntt && !p.tx.lacpTxEnabled && p.rx.lacpEnabled && !p.rx.portOperational && p.rx.frame == None
    ensures p.sel.selected == Unselected && p.sel.aggregatorIdentifier == 0 && p.sel.wtrRevertive
    ensures p.sel.operConversationMask == p.sel.distributionMask == p.sel.collectionMask == AllClear
    ensures p.protocolDA == SlowProtocolsDA
  {
    var portId := PortIdentifier(systemNum, portNum);
    var adminKey := U16(systemNum * 0x100 + k.defaultActorKey);
    var partnerKey := U16(systemNum * 0x100 + k.defaultPartnerKey + portNum);
    var linkNumber := DefaultLinkNumber(portNum);
    AggPort(
      portId := portId,
      protocolDA := SlowProtocolsDA,
      ntt := false,
      actor := ActorInfo(agg.system, agg.system, PortId(0, portId), adminKey, adminKey,
                         k.defaultPortState, k.defaultPortState, agg.actorVersion, agg.collectorMaxDelay),
      partner := PartnerInfo(NullSysId, NullSysId, PortId(0, portNum), PortId(0, portNum), partnerKey, partnerKey,
                             k.defaultPartnerPortState, k.defaultPartnerPortState, agg.partnerVersion),
      link := LinkInfo(linkNumber, linkNumber, linkNumber, Unspecified, ZeroDigest, ZeroDigest,
                       NoneAlg, ZeroDigest, ZeroDigest),
      change := ChangeFlags(false, false, false, false, false, false, false, false),
      rx := LacpRxVars(RxNoState, 0, false, true, false, None),
      tx := LacpTxVars(TxNoState, 0, 0, 0, false, false),
      sel := PortSelection(
        selected := Unselected, newPartner := false, ready := false, readyN := false,
        aggregatorIdentifier := 0, aggregatorIndex := 0, individual := false, coupledMuxControl := false,
        wtrTime := 0, wtrRevertive := true, wtrWaiting := false, nonRevertive := false,
        actorAttached := false, actorDWC := false,
        operConversationMask := AllClear, distributionMask := AllClear, collectionMask := AllClear))
  }

  /** Two ports of one system with different port numbers below 0x0f00 get different
      port identifiers, and with different low eight bits different link numbers. */
  lemma {:induction false} PortNumbersDistinguish(systemNum: uint16, a: uint16, b: uint16)
    requires a != b
    ensures a < 0x0f00 && b < 0x0f00 ==> PortIdentifier(systemNum, a) != PortIdentifier(systemNum, b)
    ensures DefaultLinkNumber(a) == DefaultLinkNumber(b) <==> a % 0x100 == b % 0x100
  {
    if a < 0x0f00 && b < 0x0f00 {
      var base := systemNum * 0x1000 + 0x0100;
      if a < b {
        ShiftChangesLow16(base + a, b - a);
      } else {
        ShiftChangesLow16(base + b, a - b);
      }
    }
  }

  /** Adding less than 2^16 (and more than zero) changes the low 16 bits. */
  lemma ShiftChangesLow16(x: nat, d: nat)
    requires 0 < d < 0x1_0000
    ensures (x + d) % 0x1_0000 != x % 0x1_0000
  {
    var q, r := x / 0x1_0000, x % 0x1_0000;
    assert x + d == q * 0x1_0000 + (r + d);
    if r + d < 0x1_0000 {
      assert (x + d) % 0x1_0000 == r + d;
    } else {
      assert x + d == (q + 1) * 0x1_0000 + (r + d - 0x1_0000);
      assert (x + d) % 0x1_0000 == r + d - 0x1_0000;
    }
  }

  /** `reset`: the receive and transmit machines' resets (the Mux and Periodic machines
      are not part of this model), then the Selection Logic's variables: not ready, no
      Aggregator, no waiting to restore, the actor's algorithm UNSPECIFIED with zero
      digests, no pending requests for the Aggregator and all three conversation masks
      clear.  NTT is left requested for a version-2 actor; the version-1 NO_TX entry drops
      it. */
  function Reset(p: AggPort): (r: AggPort)
    ensures r.rx.state == Initialize && r.tx.state == NoTx && r.tx.txCount == 0 && r.tx.txLimitTimer == 0
    ensures r.ntt <==> !LacpTx.IsVersion1(p)
    ensures r.sel.selected == Unselected && !r.sel.ready && !r.sel.wtrWaiting && !r.sel.nonRevertive
    ensures r.sel.aggregatorIdentifier == 0 && r.sel.aggregatorIndex == 0 && !r.sel.individual && !r.sel.actorDWC
    ensures r.link.actorAlgorithm == Unspecified && r.link.actorLinkDigest == r.link.actorServiceDigest == ZeroDigest
    ensures r.link.linkNumber == p.link.adminLinkNumber && r.link.partnerLinkNumber == p.link.adminLinkNumber
    ensures !r.change.actorDistributing && !r.change.partnerOperDistAlg && !r.change.portLinkState
    ensures !r.change.actorAdmin && !r.change.adminLinkNumber
    ensures r.sel.operConversationMask == r.sel.distributionMask == r.sel.collectionMask == AllClear
    ensures r.partner.operSystem == p.partner.adminSystem && r.partner.operKey == p.partner.adminKey
    ensures r.actor.operState.defaulted && r.rx.frame == None
  {
    var t := LacpTx.Reset(LacpRx.Reset(p));
    t.(link := t.link.(actorAlgorithm := Unspecified, actorLinkDigest := ZeroDigest, actorServiceDigest := ZeroDigest),
       change := t.change.(actorDistributing := false, partnerOperDistAlg := false, portLinkState := false),
       sel := t.sel.(ready := false, wtrWaiting := false, nonRevertive := false, aggregatorIdentifier := 0,
                     aggregatorIndex := 0, individual := false, operConversationMask := AllClear,
                     distributionMask := AllClear, collectionMask := AllClear, actorDWC := false))
  }

  /** `timerTick`: the receive and transmit machines' timers count down (the Mux and
      Periodic machines' timers are not part of this model). */
  function TimerTick(p: AggPort): (r: AggPort)
    ensures r.rx == p.rx.(currentWhileTimer := r.rx.currentWhileTimer)
    ensures r.rx.currentWhileTimer == if p.rx.currentWhileTimer > 0 then p.rx.currentWhileTimer - 1 else 0
    ensures r.tx == p.tx.(txLimitTimer := r.tx.txLimitTimer, txWhen := r.tx.txWhen)
    ensures r.tx.txLimitTimer == if p.tx.txLimitTimer > 0 then p.tx.txLimitTimer - 1 else 0
    ensures r.tx.txWhen == if p.tx.txWhen > 0 then p.tx.txWhen - 1 else 0
    ensures r == p.(rx := r.rx, tx := r.tx)
  {
    LacpTx.TimerTick(LacpRx.TimerTick(p))
  }

  /** `run`: the receive machine runs, then the transmit machine (the Mux and Periodic
      machines that run between them are not part of this model).  Every LACPDU sent
      carries what the receive machine left: the partner it recorded and the actor's
      state. */
  method Run(p: AggPort, issOperational: bool, pointToPoint: bool, k: PortConstants, singleStep: bool)
    returns (r: AggPort, sent: seq<Lacpdu>)
    ensures r.rx.frame == None && r.rx.portOperational == issOperational
    ensures !issOperational ==> sent == []
    ensures forall i :: 0 <= i < |sent| ==> sent[i] == LacpTx.PrepareLacpdu(r)
    ensures |sent| <= 10 && (singleStep ==> |sent| <= 1)
    ensures !issOperational && !p.rx.portMoved ==>
              r.rx.state == PortDisabled && !r.partner.operState.sync
    ensures (singleStep && !LacpRx.GlobalDisable(p, issOperational) && p.rx.state in {Expired, Defaulted, Current}
             && p.rx.frame.Some?) ==>
              var q := LacpRx.EnterCurrent(LacpRx.Prepare(p, issOperational), p.rx.frame.value, k);
              && r.partner == q.partner && r.link == q.link && r.sel == q.sel && r.actor == q.actor
              && r.rx == q.rx && r.change == q.change
  {
    var q, rxTransitions := LacpRx.Run(p, issOperational, k, singleStep);
    var txTransitions;
    r, sent, txTransitions := LacpTx.Run(q, k, issOperational, pointToPoint, singleStep);
  }

  /** `set_aAggPortActorSystemID`: the address part of the actor's administrative system
      identifier.  A change of system is requested (sticky) when the address differs while
      the administrative address is the operational one. */
  function SetActorSystemId(p: AggPort, addr: uint48): (r: AggPort)
    ensures r.actor.adminSystem == SysId(p.actor.adminSystem.pri, addr)
    ensures r.change.actorSystem <==>
              p.change.actorSystem || (addr != p.actor.adminSystem.addr && p.actor.operSystem.addr == p.actor.adminSystem.addr)
    ensures r == p.(actor := p.actor.(adminSystem := r.actor.adminSystem), change := p.change.(actorSystem := r.change.actorSystem))
  {
    var raise := addr != p.actor.adminSystem.addr && p.actor.operSystem.addr == p.actor.adminSystem.addr;
    p.(actor := p.actor.(adminSystem := p.actor.adminSystem.(addr := addr)),
       change := p.change.(actorSystem := p.change.actorSystem || raise))
  }

  /** `set_aAggPortActorSystemPriority`: the priority part, with the same request rule. */
  function SetActorSystemPriority(p: AggPort, pri: uint16): (r: AggPort)
    ensures r.actor.adminSystem == SysId(pri, p.actor.adminSystem.addr)
    ensures r.change.actorSystem <==>
              p.change.actorSystem || (pri != p.actor.adminSystem.pri && p.actor.operSystem.pri == p.actor.adminSystem.pri)
    ensures r == p.(actor := p.actor.(adminSystem := r.actor.adminSystem), change := p.change.(actorSystem := r.change.actorSystem))
  {
    var raise := pri != p.actor.adminSystem.pri && p.actor.operSystem.pri == p.actor.adminSystem.pri;
    p.(actor := p.actor.(adminSystem := p.actor.adminSystem.(pri := pri)),
       change := p.change.(actorSystem := p.change.actorSystem || raise))
  }

  /** `get_aAggPortActorSystemID`: the whole 64-bit administrative system identifier,
      priority and address. */
  function ActorSystemId(p: AggPort): (id: nat)
    ensures id < 0x1_0000_0000_0000_0000
  {
    p.actor.adminSystem.Id()
  }

  /** Setting either part of the system identifier leaves the other part as it was, as the
      64-bit value read back shows. */
  lemma SystemIdSettersCompose(p: AggPort, pri: uint16, addr: uint48)
    ensures ActorSystemId(SetActorSystemPriority(SetActorSystemId(p, addr), pri)) == SysId(pri, addr).Id()
    ensures SetActorSystemPriority(SetActorSystemId(p, addr), pri).actor.adminSystem
            == SetActorSystemId(SetActorSystemPriority(p, pri), addr).actor.adminSystem
  {
  }

  /** `set_aAggPortActorAdminKey`: a key change is requested (sticky) when the key differs
      while the operational key is the administrative one, and any pending key-change
      request -- old or new -- also requests an actor admin change. */
  function SetActorAdminKey(p: AggPort, key: uint16): (r: AggPort)
    ensures r.actor.adminKey == key
    ensures r.change.actorAdminPortKey <==>
              p.change.actorAdminPortKey || (key != p.actor.adminKey && p.actor.operKey == p.actor.adminKey)
    ensures r.change.actorAdmin <==> p.change.actorAdmin || r.change.actorAdminPortKey
    ensures r == p.(actor := p.actor.(adminKey := key),
                    change := p.change.(actorAdminPortKey := r.change.actorAdminPortKey, actorAdmin := r.change.actorAdmin))
  {
    var keyFlag := p.change.actorAdminPortKey || (key != p.actor.adminKey && p.actor.operKey == p.actor.adminKey);
    p.(actor := p.actor.(adminKey := key),
       change := p.change.(actorAdminPortKey := keyFlag, actorAdmin := p.change.actorAdmin || keyFlag))
  }

  /** A new administrative key reaches the operational key at the receive machine's next
      step, when the operational key was tracking the administrative one. */
  lemma AdminKeyReachesOperKey(p: AggPort, key: uint16)
    requires p.actor.operKey == p.actor.adminKey && key != p.actor.adminKey
    ensures LacpRx.AdminPrelude(SetActorAdminKey(p, key)).actor.operKey == key
  {
  }

  /** The partner's administrative values, one setter per field; each changes its own field
      only and always requests that the receive machine re-read the partner's admin values. */
  datatype PartnerAdminField =
    | PartnerSystemAddr(addr: uint48)
    | PartnerSystemPriority(pri: uint16)
    | PartnerKey(key: uint16)
    | PartnerPortNumber(num: uint16)
    | PartnerPortPriority(pri: uint16)
    | PartnerState(state: LacpState)

  /** `set_aAggPortPartnerAdminSystemID`, `...SystemPriority`, `...Key`, `...Port`,
      `...PortPriority` and `...State`. */
  function SetPartnerAdmin(p: AggPort, f: PartnerAdminField): (r: AggPort)
    ensures r.change == p.change.(partnerAdmin := true)
    ensures r == p.(partner := r.partner, change := r.change)
    ensures r.partner.operSystem == p.partner.operSystem && r.partner.operPort == p.partner.operPort
    ensures r.partner.operKey == p.partner.operKey && r.partner.operState == p.partner.operState
    ensures r.partner.version == p.partner.version
    ensures PartnerAdminOf(r.partner, f) == f
    ensures forall g :: !SameField(f, g) ==> PartnerAdminOf(r.partner, g) == PartnerAdminOf(p.partner, g)
  {
    var a := p.partner;
    var n := match f
      case PartnerSystemAddr(addr) => a.(adminSystem := a.adminSystem.(addr := addr))
      case PartnerSystemPriority(pri) => a.(adminSystem := a.adminSystem.(pri := pri))
      case PartnerKey(key) => a.(adminKey := key)
      case PartnerPortNumber(num) => a.(adminPort := a.adminPort.(num := num))
      case PartnerPortPriority(pri) => a.(adminPort := a.adminPort.(pri := pri))
      case PartnerState(state) => a.(adminState := state);
    p.(partner := n, change := p.change.(partnerAdmin := true))
  }

  /** Which field a setter writes. */
  predicate SameField(f: PartnerAdminField, g: PartnerAdminField) {
    match f
    case PartnerSystemAddr(_) => g.PartnerSystemAddr?
    case PartnerSystemPriority(_) => g.PartnerSystemPriority?
    case PartnerKey(_) => g.PartnerKey?
    case PartnerPortNumber(_) => g.PartnerPortNumber?
    case PartnerPortPriority(_) => g.PartnerPortPriority?
    case PartnerState(_) => g.PartnerState?
  }

  /** The partner's administrative value of the field `f` names, as the matching getter
      reads it, in the shape of a setter argument. */
  function PartnerAdminOf(a: PartnerInfo, f: PartnerAdminField): (v: PartnerAdminField)
    ensures SameField(f, v)
  {
    match f
    case PartnerSystemAddr(_) => PartnerSystemAddr(a.adminSystem.addr)
    case PartnerSystemPriority(_) => PartnerSystemPriority(a.adminSystem.pri)
    case PartnerKey(_) => PartnerKey(a.adminKey)
    case PartnerPortNumber(_) => PartnerPortNumber(a.adminPort.num)
    case PartnerPortPriority(_) => PartnerPortPriority(a.adminPort.pri)
    case PartnerState(_) => PartnerState(a.adminState)
  }

  /** `set_aAggPortActorPort` and `set_aAggPortActorPortPriority`: the actor's port
      identifier; an actor admin change is requested. */
  function SetActorPort(p: AggPort, num: Option<uint16>, pri: Option<uint16>): (r: AggPort)
    ensures r.actor.port.num == (if num.Some? then num.value else p.actor.port.num)
    ensures r.actor.port.pri == (if pri.Some? then pri.value else p.actor.port.pri)
    ensures r.change == p.change.(actorAdmin := true)
    ensures r == p.(actor := p.actor.(port := r.actor.port), change := r.change)
  {
    var port := p.actor.port;
    var port1 := if num.Some? then port.(num := num.value) else port;
    var port2 := if pri.Some? then port1.(pri := pri.value) else port1;
    p.(actor := p.actor.(port := port2), change := p.change.(actorAdmin := true))
  }

  /** `set_aAggPortActorAdminState`: the administrative state octet, read bit by bit; an
      actor admin change is requested.  The getter returns the octet that was set. */
  function SetActorAdminState(p: AggPort, state: bv8): (r: AggPort)
    ensures LacpStateToByte(r.actor.adminState) == state
    ensures r.change == p.change.(actorAdmin := true)
    ensures r == p.(actor := p.actor.(adminState := r.actor.adminState), change := r.change)
  {
    p.(actor := p.actor.(adminState := LacpStateFromByte(state)), change := p.change.(actorAdmin := true))
  }

  /** `get_aAggPortActorAdminState`. */
  function ActorAdminState(p: AggPort): (state: bv8)
    ensures LacpStateFromByte(state) == p.actor.adminState
  {
    LacpStateRoundTrip(p.actor.adminState);
    LacpStateToByte(p.actor.adminState)
  }

  /** `set_aAggPortProtocolDA`. */
  function SetProtocolDA(p: AggPort, addr: uint48): (r: AggPort)
    ensures r.protocolDA == addr && r == p.(protocolDA := addr)
  {
    p.(protocolDA := addr)
  }

  /** `get_aAggPortSelectedAggID`: the Aggregator's identifier while the port is SELECTED,
      otherwise zero. */
  function SelectedAggId(p: AggPort): (id: uint16)
    ensures p.sel.selected == Selected ==> id == p.sel.aggregatorIdentifier
    ensures p.sel.selected != Selected ==> id == 0
  {
    if p.sel.selected == Selected then p.sel.aggregatorIdentifier else 0
  }

  /** `get_aAggPortAttachedAggID`: the Aggregator's identifier while the actor is in sync,
      otherwise zero. */
  function AttachedAggId(p: AggPort): (id: uint16)
    ensures p.actor.operState.sync ==> id == p.sel.aggregatorIdentifier
    ensures !p.actor.operState.sync ==> id == 0
  {
    if p.actor.operState.sync then p.sel.aggregatorIdentifier else 0
  }

  /** `set_aAggPortWTRTime`: the low fifteen bits (`wtr & 0x7fff`, the remainder modulo
      0x8000) are the Wait-To-Restore time, and the top bit, when set, makes the port
      non-revertive. */
  function SetWtrTime(p: AggPort, wtr: uint16): (r: AggPort)
    ensures r.sel.wtrTime <= 0x7fff
    ensures r.sel.wtrRevertive <==> wtr < 0x8000
    ensures r == p.(sel := p.sel.(wtrTime := r.sel.wtrTime, wtrRevertive := r.sel.wtrRevertive))
  {
    p.(sel := p.sel.(wtrTime := wtr % 0x8000, wtrRevertive := wtr < 0x8000))
  }

  /** `get_aAggPortWTRTime`: the stored time with the top bit set (`| 0x8000`) when
      non-revertive. */
  function WtrTime(p: AggPort): (wtr: uint16)
    ensures wtr % 0x8000 == p.sel.wtrTime % 0x8000
    ensures p.sel.wtrTime <= 0x7fff ==> (wtr < 0x8000 <==> p.sel.wtrRevertive)
  {
    var t := p.sel.wtrTime;
    if p.sel.wtrRevertive || t >= 0x8000 then t else t + 0x8000
  }

  /** The managed value reads back as it was written, for every 16-bit value. */
  lemma WtrRoundTrip(p: AggPort, wtr: uint16)
    ensures WtrTime(SetWtrTime(p, wtr)) == wtr
  {
  }

  /** Writing back what was read leaves the Wait-To-Restore settings as they were, for
      every stored time the setter can produce. */
  lemma WtrReadBack(p: AggPort)
    requires p.sel.wtrTime <= 0x7fff
    ensures SetWtrTime(p, WtrTime(p)) == p
  {
  }

  /** `set_aAggPortLinkNumberID`: a new, non-zero administrative link number is stored and
      the receive machine is asked to apply it; zero and the current value are ignored. */
  function SetLinkNumber(p: AggPort, link: uint16): (r: AggPort)
    ensures (link > 0 && link != p.link.adminLinkNumber) ==>
              r == p.(link := p.link.(adminLinkNumber := link), change := p.change.(adminLinkNumber := true))
    ensures !(link > 0 && link != p.link.adminLinkNumber) ==> r == p
    ensures r.link.adminLinkNumber != 0 || p.link.adminLinkNumber == 0
  {
    if link > 0 && link != p.link.adminLinkNumber then
      p.(link := p.link.(adminLinkNumber := link), change := p.change.(adminLinkNumber := true))
    else p
  }

  /** `get_aAggPortLinkNumberID`: the administrative link number. */
  function LinkNumber(p: AggPort): (n: uint16)
    ensures n == p.link.adminLinkNumber
  {
    p.link.adminLinkNumber
  }

  /** Every non-zero link number written reads back; zero is refused. */
  lemma LinkNumberRoundTrip(p: AggPort, link: uint16)
    ensures LinkNumber(SetLinkNumber(p, link)) == if link > 0 then link else LinkNumber(p)
  {
  }

  /** `get_aAggPortOperLinkNumberID` AS WRITTEN: it returns the administrative link number
      rather than the operational one. */
  function OperLinkNumberAsWritten(p: AggPort): (n: uint16)
    ensures n == LinkNumber(p)
  {
    p.link.adminLinkNumber
  }

  /** `get_aAggPortOperLinkNumberID` as intended: the operational link number, the one
      the port's LACPDUs carry. */
  function OperLinkNumber(p: AggPort): (n: uint16)
    ensures p.actor.version >= 2 ==> n == LacpTx.PrepareLacpdu(p).linkNumberId
  {
    p.link.linkNumber
  }

  /** A collecting port whose administrative link number is changed keeps its operational
      link number through the receive machine's prelude, so the getter as written reports a
      number the port's LACPDUs do not carry. */
  lemma OperLinkNumberAsWrittenDiffers(p: AggPort, link: uint16)
    requires p.actor.version >= 2 && p.actor.operState.collecting
    requires p.link.linkNumber == p.link.adminLinkNumber && link > 0 && link != p.link.adminLinkNumber
    ensures var q := LacpRx.AdminPrelude(SetLinkNumber(p, link));
            OperLinkNumberAsWritten(q) == link
            && LacpTx.PrepareLacpdu(q).linkNumberId != link
            && OperLinkNumber(q) == LacpTx.PrepareLacpdu(q).linkNumberId
  {
  }
}

=== FILE: common.dfy ===
/** Value types shared by the link-aggregation (LACP) and distributed-relay (DRCP) model:
    fixed-width integers, system identifiers, 16-byte digests, the 4096-bit conversation
    masks and the per-conversation vectors of Distributed Relay Numbers. */
module Common {

  /** An optional value (a frame that may or may not be waiting, a PDU that may or may not be sent). */
  datatype Option<+T> = None | Some(value: T)

  type uint8 = x: int | 0 <= x < 0x100
  type uint16 = x: int | 0 <= x < 0x1_0000
  type uint32 = x: int | 0 <= x < 0x1_0000_0000
  type uint48 = x: int | 0 <= x < 0x1_0000_0000_0000

  /** A system identifier: a 16-bit priority above a 48-bit MAC address.  All ordering
      comparisons in the protocol use the combined 64-bit value `Id()`. */
  datatype SysId = SysId(pri: uint16, addr: uint48) {
    function Id(): (n: nat)
      ensures n < 0x1_0000_0000_0000_0000
    {
      pri * 0x1_0000_0000_0000 + addr
    }
  }

  /** The all-zero identifier (`id = 0`). */
  const NullSysId: SysId := SysId(0, 0)

  /** `a.id < b.id`, read at the level of the two parts: priority first, then address. */
  predicate Below(a: SysId, b: SysId) {
    a.pri < b.pri || (a.pri == b.pri && a.addr < b.addr)
  }

  /** `Below` is exactly the order of the 64-bit values. */
  lemma BelowIsIdOrder(a: SysId, b: SysId)
    ensures Below(a, b) <==> a.Id() < b.Id()
  {
  }

  /** Two identifiers compare equal as 64-bit values exactly when both parts agree, so
      `id == 0` is `== NullSysId` and `id == other.id` is datatype equality. */
  lemma IdInjective(a: SysId, b: SysId)
    ensures a.Id() == b.Id() <==> a == b
  {
    BelowIsIdOrder(a, b);
    BelowIsIdOrder(b, a);
  }

  /** Of any two identifiers exactly one is below the other, or they are equal. */
  lemma BelowTrichotomy(a: SysId, b: SysId)
    ensures Below(a, b) || Below(b, a) || a == b
    ensures !(Below(a, b) && Below(b, a))
  {
  }

  /** A 16-byte (MD5) digest. */
  type Digest = d: seq<uint8> | |d| == 16 witness seq(16, _ => 0)

  function DigestOf(b: uint8): (d: Digest)
    ensures forall i :: 0 <= i < 16 ==> d[i] == b
  {
    seq(16, _ => b)
  }

  /** `std::array::fill(0)` on a digest. */
  const ZeroDigest: Digest := DigestOf(0)

  /** Number of conversation identifiers (12-bit CIDs). */
  const NumCids: nat := 4096

  /** A 4096-bit conversation mask (a `std::bitset<4096>` in the system). */
  type Mask = m: seq<bool> | |m| == NumCids witness seq(4096, _ => false)

  /** One entry per conversation, every one equal to `x`. */
  function PerCid<T>(x: T): (s: seq<T>)
    ensures |s| == NumCids && forall c :: 0 <= c < NumCids ==> s[c] == x
  {
    seq(NumCids, _ => x)
  }

  /** `bitset::set()`: every conversation present. */
  const AllSet: Mask := PerCid(true)

  /** `bitset::reset()`: no conversation present. */
  const AllClear: Mask := PerCid(false)

  /** A port or gateway algorithm identifier (a 32-bit value). */
  type Alg = uint32

  /** The "unspecified" algorithm.  The enumeration's numeric values are declared in a header
      that is not part of this model; nothing below depends on them beyond their being distinct. */
  const Unspecified: Alg := 0x0080_C200

  /** The "none" algorithm recorded for a partner that sends no algorithm TLV. */
  const NoneAlg: Alg := 0

  /** A Link Number ID. */
  type LinkNum = uint16

  /** A Distributed Relay Number: which portal system owns a conversation
      (encoded 0 = none, 1 = this system, 2 = the neighbour). */
  datatype Drn = NoDrn | HomeDrn | NborDrn {
    function Code(): (c: nat)
      ensures c < 3
      ensures (c == 0) == (this == NoDrn) && (c == 1) == (this == HomeDrn)
    {
      match this
      case NoDrn => 0
      case HomeDrn => 1
      case NborDrn => 2
    }

    /** The same owner seen from the other portal system. */
    function Mirror(): (d: Drn)
      ensures (d == NoDrn) == (this == NoDrn)
      ensures (d == HomeDrn) == (this == NborDrn)
    {
      match this
      case NoDrn => NoDrn
      case HomeDrn => NborDrn
      case NborDrn => HomeDrn
    }
  }

  /** One Distributed Relay Number per conversation. */
  type DrnVector = v: seq<Drn> | |v| == NumCids witness seq(4096, _ => NoDrn)
}

=== FILE: dist_relay_state.dfy ===
/** The state records exchanged between the two portal systems of a distributed relay:
    the one-byte IRP and CSCD state flags, the Aggregator, Gateway and Gateway-Preference
    state vectors, and the DRCPDU that carries them. */
module DistRelayState {
  import opened Common

  /** Inter-relay-port state flags, bit 0 (least significant) first. */
  datatype IrpState = IrpState(
    reserved0: bool,
    reserved1: bool,
    drcpShortTimeout: bool,
    ircSync: bool,
    ircData: bool,
    drni: bool,
    defaulted: bool,
    expired: bool)

  function BitOf(b: bool, weight: bv8): bv8 {
    if b then weight else 0
  }

  /** The `state` byte of the IRP-state union. */
  function IrpToByte(s: IrpState): bv8 {
    BitOf(s.reserved0, 0x01) | BitOf(s.reserved1, 0x02) | BitOf(s.drcpShortTimeout, 0x04)
    | BitOf(s.ircSync, 0x08) | BitOf(s.ircData, 0x10) | BitOf(s.drni, 0x20)
    | BitOf(s.defaulted, 0x40) | BitOf(s.expired, 0x80)
  }

  /** Reading the IRP-state union through its bit fields: every byte is a state and
      every state is exactly one byte. */
  function IrpFromByte(x: bv8): (s: IrpState)
    ensures IrpToByte(s) == x
    ensures s.drcpShortTimeout == (x & 0x04 != 0) && s.ircSync == (x & 0x08 != 0)
    ensures s.expired == (x & 0x80 != 0) && s.defaulted == (x & 0x40 != 0)
  {
    IrpState(x & 0x01 != 0, x & 0x02 != 0, x & 0x04 != 0, x & 0x08 != 0,
             x & 0x10 != 0, x & 0x20 != 0, x & 0x40 != 0, x & 0x80 != 0)
  }

  lemma IrpRoundTrip(s: IrpState)
    ensures IrpFromByte(IrpToByte(s)) == s
  {
  }

  /** `state = 0`: every flag false. */
  const IrpZero: IrpState := IrpFromByte(0)

  /** The bits a portal system copies from its neighbour's own IRP state: short timeout,
      IRC data, DRNI, defaulted and expired (mask 0xf4). */
  const NborCopiedBits: bv8 := 0xf4

  /** `(a & 0xf4) != (b & 0xf4)`, read at the level of the named flags. */
  function CopiedBitsDiffer(a: IrpState, b: IrpState): (d: bool)
    ensures d <==> (a.drcpShortTimeout != b.drcpShortTimeout || a.ircData != b.ircData
                    || a.drni != b.drni || a.defaulted != b.defaulted || a.expired != b.expired)
  {
    IrpToByte(a) & NborCopiedBits != IrpToByte(b) & NborCopiedBits
  }

  /** `nbor = (nbor & ~0xf4) | (rx & 0xf4)`: the five copied flags come from the received
      state, the neighbour's IRC-sync flag and the reserved bits are kept. */
  function MergeCopiedBits(nbor: IrpState, rx: IrpState): (r: IrpState)
    ensures r.drcpShortTimeout == rx.drcpShortTimeout && r.ircData == rx.ircData && r.drni == rx.drni
    ensures r.defaulted == rx.defaulted && r.expired == rx.expired
    ensures r.ircSync == nbor.ircSync && r.reserved0 == nbor.reserved0 && r.reserved1 == nbor.reserved1
  {
    IrpFromByte((IrpToByte(nbor) & !NborCopiedBits) | (IrpToByte(rx) & NborCopiedBits))
  }

  /** Gateway-control and digest-match flags of an Aggregator state, bit 0 first. */
  datatype CscdState = CscdState(
    reserved1: bool,
    reserved2: bool,
    cscdGwControl: bool,
    operDWC: bool,
    reserved5: bool,
    partnerLinkDigestMatch: bool,
    partnerServiceDigestMatch: bool,
    partnerAlgorithmMatch: bool)

  function CscdToByte(s: CscdState): bv8 {
    BitOf(s.reserved1, 0x01) | BitOf(s.reserved2, 0x02) | BitOf(s.cscdGwControl, 0x04)
    | BitOf(s.operDWC, 0x08) | BitOf(s.reserved5, 0x10) | BitOf(s.partnerLinkDigestMatch, 0x20)
    | BitOf(s.partnerServiceDigestMatch, 0x40) | BitOf(s.partnerAlgorithmMatch, 0x80)
  }

  function CscdFromByte(x: bv8): (s: CscdState)
    ensures CscdToByte(s) == x
    ensures s.cscdGwControl == (x & 0x04 != 0) && s.operDWC == (x & 0x08 != 0)
  {
    CscdState(x & 0x01 != 0, x & 0x02 != 0, x & 0x04 != 0, x & 0x08 != 0,
              x & 0x10 != 0, x & 0x20 != 0, x & 0x40 != 0, x & 0x80 != 0)
  }

  lemma CscdRoundTrip(s: CscdState)
    ensures CscdFromByte(CscdToByte(s)) == s
  {
  }

  /** The Aggregator state vector a portal system advertises. */
  datatype AggState = AggState(
    seqNum: nat,
    portAlgorithm: Alg,
    convServiceDigest: Digest,
    convLinkDigest: Digest,
    partnerSystemId: SysId,
    partnerKey: uint16,
    cscd: CscdState,
    reserved: uint8,
    activeLinks: seq<LinkNum>)

  /** The Gateway state vector. */
  datatype GwState = GwState(
    seqNum: nat,
    algorithm: Alg,
    convServiceDigest: Digest,
    availableMask: Mask)

  /** The Gateway preference vector. */
  datatype GwPreference = GwPreference(
    seqNum: nat,
    preferenceMask: Mask)

  /** `AggState::reset`, which also initialises a new object: sequence number zero,
      unspecified algorithm, zero digests, null partner, no flags and no active links.
      Nothing of the previous contents survives. */
  function ResetAggState(): (r: AggState)
    ensures r.seqNum == 0 && r.portAlgorithm == Unspecified
    ensures r.convServiceDigest == ZeroDigest && r.convLinkDigest == ZeroDigest
    ensures r.partnerSystemId == NullSysId && r.partnerKey == 0 && r.reserved == 0
    ensures CscdToByte(r.cscd) == 0
    ensures r.activeLinks == []
  {
    AggState(0, Unspecified, ZeroDigest, ZeroDigest, NullSysId, 0, CscdFromByte(0), 0, [])
  }

  /** `GwState::reset`: sequence zero, unspecified algorithm, zero digest, every gateway available. */
  function ResetGwState(): (r: GwState)
    ensures r.seqNum == 0 && r.algorithm == Unspecified && r.convServiceDigest == ZeroDigest
    ensures forall c :: 0 <= c < NumCids ==> r.availableMask[c]
  {
    GwState(0, Unspecified, ZeroDigest, AllSet)
  }

  /** `GwPreference::reset`: sequence zero, every gateway preferred. */
  function ResetGwPreference(): (r: GwPreference)
    ensures r.seqNum == 0
    ensures forall c :: 0 <= c < NumCids ==> r.preferenceMask[c]
  {
    GwPreference(0, AllSet)
  }

  /** A DRCPDU (the d0.4 layout): identification, sequence numbers, IRP states and the
      three optional state-vector TLVs. */
  datatype Drcpdu = Drcpdu(
    version: uint8,
    homeSystemId: SysId,
    drniAggregatorSystemId: SysId,
    drniAggregatorKey: uint16,
    nborSystemId: SysId,
    homeAggSequence: nat,
    homeGwSequence: nat,
    homeGpSequence: nat,
    nborAggSequence: nat,
    nborGwSequence: nat,
    nborGpSequence: nat,
    homeIrpState: IrpState,
    nborIrpState: IrpState,
    aggregatorStateTlv: bool,
    homeAggregatorState: AggState,
    gatewayStateTlv: bool,
    homeGatewayState: GwState,
    gatewayPreferenceTlv: bool,
    homeGatewayPreference: GwPreference)
}

=== FILE: distributed_relay.dfy ===
/** The Distributed Relay of one portal system: its record, the DRNI gateway/aggregator
    machine (`runDrniGwAggMachines` and the routines it calls) and the management setters.
    Every routine is a pure function from the relay record (and, where the routine reads
    or writes it, the attached Aggregator) to the updated record. */
module DistributedRelay {
  import opened Common
  import opened DistRelayState
  import opened LinkLists

  /** DRCP timer constants, in simulation ticks. */
  const FastPeriodicTime: nat := 9919
  const SlowPeriodicTime: nat := 3 * FastPeriodicTime
  const ShortTimeout: nat := 3 * FastPeriodicTime
  const LongTimeout: nat := 3 * SlowPeriodicTime

  /** DRCP receive machine states (DRNI_CHECK is a transient action, not a state). */
  datatype RxState = RxNoState | Initialize | Expired | Defaulted | WaitToReceive | Current

  /** DRCP transmit machine states. */
  datatype TxState = TxNoState | NoTx | FastPeriodic | SlowPeriodic | Tx

  /** The part of the attached Aggregator the relay reads and writes. */
  datatype Aggregator = Aggregator(
    actorAdminSystem: SysId,
    actorAdminAggregatorKey: uint16,
    actorPortAlgorithm: Alg,
    actorConversationServiceMappingDigest: Digest,
    actorConversationLinkListDigest: Digest,
    partnerSystem: SysId,
    partnerOperAggregatorKey: uint16,
    operDiscardWrongConversation: bool,
    differentPortAlgorithms: bool,
    differentConversationServiceDigests: bool,
    differentPortConversationDigests: bool,
    activeLagLinks: seq<LinkNum>,
    updateDistRelayAggState: bool,
    drniPartnerSystemId: SysId,
    drniPartnerKey: uint16,
    operDrniId: SysId,
    operDrniKey: uint16,
    drniSolo: bool,
    changeDrniSolo: bool)

  /** The Aggregator's `updateConversationLinkVector`, whose body is not part of this model:
      given the merged list of active links, the link chosen for a conversation. */
  type LinkVectorFn = (seq<LinkNum>, int) -> LinkNum

  /** Management settings of the relay and its IRP. */
  datatype AdminConfig = AdminConfig(
    drniSystemId: SysId,              // DrniAggregatorSystemId
    drniKey: uint16,                  // DrniAggregatorKey
    clientGatewayControl: bool,
    cscdGatewayControl: bool,
    gatewayPreference: Mask,
    gatewayEnable: Mask,
    gatewayAlgorithm: Alg,
    serviceIdMapDigest: Digest,       // homeGatewayServiceIdMapDigest
    irpState: IrpState,               // homeAdminIrpState
    drcpVersion: uint8)

  /** What this system advertises: its three state vectors and the sequence numbers last
      sent in each TLV. */
  datatype HomeInfo = HomeInfo(
    aggState: AggState,
    gwState: GwState,
    gwPreference: GwPreference,
    lastTxAggSeq: nat,
    lastTxGwSeq: nat,
    lastTxGpSeq: nat)

  /** What this system has recorded about its neighbour. */
  datatype NborInfo = NborInfo(
    systemId: SysId,
    drniKey: uint16,
    irpState: IrpState,
    aggState: AggState,
    gwState: GwState,
    gwPreference: GwPreference)

  /** What the neighbour echoed back of this system's state. */
  datatype Reflected = Reflected(irpState: IrpState, aggSeq: nat, gwSeq: nat, gpSeq: nat)

  /** The per-conversation selection vectors and the forwarding masks derived from them. */
  datatype Selection = Selection(
    aggregatorVector: DrnVector,      // homeSelectedAggregatorVector
    gatewayVector: DrnVector,         // homeSelectedGatewayVector
    syncMask: Mask,                   // gatewaySyncMask
    homeAggregatorMask: Mask,
    homeGatewayMask: Mask,
    nborAggregatorMask: Mask,
    nborGatewayMask: Mask)

  /** Variables of the DRCP receive machine. */
  datatype RxVars = RxVars(state: RxState, currentWhileTimer: nat, frame: Option<Drcpdu>, differDrni: bool)

  /** Variables of the DRCP transmit machine. */
  datatype TxVars = TxVars(state: TxState, txWhen: nat, ntt: bool, opportunity: bool, hold: bool)

  /** The state of one Distributed Relay and its IRP. */
  datatype Relay = Relay(
    enabled: bool,
    drOperational: bool,
    drcpEnabled: bool,
    irpOperational: bool,
    drSolo: bool,
    enableIrcData: bool,
    newHomeInfo: bool,
    newNborState: bool,
    newReflectedState: bool,
    admin: AdminConfig,
    home: HomeInfo,
    homeIrp: IrpState,                // homeIrpState
    nbor: NborInfo,
    reflected: Reflected,
    sel: Selection,
    rx: RxVars,
    tx: TxVars)

  /** No conversation is assigned to both portal systems, on the aggregator side nor on the
      gateway side. */
  predicate MasksExclusive(s: Selection) {
    forall c :: 0 <= c < NumCids ==>
      !(s.homeAggregatorMask[c] && s.nborAggregatorMask[c]) && !(s.homeGatewayMask[c] && s.nborGatewayMask[c])
  }

  /** The IRP state the constructor configures: short timeout and IRC data, nothing else. */
  const InitialAdminIrp: IrpState := IrpZero.(drcpShortTimeout := true, ircData := true)

  /** The constructor.  Members it leaves uninitialised keep the values of `unset`; it ends
      with `reset()` while no Aggregator or IRP is attached yet. */
  function Create(drniSysId: SysId, drniKey: uint16, unset: Relay): (dr: Relay)
    ensures dr.admin.drniSystemId == drniSysId && dr.admin.drniKey == drniKey
    ensures dr.enabled && dr.drcpEnabled && !dr.irpOperational && dr.admin.drcpVersion == 2
    ensures IrpToByte(dr.admin.irpState) == 0x14 && dr.homeIrp == dr.admin.irpState
    ensures dr.drSolo && !dr.enableIrcData && !dr.drOperational
    ensures dr.admin.gatewayEnable == AllSet && dr.admin.gatewayPreference == AllSet
    ensures dr.admin.gatewayAlgorithm == Unspecified && !dr.admin.cscdGatewayControl && !dr.admin.clientGatewayControl
    ensures dr.sel.aggregatorVector == PerCid(NoDrn) && dr.sel.gatewayVector == PerCid(NoDrn)
    ensures dr.sel.syncMask == AllClear && MasksExclusive(dr.sel)
    ensures dr.home.aggState == ResetAggState() && dr.nbor.aggState == ResetAggState()
    ensures dr.rx.frame == None && dr.tx == unset.tx
  {
    var built := unset.(
      enabled := true,
      admin := AdminConfig(drniSysId, drniKey, false, false, AllSet, AllSet, Unspecified, ZeroDigest, InitialAdminIrp, 2),
      sel := Selection(PerCid(NoDrn), PerCid(NoDrn), AllClear, AllClear, AllClear, AllClear, AllClear),
      drSolo := true,
      enableIrcData := false,
      home := unset.home.(aggState := ResetAggState(), gwState := ResetGwState(), gwPreference := ResetGwPreference()),
      irpOperational := false,
      drcpEnabled := true);
    Reset(built, false)
  }

  /** `resetHomeState`: the three home vectors reset and nothing counted as transmitted. */
  function ResetHomeState(dr: Relay): (r: Relay)
    ensures r.home.aggState == ResetAggState() && r.home.gwState == ResetGwState()
    ensures r.home.gwPreference == ResetGwPreference()
    ensures r.home.lastTxAggSeq == 0 && r.home.lastTxGwSeq == 0 && r.home.lastTxGpSeq == 0
    ensures r == dr.(home := r.home)
  {
    dr.(home := HomeInfo(ResetAggState(), ResetGwState(), ResetGwPreference(), 0, 0, 0))
  }

  /** `setDefaultDrniSystemParameters`: no conversation selected and no forwarding mask set;
      the synchronisation mask is kept. */
  function SetDefaultDrniSystemParameters(dr: Relay): (r: Relay)
    ensures forall c :: 0 <= c < NumCids ==>
      r.sel.aggregatorVector[c] == NoDrn && r.sel.gatewayVector[c] == NoDrn
      && !r.sel.homeAggregatorMask[c] && !r.sel.homeGatewayMask[c] && !r.sel.nborAggregatorMask[c] && !r.sel.nborGatewayMask[c]
    ensures r.sel.syncMask == dr.sel.syncMask
    ensures r == dr.(sel := r.sel)
  {
    dr.(sel := Selection(PerCid(NoDrn), PerCid(NoDrn), dr.sel.syncMask, AllClear, AllClear, AllClear, AllClear))
  }

  /** `reset`.  `configured` says whether both an Aggregator and an IRP are attached; only
      then are the paired state, the home vectors and the selections reset.  The neighbour
      and reflected state is forgotten in every case. */
  function Reset(dr: Relay, configured: bool): (r: Relay)
    ensures !r.drOperational && r.rx.frame == None && !r.rx.differDrni
    ensures r.homeIrp == dr.admin.irpState && r.admin == dr.admin
    ensures r.nbor.systemId == NullSysId && r.nbor.drniKey == 0 && IrpToByte(r.nbor.irpState) == 0
    ensures r.nbor.aggState == ResetAggState() && r.nbor.gwState == ResetGwState()
    ensures r.nbor.gwPreference == ResetGwPreference()
    ensures IrpToByte(r.reflected.irpState) == 0
    ensures r.reflected.aggSeq == 0 && r.reflected.gwSeq == 0 && r.reflected.gpSeq == 0
    ensures r.sel.syncMask == AllClear
    ensures configured ==> !r.drSolo && r.newHomeInfo && r.home == ResetHomeState(dr).home
                           && r.sel.homeGatewayMask == AllClear && r.sel.gatewayVector == PerCid(NoDrn)
    ensures !configured ==> r.drSolo == dr.drSolo && r.newHomeInfo == dr.newHomeInfo && r.home == dr.home
                            && r.sel == dr.sel.(syncMask := AllClear)
    ensures MasksExclusive(dr.sel) ==> MasksExclusive(r.sel)
    ensures r.tx == dr.tx && r.rx.state == dr.rx.state && r.rx.currentWhileTimer == dr.rx.currentWhileTimer
  {
    var d1 := dr.(drOperational := false);
    var d2 := if configured then SetDefaultDrniSystemParameters(ResetHomeState(d1.(drSolo := false, newHomeInfo := true))) else d1;
    d2.(rx := d2.rx.(frame := None, differDrni := false),
        homeIrp := d2.admin.irpState,
        nbor := NborInfo(NullSysId, 0, IrpZero, ResetAggState(), ResetGwState(), ResetGwPreference()),
        reflected := Reflected(IrpZero, 0, 0, 0),
        sel := d2.sel.(syncMask := AllClear))
  }

  /** The operational DRNI identity and key `updateSystemAndKey` chooses.  Solo, the
      system's own admin identity.  Paired, the configured DRNI identity if its address is
      non-zero, otherwise the lower of the two system identities (ties go to this system),
      with the key belonging to it. */
  function OperDrniIdentity(solo: bool, admin: AdminConfig, nbor: NborInfo, agg: Aggregator): (r: (SysId, uint16))
    ensures solo ==> r == (agg.actorAdminSystem, agg.actorAdminAggregatorKey)
    ensures !solo && admin.drniSystemId.addr != 0 ==> r == (admin.drniSystemId, admin.drniKey)
    ensures !solo && admin.drniSystemId.addr == 0 ==>
              && !Below(agg.actorAdminSystem, r.0) && !Below(nbor.systemId, r.0)
              && (r.0 == nbor.systemId || r.0 == agg.actorAdminSystem)
              && (r.0 == agg.actorAdminSystem ==> r.1 == agg.actorAdminAggregatorKey)
              && (r.0 != agg.actorAdminSystem ==> r.1 == nbor.drniKey)
  {
    if solo then (agg.actorAdminSystem, agg.actorAdminAggregatorKey)
    else if admin.drniSystemId.addr != 0 then (admin.drniSystemId, admin.drniKey)
    else if Below(nbor.systemId, agg.actorAdminSystem) then (nbor.systemId, nbor.drniKey)
    else (agg.actorAdminSystem, agg.actorAdminAggregatorKey)
  }

  /** The Aggregator side of `updateSystemAndKey`: the chosen identity and key are
      installed, and a change of solo status is recorded and flagged. */
  function InstallDrniIdentity(solo: bool, admin: AdminConfig, nbor: NborInfo, agg: Aggregator): (a: Aggregator)
    ensures (a.operDrniId, a.operDrniKey) == OperDrniIdentity(solo, admin, nbor, agg)
    ensures a.drniSolo == solo
    ensures a.changeDrniSolo == (agg.changeDrniSolo || agg.drniSolo != solo)
    ensures a.actorAdminSystem == agg.actorAdminSystem && a.activeLagLinks == agg.activeLagLinks
    ensures a.updateDistRelayAggState == agg.updateDistRelayAggState
    ensures a.drniPartnerSystemId == agg.drniPartnerSystemId && a.drniPartnerKey == agg.drniPartnerKey
  {
    var idKey := OperDrniIdentity(solo, admin, nbor, agg);
    agg.(operDrniId := idKey.0, operDrniKey := idKey.1, drniSolo := solo,
         changeDrniSolo := agg.changeDrniSolo || solo != agg.drniSolo)
  }

  /** The Distributed Relay machine: the relay is solo unless both IRC-sync flags are set.
      When that status changes, the home `drni` flag follows it and `updateSystemAndKey`
      resets the gateway synchronisation mask (solo, every conversation counts as
      synchronised; paired, none does yet).  IRC data is then enabled exactly when both
      systems report IRC data, IRC sync and DRNI. */
  method DistributedRelayMachine(drSolo: bool, homeIrp: IrpState, nborIrp: IrpState, sync: Mask)
    returns (solo: bool, irp: IrpState, sync': Mask, enableIrcData: bool)
    ensures solo == !(homeIrp.ircSync && nborIrp.ircSync)
    ensures drSolo != solo ==> irp == homeIrp.(drni := !solo) && forall c :: 0 <= c < NumCids ==> sync'[c] == solo
    ensures drSolo == solo ==> irp == homeIrp && sync' == sync
    ensures sync' == if drSolo == solo then sync else if solo then AllSet else AllClear
    ensures enableIrcData == (irp.ircData && nborIrp.ircData && irp.ircSync && nborIrp.ircSync && irp.drni && nborIrp.drni)
    ensures enableIrcData ==> !solo && irp.drni
  {
    solo := !(homeIrp.ircSync && nborIrp.ircSync);
    irp, sync' := homeIrp, sync;
    if drSolo != solo {
      irp := homeIrp.(drni := !solo);
      sync' := if solo then AllSet else AllClear;
    }
    enableIrcData := irp.ircData && nborIrp.ircData && irp.ircSync && nborIrp.ircSync && irp.drni && nborIrp.drni;
  }

  /** The sequence number a changed home vector gets: past the reflected number when the
      neighbour has echoed a newer one (or the vector was never numbered), and never equal
      to the number last transmitted, so the neighbour sees a change. */
  function NextSequenceNumber(s: nat, reflected: nat, lastTx: nat): (r: nat)
    ensures r >= s && r >= 1 && r != lastTx
    ensures reflected > s || s == 0 ==> r > reflected
    ensures r <= (if reflected > s || s == 0 then reflected + 2 else s + 1)
  {
    var base := if reflected > s || s == 0 then reflected + 1 else s;
    if base == lastTx then base + 1 else base
  }

  /** The home state as `updateHomeState` works on it: the three vectors, the gateway
      synchronisation mask, and whether some vector changed (NTT and TxHold are raised). */
  datatype HomeUpdate = HomeUpdate(home: HomeInfo, sync: Mask, announce: bool)

  /** The algorithm or one of the two digests the gateway may follow has changed. */
  predicate AggregatorParamsChanged(h: AggState, agg: Aggregator) {
    h.portAlgorithm != agg.actorPortAlgorithm
    || h.convServiceDigest != agg.actorConversationServiceMappingDigest
    || h.convLinkDigest != agg.actorConversationLinkListDigest
  }

  /** The home Aggregator state no longer describes the Aggregator (with the admin
      gateway-control mode `cscdControl`), or the neighbour has echoed a newer sequence
      number than the one it carries. */
  predicate AggregatorStateStale(h: AggState, reflectedSeq: nat, cscdControl: bool, agg: Aggregator) {
    reflectedSeq > h.seqNum
    || AggregatorParamsChanged(h, agg)
    || h.partnerSystemId != agg.partnerSystem
    || h.partnerKey != agg.partnerOperAggregatorKey
    || h.cscd.cscdGwControl != cscdControl
    || h.cscd.operDWC != agg.operDiscardWrongConversation
    || h.cscd.partnerAlgorithmMatch != agg.differentPortAlgorithms
    || h.cscd.partnerServiceDigestMatch != agg.differentConversationServiceDigests
    || h.cscd.partnerLinkDigestMatch != agg.differentPortConversationDigests
    || h.activeLinks != agg.activeLagLinks
  }

  /** `sync &= ~(before ^ after)`: synchronisation is lost exactly at the conversations
      whose bit changed. */
  function ClearChanged(sync: Mask, before: Mask, after: Mask): (r: Mask)
    ensures forall c :: 0 <= c < NumCids ==> (r[c] <==> sync[c] && before[c] == after[c])
  {
    seq(NumCids, c requires 0 <= c < NumCids => sync[c] && before[c] == after[c])
  }

  /** The Aggregator state differs from the home Aggregator state in a way that
      desynchronises every conversation: the gateway-control mode changed, or it is on and
      the algorithm, a digest or the active links changed. */
  predicate AggregatorDesyncs(h: AggState, cscdControl: bool, agg: Aggregator) {
    || h.cscd.cscdGwControl != cscdControl
    || (h.cscd.cscdGwControl && (AggregatorParamsChanged(h, agg) || h.activeLinks != agg.activeLagLinks))
  }

  /** First part of `updateHomeState`: bring the home Aggregator state in line with the
      Aggregator.  A change of gateway-control mode, or (with conversation-sensitive gateway
      control) of algorithm, digests or active links, desynchronises every conversation. */
  function UpdateHomeAggregatorState(u: HomeUpdate, reflectedSeq: nat, cscdControl: bool, agg: Aggregator): (r: HomeUpdate)
    ensures !AggregatorStateStale(u.home.aggState, reflectedSeq, cscdControl, agg) ==> r == u
    ensures AggregatorStateStale(u.home.aggState, reflectedSeq, cscdControl, agg) ==>
      && r.home.aggState.seqNum == NextSequenceNumber(u.home.aggState.seqNum, reflectedSeq, u.home.lastTxAggSeq)
      && r.announce
    ensures !AggregatorStateStale(r.home.aggState, reflectedSeq, cscdControl, agg)
    ensures r.home.aggState.cscd.reserved1 == u.home.aggState.cscd.reserved1
    ensures r.home.aggState.reserved == u.home.aggState.reserved
    ensures r.home == u.home.(aggState := r.home.aggState)
    ensures u.announce ==> r.announce
    ensures r.sync == u.sync || r.sync == AllClear
    ensures AggregatorStateStale(u.home.aggState, reflectedSeq, cscdControl, agg)
            && (u.home.aggState.cscd.cscdGwControl != cscdControl
                || (u.home.aggState.cscd.cscdGwControl
                    && (AggregatorParamsChanged(u.home.aggState, agg) || u.home.aggState.activeLinks != agg.activeLagLinks)))
            ==> r.sync == AllClear
    ensures r.sync == if AggregatorDesyncs(u.home.aggState, cscdControl, agg) then AllClear else u.sync
  {
    var h := u.home.aggState;
    if !AggregatorStateStale(h, reflectedSeq, cscdControl, agg) then u
    else
      var sync :=
        if h.cscd.cscdGwControl != cscdControl then AllClear
        else if h.cscd.cscdGwControl && AggregatorParamsChanged(h, agg) then AllClear
        else if h.cscd.cscdGwControl && h.activeLinks != agg.activeLagLinks then AllClear
        else u.sync;
      var cscd := h.cscd.(
        cscdGwControl := cscdControl,
        operDWC := agg.operDiscardWrongConversation,
        partnerAlgorithmMatch := agg.differentPortAlgorithms,
        partnerServiceDigestMatch := agg.differentConversationServiceDigests,
        partnerLinkDigestMatch := agg.differentPortConversationDigests);
      var h' := h.(
        seqNum := NextSequenceNumber(h.seqNum, reflectedSeq, u.home.lastTxAggSeq),
        portAlgorithm := agg.actorPortAlgorithm,
        convServiceDigest := agg.actorConversationServiceMappingDigest,
        convLinkDigest := agg.actorConversationLinkListDigest,
        partnerSystemId := agg.partnerSystem,
        partnerKey := agg.partnerOperAggregatorKey,
        cscd := cscd,
        activeLinks := agg.activeLagLinks);
      HomeUpdate(u.home.(aggState := h'), sync, true)
  }

  /** The gateway-available mask the relay advertises: the admin enable mask while the
      gateway port is enabled, nothing otherwise.  (Client gateway control has no effect.) */
  function GatewayAvailable(enabled: bool, admin: AdminConfig): (m: Mask)
    ensures forall c :: 0 <= c < NumCids ==> (m[c] <==> enabled && admin.gatewayEnable[c])
  {
    if enabled then admin.gatewayEnable else AllClear
  }

  /** `(alg & 0x80) != 0`: the algorithm uses the conversation service map. */
  predicate MapBitSet(alg: Alg) {
    (alg as bv32) & 0x80 != 0
  }

  /** The gateway algorithm, or the service map when the algorithm uses it, has changed. */
  predicate GatewayMappingChanged(g: GwState, admin: AdminConfig) {
    g.algorithm != admin.gatewayAlgorithm
    || (MapBitSet(admin.gatewayAlgorithm) && g.convServiceDigest != admin.serviceIdMapDigest)
  }

  /** The home Gateway state no longer matches the available mask `avail` and the admin
      settings, or the neighbour has echoed a newer sequence number. */
  predicate GatewayStateStale(g: GwState, reflectedSeq: nat, avail: Mask, admin: AdminConfig) {
    reflectedSeq > g.seqNum
    || g.availableMask != avail
    || g.algorithm != admin.gatewayAlgorithm
    || g.convServiceDigest != admin.serviceIdMapDigest
  }

  /** Second part of `updateHomeState`: bring the home Gateway state in line with the admin
      settings.  A change of mapping desynchronises every conversation; a change of
      availability alone desynchronises only the conversations whose availability changed. */
  function UpdateHomeGatewayState(u: HomeUpdate, reflectedSeq: nat, avail: Mask, admin: AdminConfig): (r: HomeUpdate)
    ensures !GatewayStateStale(u.home.gwState, reflectedSeq, avail, admin) ==> r == u
    ensures GatewayStateStale(u.home.gwState, reflectedSeq, avail, admin) ==>
      && r.home.gwState.seqNum == NextSequenceNumber(u.home.gwState.seqNum, reflectedSeq, u.home.lastTxGwSeq)
      && r.announce
    ensures !GatewayStateStale(r.home.gwState, reflectedSeq, avail, admin)
    ensures r.home == u.home.(gwState := r.home.gwState)
    ensures u.announce ==> r.announce
    ensures GatewayStateStale(u.home.gwState, reflectedSeq, avail, admin) && GatewayMappingChanged(u.home.gwState, admin)
            ==> r.sync == AllClear
    ensures !GatewayMappingChanged(u.home.gwState, admin) ==> forall c :: 0 <= c < NumCids ==>
              (r.sync[c] <==> u.sync[c] && u.home.gwState.availableMask[c] == avail[c])
    ensures GatewayMappingChanged(u.home.gwState, admin) ==> r.sync == AllClear
  {
    var g := u.home.gwState;
    if !GatewayStateStale(g, reflectedSeq, avail, admin) then u
    else
      var sync :=
        if GatewayMappingChanged(g, admin) then AllClear
        else if g.availableMask != avail then ClearChanged(u.sync, g.availableMask, avail)
        else u.sync;
      var g' := g.(
        seqNum := NextSequenceNumber(g.seqNum, reflectedSeq, u.home.lastTxGwSeq),
        availableMask := avail,
        algorithm := admin.gatewayAlgorithm,
        convServiceDigest := admin.serviceIdMapDigest);
      HomeUpdate(u.home.(gwState := g'), sync, true)
  }

  /** The home Gateway preference no longer matches the admin preference, was never
      numbered, or the neighbour has echoed a newer sequence number. */
  predicate GatewayPreferenceStale(p: GwPreference, reflectedSeq: nat, admin: AdminConfig) {
    reflectedSeq > p.seqNum || p.preferenceMask != admin.gatewayPreference || p.seqNum == 0
  }

  /** Third part of `updateHomeState`: bring the home Gateway preference in line with the
      admin preference; only conversations whose preference changed lose synchronisation. */
  function UpdateHomeGatewayPreference(u: HomeUpdate, reflectedSeq: nat, admin: AdminConfig): (r: HomeUpdate)
    ensures !GatewayPreferenceStale(u.home.gwPreference, reflectedSeq, admin) ==> r == u
    ensures GatewayPreferenceStale(u.home.gwPreference, reflectedSeq, admin) ==>
      && r.home.gwPreference.seqNum == NextSequenceNumber(u.home.gwPreference.seqNum, reflectedSeq, u.home.lastTxGpSeq)
      && r.announce
    ensures !GatewayPreferenceStale(r.home.gwPreference, reflectedSeq, admin)
    ensures r.home == u.home.(gwPreference := r.home.gwPreference)
    ensures u.announce ==> r.announce
    ensures forall c :: 0 <= c < NumCids ==>
              (r.sync[c] <==> u.sync[c] && u.home.gwPreference.preferenceMask[c] == admin.gatewayPreference[c])
  {
    var p := u.home.gwPreference;
    if !GatewayPreferenceStale(p, reflectedSeq, admin) then u
    else
      var sync :=
        if p.preferenceMask != admin.gatewayPreference
        then ClearChanged(u.sync, p.preferenceMask, admin.gatewayPreference)
        else u.sync;
      var p' := p.(
        seqNum := NextSequenceNumber(p.seqNum, reflectedSeq, u.home.lastTxGpSeq),
        preferenceMask := admin.gatewayPreference);
      HomeUpdate(u.home.(gwPreference := p'), sync, true)
  }

  /** Some home vector is stale. */
  predicate HomeStateStale(h: HomeInfo, refl: Reflected, avail: Mask, admin: AdminConfig, agg: Aggregator) {
    || AggregatorStateStale(h.aggState, refl.aggSeq, admin.cscdGatewayControl, agg)
    || GatewayStateStale(h.gwState, refl.gwSeq, avail, admin)
    || GatewayPreferenceStale(h.gwPreference, refl.gpSeq, admin)
  }

  /** `updateHomeState`: the three parts in order.  Afterwards no vector is stale, so no
      home sequence number is behind its reflection; synchronisation has only been lost,
      and a conversation keeps it exactly when no change desynchronised every conversation
      and neither its availability nor its preference changed; a transmission is requested
      exactly when something was stale, and otherwise nothing changes. */
  function UpdateHomeState(u: HomeUpdate, refl: Reflected, avail: Mask, admin: AdminConfig, agg: Aggregator): (r: HomeUpdate)
    ensures !HomeStateStale(r.home, refl, avail, admin, agg)
    ensures refl.aggSeq <= r.home.aggState.seqNum && refl.gwSeq <= r.home.gwState.seqNum
            && refl.gpSeq <= r.home.gwPreference.seqNum
    ensures r.home.aggState.seqNum >= u.home.aggState.seqNum && r.home.gwState.seqNum >= u.home.gwState.seqNum
            && r.home.gwPreference.seqNum >= u.home.gwPreference.seqNum
    ensures forall c :: 0 <= c < NumCids ==> r.sync[c] ==> u.sync[c]
    ensures HomeStateStale(u.home, refl, avail, admin, agg) ==> r.announce
    ensures !HomeStateStale(u.home, refl, avail, admin, agg) ==> r == u
    ensures forall c :: 0 <= c < NumCids ==>
              (r.sync[c] <==> && !AggregatorDesyncs(u.home.aggState, admin.cscdGatewayControl, agg)
                              && !GatewayMappingChanged(u.home.gwState, admin)
                              && u.sync[c] && u.home.gwState.availableMask[c] == avail[c]
                              && u.home.gwPreference.preferenceMask[c] == admin.gatewayPreference[c])
  {
    var u1 := UpdateHomeAggregatorState(u, refl.aggSeq, admin.cscdGatewayControl, agg);
    var u2 := UpdateHomeGatewayState(u1, refl.gwSeq, avail, admin);
    UpdateHomeGatewayPreference(u2, refl.gpSeq, admin)
  }

  /** The per-conversation aggregator choice when both systems agree on the partner:
      the owner of the link the conversation maps to, home winning a link number that
      appears in both lists. */
  function LinkOwner(home: seq<LinkNum>, nbor: seq<LinkNum>, link: LinkNum): (d: Drn)
    ensures d == HomeDrn <==> link in home
    ensures d == NborDrn <==> link !in home && link in nbor
  {
    ScanLinks(home, link, ScanLinks(nbor, link, NoDrn, NborDrn), HomeDrn)
  }

  /** The owner of every conversation's link, the links assigned over `merged`. */
  function OwnerVector(home: seq<LinkNum>, nbor: seq<LinkNum>, linkVector: LinkVectorFn, merged: seq<LinkNum>): (v: DrnVector)
    ensures forall c :: 0 <= c < NumCids ==> v[c] == LinkOwner(home, nbor, linkVector(merged, c))
  {
    var v := seq(NumCids, c requires 0 <= c < NumCids => LinkOwner(home, nbor, linkVector(merged, c)));
    assert |v| == NumCids;
    v
  }

  /** Both systems report the same partner for their aggregators. */
  predicate PartnersMatch(home: HomeInfo, nbor: NborInfo) {
    home.aggState.partnerSystemId == nbor.aggState.partnerSystemId
    && home.aggState.partnerKey == nbor.aggState.partnerKey
  }

  /** The vector `updateHomeAggregatorSelection` computes from the solo status, the home
      and neighbour state, the Aggregator's admin system identity and its conversation-to-
      link mapping. */
  function AggregatorSelection(solo: bool, home: HomeInfo, nbor: NborInfo, adminSystem: SysId, linkVector: LinkVectorFn): (v: DrnVector)
    ensures solo || home.aggState.portAlgorithm == Unspecified ==> v == PerCid(HomeDrn)
    ensures !solo && home.aggState.portAlgorithm != Unspecified && PartnersMatch(home, nbor) ==>
              forall c :: 0 <= c < NumCids ==>
                var link := linkVector(Merge(home.aggState.activeLinks, nbor.aggState.activeLinks), c);
                && (v[c] == HomeDrn <==> link in home.aggState.activeLinks)
                && (v[c] == NborDrn <==> link !in home.aggState.activeLinks && link in nbor.aggState.activeLinks)
    ensures !solo && home.aggState.portAlgorithm != Unspecified && !PartnersMatch(home, nbor) ==>
              v == (if Below(nbor.systemId, adminSystem) && nbor.aggState.activeLinks != []
                    then PerCid(NborDrn) else PerCid(HomeDrn))
  {
    var h := home.aggState;
    var n := nbor.aggState;
    if solo || h.portAlgorithm == Unspecified then PerCid(HomeDrn)
    else if PartnersMatch(home, nbor) then
      OwnerVector(h.activeLinks, n.activeLinks, linkVector, Merge(h.activeLinks, n.activeLinks))
    else if Below(nbor.systemId, adminSystem) && |n.activeLinks| != 0 then PerCid(NborDrn)
    else PerCid(HomeDrn)
  }

  /** `algorithmUsesMap` as written: the algorithm converted to a boolean and'ed with
      0x80, which holds for every non-zero algorithm (compare `MapBitSet`). */
  predicate AlgorithmUsesMap(alg: Alg) {
    alg != 0
  }

  /** The two systems do not agree on how gateway conversations are mapped. */
  predicate GatewayParamsDisagree(home: HomeInfo, nbor: NborInfo) {
    var hg := home.gwState;
    var ng := nbor.gwState;
    hg.algorithm == Unspecified || ng.algorithm != hg.algorithm
    || (AlgorithmUsesMap(hg.algorithm) && ng.convServiceDigest != hg.convServiceDigest)
  }

  /** Gateway selection may copy the aggregator selection: both systems run conversation-
      sensitive gateway control with one algorithm (and one service map when it is used). */
  predicate GatewayFollowsAggregator(home: HomeInfo, nbor: NborInfo) {
    var ha := home.aggState;
    var na := nbor.aggState;
    var hg := home.gwState;
    var ng := nbor.gwState;
    && ha.cscd.cscdGwControl && na.cscd.cscdGwControl
    && ha.portAlgorithm == hg.algorithm && ha.portAlgorithm == na.portAlgorithm && ha.portAlgorithm == ng.algorithm
    && (!AlgorithmUsesMap(hg.algorithm)
        || (ha.convServiceDigest == hg.convServiceDigest && ha.convServiceDigest == na.convServiceDigest
            && ha.convServiceDigest == ng.convServiceDigest))
  }

  /** The tie-breaker: the neighbour exactly when paired and its system identity is lower. */
  function DefaultDrn(solo: bool, nborSystem: SysId, adminSystem: SysId): (d: Drn)
    ensures d == NborDrn <==> !solo && Below(nborSystem, adminSystem)
    ensures d != NoDrn
  {
    if !solo && Below(nborSystem, adminSystem) then NborDrn else HomeDrn
  }

  /** The gateway selected for one conversation. */
  function GatewayDrn(solo: bool, home: HomeInfo, nbor: NborInfo, aggVector: DrnVector, adminSystem: SysId,
                      disagree: bool, follows: bool, c: int): Drn
    requires 0 <= c < NumCids
  {
    var homeAvail := home.gwState.availableMask[c];
    var nborAvail := nbor.gwState.availableMask[c];
    var homePref := home.gwPreference.preferenceMask[c];
    var nborPref := nbor.gwPreference.preferenceMask[c];
    if solo then
      (if homeAvail then HomeDrn else NoDrn)
    else if disagree then
      (if Below(nbor.systemId, adminSystem) then NborDrn else if homeAvail then HomeDrn else NoDrn)
    else if !homeAvail then
      (if !nborAvail then NoDrn else NborDrn)
    else if !nborAvail then HomeDrn
    else if follows then aggVector[c]
    else if nborPref && !homePref then NborDrn
    else if !nborPref && homePref then HomeDrn
    else DefaultDrn(solo, nbor.systemId, adminSystem)
  }

  /** The vector `updateHomeGatewaySelection` computes; `aggVector` is the aggregator
      selection made in the same pass. */
  function GatewaySelection(solo: bool, home: HomeInfo, nbor: NborInfo, aggVector: DrnVector, adminSystem: SysId): (v: DrnVector)
    // Solo: a conversation goes through this system's gateway exactly when it is available here.
    ensures solo ==> forall c :: 0 <= c < NumCids ==>
              (v[c] == HomeDrn <==> home.gwState.availableMask[c]) && v[c] != NborDrn
    // Disagreeing parameters: the lower system's gateway, whatever it has available; this
    // system's own gateway only where available.
    ensures !solo && GatewayParamsDisagree(home, nbor) ==> forall c :: 0 <= c < NumCids ==>
              (Below(nbor.systemId, adminSystem) ==> v[c] == NborDrn)
              && (!Below(nbor.systemId, adminSystem) ==>
                    (v[c] == HomeDrn <==> home.gwState.availableMask[c]) && v[c] != NborDrn)
    // Agreeing parameters: availability first, then the aggregator selection when the
    // gateway follows it, then a single preference, then the tie-breaker.
    ensures !solo && !GatewayParamsDisagree(home, nbor) ==> forall c :: 0 <= c < NumCids ==>
              var homeAvail := home.gwState.availableMask[c];
              var nborAvail := nbor.gwState.availableMask[c];
              var homePref := home.gwPreference.preferenceMask[c];
              var nborPref := nbor.gwPreference.preferenceMask[c];
              && (!homeAvail ==> (v[c] == NborDrn <==> nborAvail) && v[c] != HomeDrn)
              && (homeAvail && !nborAvail ==> v[c] == HomeDrn)
              && (homeAvail && nborAvail && GatewayFollowsAggregator(home, nbor) ==> v[c] == aggVector[c])
              && (homeAvail && nborAvail && !GatewayFollowsAggregator(home, nbor) ==>
                    v[c] == (if homePref != nborPref then (if homePref then HomeDrn else NborDrn)
                             else DefaultDrn(solo, nbor.systemId, adminSystem)))
  {
    var disagree := GatewayParamsDisagree(home, nbor);
    var follows := GatewayFollowsAggregator(home, nbor);
    seq(NumCids, c requires 0 <= c < NumCids => GatewayDrn(solo, home, nbor, aggVector, adminSystem, disagree, follows, c))
  }

  /** Every home sequence number has been echoed back by the neighbour. */
  predicate AllAcknowledged(home: HomeInfo, refl: Reflected) {
    && home.aggState.seqNum == refl.aggSeq
    && home.gwState.seqNum == refl.gwSeq
    && home.gwPreference.seqNum == refl.gpSeq
  }

  /** A gateway mask bit: cleared unless the selection names this side, set when the
      conversation is synchronised, otherwise left as it was. */
  function GatedBit(selected: bool, synced: bool, previous: bool): (b: bool)
    ensures b ==> selected && (synced || previous)
    ensures selected && synced ==> b
    ensures selected && !synced ==> b == previous
  {
    if !selected then false else if synced then true else previous
  }

  /** The selection `updateDrniMasks` leaves.  `syncAll` (solo, or every home sequence
      number acknowledged) marks every conversation synchronised; the aggregator masks
      follow the aggregator vector, and a gateway mask bit is raised only for the selected
      side and only once the conversation is synchronised (until then it keeps its value). */
  function DrniMasks(sel: Selection, syncAll: bool): (s: Selection)
    ensures MasksExclusive(s)
    ensures syncAll ==> s.syncMask == AllSet
    ensures !syncAll ==> s.syncMask == sel.syncMask
    ensures forall c :: 0 <= c < NumCids ==>
              && (s.homeAggregatorMask[c] <==> sel.aggregatorVector[c] == HomeDrn)
              && (s.nborAggregatorMask[c] <==> sel.aggregatorVector[c] == NborDrn)
    ensures forall c :: 0 <= c < NumCids ==>
              var v := sel.gatewayVector[c];
              && (s.homeGatewayMask[c] ==> v == HomeDrn && (s.syncMask[c] || sel.homeGatewayMask[c]))
              && (s.nborGatewayMask[c] ==> v == NborDrn && (s.syncMask[c] || sel.nborGatewayMask[c]))
              && (v == HomeDrn && s.syncMask[c] ==> s.homeGatewayMask[c])
              && (v == NborDrn && s.syncMask[c] ==> s.nborGatewayMask[c])
              && (v == HomeDrn && !s.syncMask[c] ==> s.homeGatewayMask[c] == sel.homeGatewayMask[c])
              && (v == NborDrn && !s.syncMask[c] ==> s.nborGatewayMask[c] == sel.nborGatewayMask[c])
    ensures s.aggregatorVector == sel.aggregatorVector && s.gatewayVector == sel.gatewayVector
  {
    var sync := if syncAll then AllSet else sel.syncMask;
    var agg := sel.aggregatorVector;
    var gw := sel.gatewayVector;
    Selection(
      agg, gw, sync,
      seq(NumCids, c requires 0 <= c < NumCids => agg[c] == HomeDrn),
      seq(NumCids, c requires 0 <= c < NumCids => GatedBit(gw[c] == HomeDrn, sync[c], sel.homeGatewayMask[c])),
      seq(NumCids, c requires 0 <= c < NumCids => agg[c] == NborDrn),
      seq(NumCids, c requires 0 <= c < NumCids => GatedBit(gw[c] == NborDrn, sync[c], sel.nborGatewayMask[c])))
  }

  /** The neighbour restricts this Aggregator's partner: paired, with a lower neighbour
      identity and a neighbour with active links. */
  predicate NborRestricts(solo: bool, nbor: NborInfo, agg: Aggregator) {
    !solo && Below(nbor.systemId, agg.actorAdminSystem) && nbor.aggState.activeLinks != []
  }

  /** The partner restriction: when the neighbour restricts, an unrestricted Aggregator is
      restricted to the neighbour's partner (an existing restriction is kept); otherwise any
      restriction is lifted. */
  function RestrictPartner(solo: bool, nbor: NborInfo, agg: Aggregator): (a: Aggregator)
    ensures a == agg.(drniPartnerSystemId := a.drniPartnerSystemId, drniPartnerKey := a.drniPartnerKey)
    ensures NborRestricts(solo, nbor, agg) && agg.drniPartnerSystemId == NullSysId ==>
              a.drniPartnerSystemId == nbor.aggState.partnerSystemId && a.drniPartnerKey == nbor.aggState.partnerKey
    ensures NborRestricts(solo, nbor, agg) && agg.drniPartnerSystemId != NullSysId ==> a == agg
    ensures !NborRestricts(solo, nbor, agg) ==> a.drniPartnerSystemId == NullSysId
    ensures !NborRestricts(solo, nbor, agg) && agg.drniPartnerSystemId == NullSysId ==> a == agg
    ensures !NborRestricts(solo, nbor, agg) && agg.drniPartnerSystemId != NullSysId ==> a.drniPartnerKey == 0
  {
    if NborRestricts(solo, nbor, agg) then
      if agg.drniPartnerSystemId == NullSysId then
        agg.(drniPartnerSystemId := nbor.aggState.partnerSystemId, drniPartnerKey := nbor.aggState.partnerKey)
      else agg
    else if agg.drniPartnerSystemId != NullSysId then
      agg.(drniPartnerSystemId := NullSysId, drniPartnerKey := 0)
    else agg
  }

  /** Both IRC-sync flags are set: the condition under which the relay is paired. */
  predicate BothSync(dr: Relay) {
    dr.homeIrp.ircSync && dr.nbor.irpState.ircSync
  }

  /** The Aggregator side of `runDrniGwAggMachines`: the identity is re-elected when the
      solo status changes, the partner restriction is applied, and the Aggregator's update
      request is consumed. */
  function RunDrniGwAggMachinesAggregator(dr: Relay, agg: Aggregator): (a: Aggregator)
    ensures a.drniSolo == (if dr.drSolo == BothSync(dr) then !BothSync(dr) else agg.drniSolo)
    ensures dr.drSolo == BothSync(dr) ==>
              (a.operDrniId, a.operDrniKey) == OperDrniIdentity(!BothSync(dr), dr.admin, dr.nbor, agg)
    ensures NborRestricts(!BothSync(dr), dr.nbor, agg) && agg.drniPartnerSystemId == NullSysId ==>
              a.drniPartnerSystemId == dr.nbor.aggState.partnerSystemId
    ensures !NborRestricts(!BothSync(dr), dr.nbor, agg) ==> a.drniPartnerSystemId == NullSysId
    ensures !a.updateDistRelayAggState
    ensures a.actorAdminSystem == agg.actorAdminSystem && a.activeLagLinks == agg.activeLagLinks
  {
    var solo := !BothSync(dr);
    var a1 := if dr.drSolo == BothSync(dr) then InstallDrniIdentity(solo, dr.admin, dr.nbor, agg) else agg;
    var a2 := RestrictPartner(solo, dr.nbor, a1);
    a2.(updateDistRelayAggState := false)
  }

  /** The selection `before` becomes `after` in one pass of the DRNI Gateway and Aggregator
      machine.  With `vectors`, the aggregator vector is `AggregatorSelection` and the gateway
      vector is `GatewaySelection` over it, both from the solo status, the home and neighbour
      state; otherwise both vectors are kept.  With `masks`, the masks are those `DrniMasks`
      derives from the (new) vectors, the synchronisation mask left and the previous gateway
      masks; otherwise the masks are kept. */
  predicate SelectionRecomputed(before: Selection, after: Selection, vectors: bool, masks: bool, solo: bool,
                                home: HomeInfo, nbor: NborInfo, refl: Reflected, adminSystem: SysId,
                                linkVector: LinkVectorFn) {
    && (vectors ==>
          && after.aggregatorVector == AggregatorSelection(solo, home, nbor, adminSystem, linkVector)
          && after.gatewayVector == GatewaySelection(solo, home, nbor, after.aggregatorVector, adminSystem))
    && (!vectors ==> after.aggregatorVector == before.aggregatorVector && after.gatewayVector == before.gatewayVector)
    && (masks ==>
          after == DrniMasks(before.(aggregatorVector := after.aggregatorVector, gatewayVector := after.gatewayVector,
                                     syncMask := after.syncMask), solo || AllAcknowledged(home, refl)))
    && (!masks ==>
          after == before.(aggregatorVector := after.aggregatorVector, gatewayVector := after.gatewayVector,
                           syncMask := after.syncMask))
  }

  /** The selection depends on the home state vectors, not on the last-transmitted
      sequence numbers. */
  lemma SelectionRecomputedSameVectors(before: Selection, after: Selection, vectors: bool, masks: bool, solo: bool,
                                       h1: HomeInfo, h2: HomeInfo, nbor: NborInfo, refl: Reflected, adminSystem: SysId,
                                       linkVector: LinkVectorFn)
    requires h1.aggState == h2.aggState && h1.gwState == h2.gwState && h1.gwPreference == h2.gwPreference
    requires SelectionRecomputed(before, after, vectors, masks, solo, h1, nbor, refl, adminSystem, linkVector)
    ensures SelectionRecomputed(before, after, vectors, masks, solo, h2, nbor, refl, adminSystem, linkVector)
  {
    assert AggregatorSelection(solo, h1, nbor, adminSystem, linkVector) == AggregatorSelection(solo, h2, nbor, adminSystem, linkVector);
    assert GatewaySelection(solo, h1, nbor, after.aggregatorVector, adminSystem)
           == GatewaySelection(solo, h2, nbor, after.aggregatorVector, adminSystem);
    assert AllAcknowledged(h1, refl) == AllAcknowledged(h2, refl);
  }

  /** `DrniMasks` reads the synchronisation mask only when not every conversation counts as
      synchronised, and then keeps it: feeding it its own result's mask changes nothing. */
  lemma DrniMasksOwnSync(sel: Selection, syncAll: bool)
    ensures DrniMasks(sel.(syncMask := DrniMasks(sel, syncAll).syncMask), syncAll) == DrniMasks(sel, syncAll)
  {
    if !syncAll {
      assert sel.(syncMask := DrniMasks(sel, syncAll).syncMask) == sel;
    }
  }

  /** The selection half of the DRNI Gateway and Aggregator machine: with
      `homeVectorUpdate`, the aggregator and gateway vectors are recomputed from the
      (already refreshed) home state; with `maskUpdate`, the masks are recomputed from the
      vectors.  Otherwise the selection is left alone, and the masks stay exclusive. */
  method UpdateSelection(sel: Selection, homeVectorUpdate: bool, maskUpdate: bool, solo: bool, home: HomeInfo,
                         nbor: NborInfo, refl: Reflected, adminSystem: SysId, linkVector: LinkVectorFn)
    returns (s: Selection)
    ensures SelectionRecomputed(sel, s, homeVectorUpdate, maskUpdate, solo, home, nbor, refl, adminSystem, linkVector)
    ensures maskUpdate ==> s == DrniMasks(sel.(aggregatorVector := s.aggregatorVector, gatewayVector := s.gatewayVector),
                                          solo || AllAcknowledged(home, refl))
    ensures !maskUpdate ==> s.syncMask == sel.syncMask && s.homeGatewayMask == sel.homeGatewayMask
                            && s.nborGatewayMask == sel.nborGatewayMask
    ensures maskUpdate && (solo || AllAcknowledged(home, refl)) ==> s.syncMask == AllSet
    ensures !(maskUpdate && (solo || AllAcknowledged(home, refl))) ==> s.syncMask == sel.syncMask
    ensures MasksExclusive(sel) || maskUpdate ==> MasksExclusive(s)
  {
    s := sel;
    if homeVectorUpdate {
      var aggVector := AggregatorSelection(solo, home, nbor, adminSystem, linkVector);
      var gwVector := GatewaySelection(solo, home, nbor, aggVector, adminSystem);
      s := s.(aggregatorVector := aggVector, gatewayVector := gwVector);
    }
    if maskUpdate {
      var vectors := s;
      s := DrniMasks(vectors, solo || AllAcknowledged(home, refl));
      DrniMasksOwnSync(vectors, solo || AllAcknowledged(home, refl));
      assert vectors.(syncMask := s.syncMask)
             == sel.(aggregatorVector := s.aggregatorVector, gatewayVector := s.gatewayVector, syncMask := s.syncMask);
    }
  }

  /** The home state and synchronisation mask the pass works from: refreshed by
      `updateHomeState` when home information changed or the Aggregator asked for an
      update, and as they stand otherwise. */
  function RefreshedHome(dr: Relay, sync: Mask, agg: Aggregator): HomeUpdate {
    if dr.newHomeInfo || agg.updateDistRelayAggState
    then UpdateHomeState(HomeUpdate(dr.home, sync, false), dr.reflected, GatewayAvailable(dr.enabled, dr.admin), dr.admin, agg)
    else HomeUpdate(dr.home, sync, false)
  }

  /** The synchronisation mask the Distributed Relay machine leaves: reset when the solo
      status changes (every conversation when solo, none when paired), kept otherwise. */
  function DrSyncMask(dr: Relay): Mask {
    if dr.drSolo == BothSync(dr) then (if BothSync(dr) then AllClear else AllSet) else dr.sel.syncMask
  }

  /** The synchronisation mask a run of the machines leaves in `after`: every conversation
      when the masks were recomputed with all of them counting as synchronised, otherwise
      the mask the Distributed Relay machine left, reduced by the home-state refresh. */
  predicate SyncMaskAfterRun(dr: Relay, agg: Aggregator, after: Relay) {
    after.sel.syncMask
      == if (GwAggVectorsUpdated(dr, agg) || dr.newReflectedState) && (after.drSolo || AllAcknowledged(after.home, dr.reflected))
         then AllSet
         else RefreshedHome(dr, DrSyncMask(dr), agg).sync
  }

  /** One pass of the DRNI Gateway and Aggregator machine over the flags as they stood on
      entry (`newNbor` includes a change of solo status): the home state is refreshed when
      home information changed (including a request from the Aggregator), the vectors are
      recomputed when home or neighbour information changed, and the masks when anything
      changed.  `sync` is the synchronisation mask the Distributed Relay machine left. */
  method GatewayAggregatorPass(dr: Relay, solo: bool, sync: Mask, newNbor: bool, agg: Aggregator, linkVector: LinkVectorFn)
    returns (home: HomeInfo, sel: Selection, ntt: bool)
    ensures dr.newHomeInfo || agg.updateDistRelayAggState ==>
              !HomeStateStale(home, dr.reflected, GatewayAvailable(dr.enabled, dr.admin), dr.admin, agg)
    ensures !dr.newHomeInfo && !agg.updateDistRelayAggState ==> home == dr.home && ntt == dr.tx.ntt
    ensures dr.tx.ntt ==> ntt
    ensures SelectionRecomputed(dr.sel, sel, dr.newHomeInfo || agg.updateDistRelayAggState || newNbor,
                                dr.newHomeInfo || agg.updateDistRelayAggState || newNbor || dr.newReflectedState,
                                solo, home, dr.nbor, dr.reflected, agg.actorAdminSystem, linkVector)
    // Synchronisation is only lost, unless the masks were recomputed with every
    // conversation counting as synchronised.
    ensures ((dr.newHomeInfo || agg.updateDistRelayAggState || newNbor || dr.newReflectedState)
             && (solo || AllAcknowledged(home, dr.reflected))) ==> sel.syncMask == AllSet
    ensures !((dr.newHomeInfo || agg.updateDistRelayAggState || newNbor || dr.newReflectedState)
              && (solo || AllAcknowledged(home, dr.reflected))) ==>
              forall c :: 0 <= c < NumCids ==> sel.syncMask[c] ==> sync[c]
    // Otherwise the mask is the one the home-state refresh handed to the selection.
    ensures !((dr.newHomeInfo || agg.updateDistRelayAggState || newNbor || dr.newReflectedState)
              && (solo || AllAcknowledged(home, dr.reflected))) ==>
              sel.syncMask == RefreshedHome(dr, sync, agg).sync
    ensures home == RefreshedHome(dr, sync, agg).home && ntt == (dr.tx.ntt || RefreshedHome(dr, sync, agg).announce)
    ensures MasksExclusive(dr.sel) ==> MasksExclusive(sel)
  {
    var newHome := dr.newHomeInfo || agg.updateDistRelayAggState;
    var u := HomeUpdate(dr.home, sync, false);
    if newHome {
      u := UpdateHomeState(u, dr.reflected, GatewayAvailable(dr.enabled, dr.admin), dr.admin, agg);
    }
    sel := UpdateSelection(dr.sel.(syncMask := u.sync), newHome || newNbor, newHome || newNbor || dr.newReflectedState,
                           solo, u.home, dr.nbor, dr.reflected, agg.actorAdminSystem, linkVector);
    home, ntt := u.home, dr.tx.ntt || u.announce;
  }

  /** The DRNI Gateway and Aggregator machine recomputes the vectors: home information
      changed or the Aggregator asked for an update, the neighbour's state changed, or the
      solo status changes against the Aggregator's. */
  predicate GwAggVectorsUpdated(dr: Relay, agg: Aggregator) {
    || dr.newHomeInfo || agg.updateDistRelayAggState || dr.newNborState
    || (dr.drSolo == BothSync(dr) && !BothSync(dr) != agg.drniSolo)
  }

  /** What a run of the machines leaves alone or clears: the received state, the admin
      settings and the receive machine are kept, the pending-change flags and TxHold are
      cleared, and NTT is only ever raised. */
  predicate RunKeeps(dr: Relay, r: Relay) {
    && !r.newHomeInfo && !r.newNborState && !r.newReflectedState && !r.tx.hold
    && r.nbor == dr.nbor && r.reflected == dr.reflected && r.admin == dr.admin && r.rx == dr.rx
    && r.tx == dr.tx.(ntt := r.tx.ntt, hold := false) && (dr.tx.ntt ==> r.tx.ntt)
    && r.drcpEnabled == dr.drcpEnabled && r.irpOperational == dr.irpOperational
  }

  /** `runDrniGwAggMachines`: the Distributed Relay machine followed by one pass of the
      DRNI Gateway and Aggregator machine; the pending-change flags and TxHold are cleared,
      NTT is raised when the home state changed, and IRC data is enabled exactly when both
      systems report IRC data, IRC sync and DRNI. */
  method RunDrniGwAggMachines(dr: Relay, agg: Aggregator, linkVector: LinkVectorFn) returns (r: Relay, a: Aggregator)
    ensures r.drSolo == !BothSync(dr) && a.drniSolo == (if dr.drSolo == BothSync(dr) then !BothSync(dr) else agg.drniSolo)
    ensures r.homeIrp.drni == (if dr.drSolo == BothSync(dr) then BothSync(dr) else dr.homeIrp.drni)
    ensures r.enableIrcData == (dr.homeIrp.ircData && dr.nbor.irpState.ircData && BothSync(dr)
                                && r.homeIrp.drni && dr.nbor.irpState.drni)
    ensures RunKeeps(dr, r) && !a.updateDistRelayAggState
    ensures dr.newHomeInfo || agg.updateDistRelayAggState ==>
              !HomeStateStale(r.home, dr.reflected, GatewayAvailable(dr.enabled, dr.admin), dr.admin, agg)
    ensures !dr.newHomeInfo && !agg.updateDistRelayAggState ==> r.home == dr.home
    ensures SelectionRecomputed(dr.sel, r.sel, GwAggVectorsUpdated(dr, agg), GwAggVectorsUpdated(dr, agg) || dr.newReflectedState,
                                r.drSolo, r.home, dr.nbor, dr.reflected, agg.actorAdminSystem, linkVector)
    ensures MasksExclusive(dr.sel) ==> MasksExclusive(r.sel)
    ensures r.home == RefreshedHome(dr, DrSyncMask(dr), agg).home
    ensures SyncMaskAfterRun(dr, agg, r)
    ensures r.homeIrp == dr.homeIrp.(drni := r.homeIrp.drni)
    ensures a == RunDrniGwAggMachinesAggregator(dr, agg)
  {
    var solo, irp, sync, enableIrcData := DistributedRelayMachine(dr.drSolo, dr.homeIrp, dr.nbor.irpState, dr.sel.syncMask);
    r := GwAggPassOnRelay(dr, solo, irp, sync, enableIrcData, agg, linkVector);
    a := RunDrniGwAggMachinesAggregator(dr, agg);
  }

  /** The relay side of `runDrniGwAggMachines` once the Distributed Relay machine has run:
      the pass over the flags as they stood, then the flags and TxHold cleared. */
  method GwAggPassOnRelay(dr: Relay, solo: bool, irp: IrpState, sync: Mask, enableIrcData: bool, agg: Aggregator,
                          linkVector: LinkVectorFn)
    returns (r: Relay)
    requires solo == !BothSync(dr) && sync == DrSyncMask(dr)
    requires irp == dr.homeIrp.(drni := if dr.drSolo == BothSync(dr) then BothSync(dr) else dr.homeIrp.drni)
    ensures r.drSolo == solo && r.homeIrp == irp && r.enableIrcData == enableIrcData
    ensures r.drSolo == !BothSync(dr)
    ensures r.homeIrp.drni == (if dr.drSolo == BothSync(dr) then BothSync(dr) else dr.homeIrp.drni)
    ensures r.homeIrp == dr.homeIrp.(drni := r.homeIrp.drni)
    ensures RunKeeps(dr, r)
    ensures dr.newHomeInfo || agg.updateDistRelayAggState ==>
              !HomeStateStale(r.home, dr.reflected, GatewayAvailable(dr.enabled, dr.admin), dr.admin, agg)
    ensures !dr.newHomeInfo && !agg.updateDistRelayAggState ==> r.home == dr.home
    ensures SelectionRecomputed(dr.sel, r.sel, GwAggVectorsUpdated(dr, agg), GwAggVectorsUpdated(dr, agg) || dr.newReflectedState,
                                r.drSolo, r.home, dr.nbor, dr.reflected, agg.actorAdminSystem, linkVector)
    ensures MasksExclusive(dr.sel) ==> MasksExclusive(r.sel)
    ensures r.home == RefreshedHome(dr, DrSyncMask(dr), agg).home
    ensures SyncMaskAfterRun(dr, agg, r)
  {
    var newNbor := dr.newNborState || (dr.drSolo != solo && solo != agg.drniSolo);
    var home, sel, ntt := GatewayAggregatorPass(dr, solo, sync, newNbor, agg, linkVector);
    r := dr.(drSolo := solo, homeIrp := irp, enableIrcData := enableIrcData, newHomeInfo := false,
             newNborState := false, newReflectedState := false, home := home, sel := sel,
             tx := dr.tx.(ntt := ntt, hold := false));
  }

  /** `set_homeAdminGatewayEnable`: stored unconditionally, and the change is always flagged. */
  function SetHomeAdminGatewayEnable(dr: Relay, m: Mask): (r: Relay)
    ensures r.admin.gatewayEnable == m && r.newHomeInfo
    ensures r.admin.(gatewayEnable := dr.admin.gatewayEnable) == dr.admin
    ensures r.(admin := dr.admin, newHomeInfo := dr.newHomeInfo) == dr
  {
    dr.(admin := dr.admin.(gatewayEnable := m), newHomeInfo := true)
  }

  /** `set_homeAdminGatewayPreference`: stored unconditionally, and the change is always flagged. */
  function SetHomeAdminGatewayPreference(dr: Relay, m: Mask): (r: Relay)
    ensures r.admin.gatewayPreference == m && r.newHomeInfo
    ensures r.admin.(gatewayPreference := dr.admin.gatewayPreference) == dr.admin
    ensures r.(admin := dr.admin, newHomeInfo := dr.newHomeInfo) == dr
  {
    dr.(admin := dr.admin.(gatewayPreference := m), newHomeInfo := true)
  }

  /** `set_homeAdminGatewayAlgorithm`: setting the current value changes nothing; a new
      value is stored and flagged. */
  function SetHomeAdminGatewayAlgorithm(dr: Relay, alg: Alg): (r: Relay)
    ensures r.admin.gatewayAlgorithm == alg
    ensures r.newHomeInfo == (dr.newHomeInfo || dr.admin.gatewayAlgorithm != alg)
    ensures dr.admin.gatewayAlgorithm == alg ==> r == dr
    ensures r.admin.(gatewayAlgorithm := dr.admin.gatewayAlgorithm) == dr.admin
    ensures r.(admin := dr.admin, newHomeInfo := dr.newHomeInfo) == dr
  {
    if dr.admin.gatewayAlgorithm != alg then dr.(admin := dr.admin.(gatewayAlgorithm := alg), newHomeInfo := true) else dr
  }

  /** `set_homeAdminCscdGatewayControl`: setting the current value changes nothing; a new
      value is stored and flagged. */
  function SetHomeAdminCscdGatewayControl(dr: Relay, val: bool): (r: Relay)
    ensures r.admin.cscdGatewayControl == val
    ensures r.newHomeInfo == (dr.newHomeInfo || dr.admin.cscdGatewayControl != val)
    ensures dr.admin.cscdGatewayControl == val ==> r == dr
    ensures r.admin.(cscdGatewayControl := dr.admin.cscdGatewayControl) == dr.admin
    ensures r.(admin := dr.admin, newHomeInfo := dr.newHomeInfo) == dr
  {
    if dr.admin.cscdGatewayControl != val then dr.(admin := dr.admin.(cscdGatewayControl := val), newHomeInfo := true) else dr
  }
}

=== FILE: drcp_rx.dfy ===
/** The DRCP receive machine of a Distributed Relay: the state actions, the three routines
    that record a DRCPDU (reflected state, neighbour state, IRP state), and `step`/`run`.
    EXPIRED, DEFAULTED, DRNI_CHECK and CURRENT are actions that fall through to
    WAIT_TO_RECEIVE within one step, so the machine only ever rests in INITIALIZE or
    WAIT_TO_RECEIVE. */
module DrcpRx {
  import opened Common
  import opened DistRelayState
  import opened DistributedRelay

  /** `recordDefault`: the home IRP state is cleared to "defaulted" (keeping only the admin
      short-timeout bit), the neighbour's identity and state vectors and the reflected
      sequence numbers are forgotten, and every change flag is raised.  The neighbour's IRP
      state and DRNI key, and the reflected IRP state, are left as they were. */
  function RecordDefault(dr: Relay): (r: Relay)
    ensures r.homeIrp.defaulted && !r.homeIrp.expired && !r.homeIrp.ircSync && !r.homeIrp.ircData && !r.homeIrp.drni
    ensures IrpToByte(r.homeIrp) == if dr.admin.irpState.drcpShortTimeout then 0x44 else 0x40
    ensures r.nbor.systemId == NullSysId && r.nbor.aggState == ResetAggState()
    ensures r.nbor.gwState == ResetGwState() && r.nbor.gwPreference == ResetGwPreference()
    ensures r.nbor.irpState == dr.nbor.irpState && r.nbor.drniKey == dr.nbor.drniKey
    ensures r.reflected.aggSeq == 0 && r.reflected.gwSeq == 0 && r.reflected.gpSeq == 0
    ensures r.reflected.irpState == dr.reflected.irpState
    ensures !r.rx.differDrni && r.newHomeInfo && r.newNborState && r.newReflectedState
    ensures r == dr.(homeIrp := r.homeIrp, nbor := r.nbor, reflected := r.reflected, rx := r.rx,
                     newHomeInfo := true, newNborState := true, newReflectedState := true)
    ensures r.rx == dr.rx.(differDrni := false)
  {
    var irp := IrpZero.(drcpShortTimeout := dr.admin.irpState.drcpShortTimeout, defaulted := true);
    dr.(homeIrp := irp,
        nbor := dr.nbor.(systemId := NullSysId, aggState := ResetAggState(), gwState := ResetGwState(),
                         gwPreference := ResetGwPreference()),
        reflected := dr.reflected.(aggSeq := 0, gwSeq := 0, gpSeq := 0),
        rx := dr.rx.(differDrni := false),
        newHomeInfo := true, newNborState := true, newReflectedState := true)
  }

  /** Defaulting twice is defaulting once: nothing `recordDefault` writes depends on what it
      overwrites. */
  lemma RecordDefaultIdempotent(dr: Relay)
    ensures RecordDefault(RecordDefault(dr)) == RecordDefault(dr)
  {
  }

  /** `enterInitialize`: record the defaults and rest in INITIALIZE. */
  function EnterInitialize(dr: Relay): (r: Relay)
    ensures r.rx.state == Initialize
    ensures r == RecordDefault(dr).(rx := r.rx) && r.rx == RecordDefault(dr).rx.(state := Initialize)
  {
    var d := RecordDefault(dr);
    d.(rx := d.rx.(state := Initialize))
  }

  /** `enterExpired`: the neighbour is assumed to want short timeouts, the home state is
      marked expired, the current-while timer runs the short timeout and a DRCPDU is
      requested; the machine then waits to receive. */
  function EnterExpired(dr: Relay): (r: Relay)
    ensures r.rx.state == WaitToReceive && r.rx.currentWhileTimer == ShortTimeout && r.rx.currentWhileTimer > 0
    ensures r.homeIrp == dr.homeIrp.(expired := true) && r.tx == dr.tx.(ntt := true)
    ensures r.nbor == dr.nbor.(irpState := dr.nbor.irpState.(drcpShortTimeout := true))
    ensures r == dr.(rx := r.rx, homeIrp := r.homeIrp, tx := r.tx, nbor := r.nbor)
    ensures r.rx == dr.rx.(state := WaitToReceive, currentWhileTimer := ShortTimeout)
  {
    dr.(nbor := dr.nbor.(irpState := dr.nbor.irpState.(drcpShortTimeout := true)),
        rx := dr.rx.(state := WaitToReceive, currentWhileTimer := ShortTimeout),
        homeIrp := dr.homeIrp.(expired := true),
        tx := dr.tx.(ntt := true))
  }

  /** `enterDefaulted`: record the defaults and wait to receive; the timer is not touched. */
  function EnterDefaulted(dr: Relay): (r: Relay)
    ensures r.rx.state == WaitToReceive && r.rx.currentWhileTimer == dr.rx.currentWhileTimer
    ensures r == RecordDefault(dr).(rx := r.rx) && r.rx == RecordDefault(dr).rx.(state := WaitToReceive)
  {
    var d := RecordDefault(dr);
    d.(rx := d.rx.(state := WaitToReceive))
  }

  /** `compareDrniValues`: the DRCPDU is not from a compatible neighbour -- an older DRCP
      version, another DRNI system, a non-zero DRNI address with another DRNI key, or this
      system's own identity as sender. */
  predicate DiffersDrni(pdu: Drcpdu, admin: AdminConfig, adminSystem: SysId)
    ensures pdu.homeSystemId == adminSystem ==> DiffersDrni(pdu, admin, adminSystem)
    ensures (pdu.version >= 2 && pdu.drniAggregatorSystemId == admin.drniSystemId && pdu.drniAggregatorKey == admin.drniKey)
              ==> (DiffersDrni(pdu, admin, adminSystem) <==> pdu.homeSystemId == adminSystem)
    ensures (pdu.drniAggregatorSystemId.addr == 0 && pdu.version >= 2 && pdu.drniAggregatorSystemId == admin.drniSystemId)
              ==> (DiffersDrni(pdu, admin, adminSystem) <==> pdu.homeSystemId == adminSystem)
  {
    || pdu.version < 2
    || pdu.drniAggregatorSystemId != admin.drniSystemId
    || (pdu.drniAggregatorSystemId.addr != 0 && pdu.drniAggregatorKey != admin.drniKey)
    || pdu.homeSystemId == adminSystem
  }

  /** What `recordReflectedState` leaves: the reflected state, and whether it raised NTT,
      newReflectedState and newHomeInfo. */
  datatype ReflectedRecord = ReflectedRecord(reflected: Reflected, ntt: bool, newReflected: bool, newHome: bool)

  /** `recordReflectedState`: each reflected sequence number becomes the larger of the
      stored and the received one, so reflected numbers never go back; an echo older than
      the stored one asks for a DRCPDU; an echo newer than the home number itself makes the
      home state stale.  The reflected IRP state is always taken from the DRCPDU. */
  function RecordReflectedState(refl: Reflected, home: HomeInfo, pdu: Drcpdu): (r: ReflectedRecord)
    ensures r.reflected.aggSeq >= refl.aggSeq && r.reflected.aggSeq >= pdu.nborAggSequence
    ensures r.reflected.aggSeq == refl.aggSeq || r.reflected.aggSeq == pdu.nborAggSequence
    ensures r.reflected.gwSeq >= refl.gwSeq && r.reflected.gwSeq >= pdu.nborGwSequence
    ensures r.reflected.gwSeq == refl.gwSeq || r.reflected.gwSeq == pdu.nborGwSequence
    ensures r.reflected.gpSeq >= refl.gpSeq && r.reflected.gpSeq >= pdu.nborGpSequence
    ensures r.reflected.gpSeq == refl.gpSeq || r.reflected.gpSeq == pdu.nborGpSequence
    ensures r.reflected.irpState == pdu.nborIrpState
    ensures r.ntt <==> pdu.nborAggSequence < refl.aggSeq || pdu.nborGwSequence < refl.gwSeq
                       || pdu.nborGpSequence < refl.gpSeq
    ensures r.newReflected <==> r.reflected.(irpState := refl.irpState) != refl
    ensures r.newHome <==> pdu.nborAggSequence > home.aggState.seqNum || pdu.nborGwSequence > home.gwState.seqNum
                           || pdu.nborGpSequence > home.gwPreference.seqNum
  {
    var agg := if pdu.nborAggSequence > refl.aggSeq then pdu.nborAggSequence else refl.aggSeq;
    var gw := if pdu.nborGwSequence > refl.gwSeq then pdu.nborGwSequence else refl.gwSeq;
    var gp := if pdu.nborGpSequence > refl.gpSeq then pdu.nborGpSequence else refl.gpSeq;
    ReflectedRecord(
      Reflected(pdu.nborIrpState, agg, gw, gp),
      pdu.nborAggSequence < refl.aggSeq || pdu.nborGwSequence < refl.gwSeq || pdu.nborGpSequence < refl.gpSeq,
      pdu.nborAggSequence > refl.aggSeq || pdu.nborGwSequence > refl.gwSeq || pdu.nborGpSequence > refl.gpSeq,
      pdu.nborAggSequence > home.aggState.seqNum || pdu.nborGwSequence > home.gwState.seqNum
      || pdu.nborGpSequence > home.gwPreference.seqNum)
  }

  /** Recording the same DRCPDU again changes nothing; it asks for a DRCPDU again exactly
      when the first recording did (the echo is still older than what is stored). */
  lemma RecordReflectedIdempotent(refl: Reflected, home: HomeInfo, pdu: Drcpdu)
    ensures var r1 := RecordReflectedState(refl, home, pdu);
            var r2 := RecordReflectedState(r1.reflected, home, pdu);
            r2.reflected == r1.reflected && !r2.newReflected && r2.ntt == r1.ntt
  {
    var r1 := RecordReflectedState(refl, home, pdu);
    var r2 := RecordReflectedState(r1.reflected, home, pdu);
    assert r2.reflected.aggSeq == r1.reflected.aggSeq && r2.reflected.gwSeq == r1.reflected.gwSeq;
    assert r2.reflected.gpSeq == r1.reflected.gpSeq;
    assert r2.reflected == r1.reflected;
  }

  /** The DRCPDU carries an Aggregator state the neighbour record adopts: newer than the
      stored one, present, and numbered as the header says. */
  predicate AcceptsAggState(stored: AggState, pdu: Drcpdu) {
    pdu.homeAggSequence > stored.seqNum && pdu.aggregatorStateTlv
    && pdu.homeAggSequence == pdu.homeAggregatorState.seqNum
  }

  predicate AcceptsGwState(stored: GwState, pdu: Drcpdu) {
    pdu.homeGwSequence > stored.seqNum && pdu.gatewayStateTlv
    && pdu.homeGwSequence == pdu.homeGatewayState.seqNum
  }

  predicate AcceptsGwPreference(stored: GwPreference, pdu: Drcpdu) {
    pdu.homeGpSequence > stored.seqNum && pdu.gatewayPreferenceTlv
    && pdu.homeGpSequence == pdu.homeGatewayPreference.seqNum
  }

  /** What `recordNeighborState` leaves: the neighbour record and whether it raised NTT,
      and TxHold together with newNborState. */
  datatype NborRecord = NborRecord(nbor: NborInfo, ntt: bool, changed: bool)

  /** The neighbour's identity and DRNI key as the DRCPDU states them, and the header's
      sequence numbers as the neighbour's. */
  predicate SenderMatches(nbor: NborInfo, pdu: Drcpdu) {
    pdu.homeSystemId == nbor.systemId && pdu.drniAggregatorKey == nbor.drniKey
    && pdu.homeAggSequence == nbor.aggState.seqNum && pdu.homeGwSequence == nbor.gwState.seqNum
    && pdu.homeGpSequence == nbor.gwPreference.seqNum
  }

  /** `recordNeighborState`: the sender's identity and key are always recorded; a state
      vector is replaced only by a newer one the DRCPDU actually carries, so the stored
      neighbour sequence numbers never go back.  TxHold and newNborState are raised exactly
      when the record changed; NTT exactly when the header did not match the record. */
  function RecordNeighborState(nbor: NborInfo, pdu: Drcpdu): (r: NborRecord)
    ensures r.nbor.systemId == pdu.homeSystemId && r.nbor.drniKey == pdu.drniAggregatorKey
    ensures r.nbor.irpState == nbor.irpState
    ensures r.nbor.aggState == if AcceptsAggState(nbor.aggState, pdu) then pdu.homeAggregatorState else nbor.aggState
    ensures r.nbor.gwState == if AcceptsGwState(nbor.gwState, pdu) then pdu.homeGatewayState else nbor.gwState
    ensures r.nbor.gwPreference ==
              if AcceptsGwPreference(nbor.gwPreference, pdu) then pdu.homeGatewayPreference else nbor.gwPreference
    ensures r.nbor.aggState.seqNum >= nbor.aggState.seqNum && r.nbor.gwState.seqNum >= nbor.gwState.seqNum
            && r.nbor.gwPreference.seqNum >= nbor.gwPreference.seqNum
    ensures r.changed <==> r.nbor != nbor
    ensures r.ntt <==> !SenderMatches(nbor, pdu)
  {
    var idChanged := pdu.homeSystemId != nbor.systemId || pdu.drniAggregatorKey != nbor.drniKey;
    var aggOk := AcceptsAggState(nbor.aggState, pdu);
    var gwOk := AcceptsGwState(nbor.gwState, pdu);
    var gpOk := AcceptsGwPreference(nbor.gwPreference, pdu);
    var n := nbor.(
      systemId := pdu.homeSystemId,
      drniKey := pdu.drniAggregatorKey,
      aggState := if aggOk then pdu.homeAggregatorState else nbor.aggState,
      gwState := if gwOk then pdu.homeGatewayState else nbor.gwState,
      gwPreference := if gpOk then pdu.homeGatewayPreference else nbor.gwPreference);
    assert aggOk ==> n.aggState.seqNum != nbor.aggState.seqNum;
    assert gwOk ==> n.gwState.seqNum != nbor.gwState.seqNum;
    assert gpOk ==> n.gwPreference.seqNum != nbor.gwPreference.seqNum;
    NborRecord(n, !SenderMatches(nbor, pdu), idChanged || aggOk || gwOk || gpOk)
  }

  /** Recording the same DRCPDU again leaves the neighbour record as it is and raises
      neither TxHold nor newNborState. */
  lemma RecordNeighborIdempotent(nbor: NborInfo, pdu: Drcpdu)
    ensures var r1 := RecordNeighborState(nbor, pdu);
            var r2 := RecordNeighborState(r1.nbor, pdu);
            r2.nbor == r1.nbor && !r2.changed
  {
  }

  /** The neighbour cannot count as synchronised: it did not echo this system's identity,
      or this system is synchronised, holds the lower identity (so its DRNI key is in use)
      and the neighbour has not echoed that key yet. */
  predicate EchoMismatch(homeSync: bool, pdu: Drcpdu, nborSystem: SysId, adminSystem: SysId, drniKey: uint16) {
    pdu.nborSystemId != adminSystem
    || (homeSync && Below(adminSystem, nborSystem) && pdu.drniAggregatorKey != drniKey)
  }

  /** The home half of `updateIrpState`: no longer expired or defaulted, synchronised
      unless the DRNI values differ, and IRC data re-derived from the admin state only when
      synchronisation flips. */
  function AcceptedHomeIrp(homeIrp: IrpState, adminIrp: IrpState, differDrni: bool): (home: IrpState)
    ensures !home.expired && !home.defaulted && home.ircSync == !differDrni
    ensures home.ircData == if homeIrp.ircSync == differDrni then !differDrni && adminIrp.ircData else homeIrp.ircData
    ensures home == homeIrp.(expired := false, defaulted := false, ircSync := home.ircSync, ircData := home.ircData)
  {
    var flip := homeIrp.ircSync == differDrni;
    homeIrp.(expired := false, defaulted := false, ircSync := !differDrni,
             ircData := if flip then !differDrni && adminIrp.ircData else homeIrp.ircData)
  }

  /** The neighbour half of `updateIrpState`: the short-timeout, IRC-data, DRNI, defaulted
      and expired bits (those under mask 0xf4) come from the DRCPDU; the IRC-sync bit
      follows the DRCPDU unless the echo does not match; the reserved bits stay. */
  function AcceptedNborIrp(nborIrp: IrpState, pdu: Drcpdu, mismatch: bool): (nbor: IrpState)
    ensures nbor.drcpShortTimeout == pdu.homeIrpState.drcpShortTimeout && nbor.ircData == pdu.homeIrpState.ircData
    ensures nbor.drni == pdu.homeIrpState.drni && nbor.defaulted == pdu.homeIrpState.defaulted
    ensures nbor.expired == pdu.homeIrpState.expired
    ensures nbor.reserved0 == nborIrp.reserved0 && nbor.reserved1 == nborIrp.reserved1
    ensures nbor.ircSync == (!mismatch && pdu.homeIrpState.ircSync)
  {
    var rx := pdu.homeIrpState;
    nborIrp.(drcpShortTimeout := rx.drcpShortTimeout, ircData := rx.ircData, drni := rx.drni,
             defaulted := rx.defaulted, expired := rx.expired, ircSync := !mismatch && rx.ircSync)
  }

  /** `updateIrpState`: both IRP states as `AcceptedHomeIrp` and `AcceptedNborIrp` describe
      them.  NTT is raised when either recorded state changed, when the echo does not
      match, or when the neighbour's view of the home state is out of date. */
  method UpdateIrpState(homeIrp: IrpState, nborIrp: IrpState, adminIrp: IrpState, differDrni: bool, pdu: Drcpdu,
                        nborSystem: SysId, adminSystem: SysId, drniKey: uint16)
    returns (home: IrpState, nbor: IrpState, ntt: bool)
    ensures home == AcceptedHomeIrp(homeIrp, adminIrp, differDrni)
    ensures nbor == AcceptedNborIrp(nborIrp, pdu, EchoMismatch(home.ircSync, pdu, nborSystem, adminSystem, drniKey))
    ensures ntt <==> home.ircSync != homeIrp.ircSync || nbor != nborIrp
                     || EchoMismatch(home.ircSync, pdu, nborSystem, adminSystem, drniKey) || pdu.nborIrpState != home
  {
    var rx := pdu.homeIrpState;
    var flip := homeIrp.ircSync == differDrni;
    home := AcceptedHomeIrp(homeIrp, adminIrp, differDrni);
    // The five bits under 0xf4 (compare `CopiedBitsDiffer`).
    var copiedDiffer := || rx.drcpShortTimeout != nborIrp.drcpShortTimeout || rx.ircData != nborIrp.ircData
                        || rx.drni != nborIrp.drni || rx.defaulted != nborIrp.defaulted || rx.expired != nborIrp.expired;
    var mismatch := EchoMismatch(home.ircSync, pdu, nborSystem, adminSystem, drniKey);
    var syncChanged := !mismatch && rx.ircSync != nborIrp.ircSync;
    nbor := AcceptedNborIrp(nborIrp, pdu, mismatch);
    ntt := flip || copiedDiffer || mismatch || syncChanged || pdu.nborIrpState != home;
  }



  /** `after` holds what the three recording routines of `enterCurrent` make of `pdu`, in
      order: the reflected state `RecordReflectedState` leaves, the neighbour record
      `RecordNeighborState` leaves with its IRP state and the home IRP state as
      `updateIrpState` accepts them, and the change flags, NTT and TxHold each recorder
      raises accumulated onto the relay's own. */
  predicate PduRecorded(dr: Relay, pdu: Drcpdu, adminSystem: SysId, after: Relay) {
    var rr := RecordReflectedState(dr.reflected, dr.home, pdu);
    var nr := RecordNeighborState(dr.nbor, pdu);
    var mismatch := EchoMismatch(after.homeIrp.ircSync, pdu, pdu.homeSystemId, adminSystem, dr.admin.drniKey);
    && after.reflected == rr.reflected
    && after.homeIrp == AcceptedHomeIrp(dr.homeIrp, dr.admin.irpState, dr.rx.differDrni)
    && after.nbor == nr.nbor.(irpState := AcceptedNborIrp(dr.nbor.irpState, pdu, mismatch))
    && after.newHomeInfo == (dr.newHomeInfo || rr.newHome)
    && after.newNborState == (dr.newNborState || nr.changed)
    && after.newReflectedState == (dr.newReflectedState || rr.newReflected)
    && after.tx.hold == (dr.tx.hold || nr.changed)
    && (after.tx.ntt <==> || dr.tx.ntt || rr.ntt || nr.ntt || after.homeIrp.ircSync != dr.homeIrp.ircSync
                          || after.nbor.irpState != dr.nbor.irpState || mismatch || pdu.nborIrpState != after.homeIrp)
  }

  /** The three recording routines of `enterCurrent` in order; only the received state,
      the change flags, NTT and TxHold change. */
  method RecordPdu(dr: Relay, pdu: Drcpdu, adminSystem: SysId) returns (r: Relay)
    ensures PduRecorded(dr, pdu, adminSystem, r)
    ensures r == dr.(reflected := r.reflected, nbor := r.nbor, homeIrp := r.homeIrp, newHomeInfo := r.newHomeInfo,
                     newNborState := r.newNborState, newReflectedState := r.newReflectedState,
                     tx := dr.tx.(ntt := r.tx.ntt, hold := r.tx.hold))
  {
    var rr := RecordReflectedState(dr.reflected, dr.home, pdu);
    var nr := RecordNeighborState(dr.nbor, pdu);
    assert nr.nbor.irpState == dr.nbor.irpState && nr.nbor.systemId == pdu.homeSystemId;
    var homeIrp, nborIrp, irpNtt := UpdateIrpState(dr.homeIrp, dr.nbor.irpState, dr.admin.irpState, dr.rx.differDrni,
                                                   pdu, pdu.homeSystemId, adminSystem, dr.admin.drniKey);
    r := dr.(reflected := rr.reflected, nbor := nr.nbor.(irpState := nborIrp), homeIrp := homeIrp,
             newHomeInfo := dr.newHomeInfo || rr.newHome, newNborState := dr.newNborState || nr.changed,
             newReflectedState := dr.newReflectedState || rr.newReflected,
             tx := dr.tx.(ntt := dr.tx.ntt || rr.ntt || nr.ntt || irpNtt, hold := dr.tx.hold || nr.changed));
  }

  /** `enterCurrent`: record the reflected state, the neighbour state and the IRP states
      from an accepted DRCPDU (as `PduRecorded` states), restart the current-while timer
      with the timeout the home state asks for, and wait to receive.  Sequence numbers only
      move forward, change flags and NTT are only ever raised, and nothing outside the
      received state changes. */
  method EnterCurrent(dr: Relay, pdu: Drcpdu, adminSystem: SysId) returns (r: Relay)
    ensures PduRecorded(dr, pdu, adminSystem, r)
    ensures r.rx.state == WaitToReceive && r.rx.currentWhileTimer > 0
    ensures r.rx.currentWhileTimer == if r.homeIrp.drcpShortTimeout then ShortTimeout else LongTimeout
    ensures !r.homeIrp.expired && !r.homeIrp.defaulted && r.homeIrp.ircSync == !dr.rx.differDrni
    ensures r.reflected.aggSeq >= dr.reflected.aggSeq && r.reflected.gwSeq >= dr.reflected.gwSeq
            && r.reflected.gpSeq >= dr.reflected.gpSeq
    ensures r.nbor.aggState.seqNum >= dr.nbor.aggState.seqNum && r.nbor.gwState.seqNum >= dr.nbor.gwState.seqNum
            && r.nbor.gwPreference.seqNum >= dr.nbor.gwPreference.seqNum
    ensures r.nbor.systemId == pdu.homeSystemId && r.nbor.drniKey == pdu.drniAggregatorKey
    ensures r.reflected.irpState == pdu.nborIrpState
    ensures dr.tx.ntt ==> r.tx.ntt
    ensures dr.newHomeInfo ==> r.newHomeInfo
    ensures (|| r.nbor.aggState != dr.nbor.aggState || r.nbor.gwState != dr.nbor.gwState
             || r.nbor.gwPreference != dr.nbor.gwPreference) ==> r.newNborState && r.tx.hold
    ensures dr.newNborState ==> r.newNborState
    ensures (dr.newReflectedState || r.reflected.aggSeq != dr.reflected.aggSeq) ==> r.newReflectedState
    ensures r.admin == dr.admin && r.home == dr.home && r.sel == dr.sel && r.drcpEnabled == dr.drcpEnabled
    ensures r.irpOperational == dr.irpOperational && r.rx.frame == dr.rx.frame && r.rx.differDrni == dr.rx.differDrni
  {
    var rec := RecordPdu(dr, pdu, adminSystem);
    var timer := if rec.homeIrp.drcpShortTimeout then ShortTimeout else LongTimeout;
    r := rec.(rx := dr.rx.(state := WaitToReceive, currentWhileTimer := timer));
  }

  /** `enterDrniCheck`: `compareDrniValues` decides; a DRCPDU from an incompatible system is
      dropped without recording anything, any other is recorded by `enterCurrent`. */
  method EnterDrniCheck(dr: Relay, pdu: Drcpdu, adminSystem: SysId) returns (r: Relay)
    ensures r.rx.state == WaitToReceive && r.rx.differDrni == DiffersDrni(pdu, dr.admin, adminSystem)
    ensures r.rx.differDrni ==> r == dr.(rx := dr.rx.(state := WaitToReceive, differDrni := true))
    ensures !r.rx.differDrni ==> (&& r.homeIrp.ircSync && !r.homeIrp.expired && !r.homeIrp.defaulted
                                  && r.rx.currentWhileTimer > 0 && r.nbor.systemId == pdu.homeSystemId)
    ensures !r.rx.differDrni ==> PduRecorded(dr.(rx := dr.rx.(differDrni := false)), pdu, adminSystem, r)
    ensures (dr.newHomeInfo ==> r.newHomeInfo) && (dr.newNborState ==> r.newNborState)
    ensures r.reflected.aggSeq >= dr.reflected.aggSeq && r.reflected.gwSeq >= dr.reflected.gwSeq
            && r.reflected.gpSeq >= dr.reflected.gpSeq
    ensures r.nbor.aggState.seqNum >= dr.nbor.aggState.seqNum && r.nbor.gwState.seqNum >= dr.nbor.gwState.seqNum
            && r.nbor.gwPreference.seqNum >= dr.nbor.gwPreference.seqNum
    ensures r.admin == dr.admin && r.home == dr.home && r.sel == dr.sel && r.drcpEnabled == dr.drcpEnabled
    ensures r.irpOperational == dr.irpOperational && r.rx.frame == dr.rx.frame
  {
    var differ := DiffersDrni(pdu, dr.admin, adminSystem);
    if differ {
      r := dr.(rx := dr.rx.(state := WaitToReceive, differDrni := true));
    } else {
      r := EnterCurrent(dr.(rx := dr.rx.(differDrni := false)), pdu, adminSystem);
    }
  }

  /** The relay as a step starts working on it: the IRP's operational state read, and the
      DRCPDU slot emptied (every step is done with the received DRCPDU, if any). */
  function Arrived(dr: Relay, issOperational: bool): (r: Relay)
    ensures r.rx.frame == None && r.irpOperational == issOperational
    ensures r == dr.(rx := r.rx, irpOperational := issOperational) && r.rx == dr.rx.(frame := None)
  {
    dr.(irpOperational := issOperational, rx := dr.rx.(frame := None))
  }

  /** The machine rests: its next step takes no transition and changes nothing.  Either it
      is in INITIALIZE with the IRP down or DRCP disabled, or it waits to receive with the
      IRP up, DRCP enabled, no DRCPDU and the current-while timer running. */
  predicate RxStable(dr: Relay, issOperational: bool) {
    && dr.rx.frame == None
    && ((dr.rx.state == Initialize && !(issOperational && dr.drcpEnabled))
        || (dr.rx.state == WaitToReceive && issOperational && dr.drcpEnabled && dr.rx.currentWhileTimer != 0))
  }

  /** An upper bound on the transitions the machine can still take before it rests, with the
      IRP's operational state fixed. */
  ghost function RxPending(dr: Relay, issOperational: bool): nat {
    var up := issOperational && dr.drcpEnabled;
    if dr.rx.state == Initialize then (if up then 1 else 0)
    else if !up then 1
    else if dr.rx.state != WaitToReceive then 2
    else if dr.rx.frame.Some? then 3
    else if dr.rx.currentWhileTimer != 0 then 0
    else if dr.homeIrp.expired then 2
    else 1
  }

  /** One step while waiting to receive with the IRP up and DRCP enabled; `pdu` is the
      DRCPDU that was waiting, if any. */
  method WaitStep(d: Relay, pdu: Option<Drcpdu>, adminSystem: SysId) returns (r: Relay, transitioned: bool)
    requires d.rx.state == WaitToReceive
    ensures r.rx.state == WaitToReceive
    ensures transitioned <==> pdu.Some? || d.rx.currentWhileTimer == 0
    ensures pdu == None && d.rx.currentWhileTimer == 0 ==>
              r == if d.homeIrp.expired then EnterDefaulted(d) else EnterExpired(d)
    ensures pdu.Some? ==> r.rx.differDrni == DiffersDrni(pdu.value, d.admin, adminSystem)
    ensures pdu.Some? && r.rx.differDrni ==> r == d.(rx := d.rx.(differDrni := true))
    ensures pdu.Some? && !r.rx.differDrni ==>
              && r.homeIrp.ircSync && !r.homeIrp.expired && !r.homeIrp.defaulted && r.rx.currentWhileTimer > 0
              && r.nbor.systemId == pdu.value.homeSystemId
    ensures pdu.Some? && !r.rx.differDrni ==> PduRecorded(d.(rx := d.rx.(differDrni := false)), pdu.value, adminSystem, r)
    ensures (d.newHomeInfo ==> r.newHomeInfo) && (d.newNborState ==> r.newNborState)
    ensures !transitioned ==> r == d
    ensures r.admin == d.admin && r.home == d.home && r.sel == d.sel && r.drcpEnabled == d.drcpEnabled
    ensures r.irpOperational == d.irpOperational && r.rx.frame == d.rx.frame
  {
    r, transitioned := d, true;
    if pdu == None && !d.homeIrp.expired && d.rx.currentWhileTimer == 0 {
      r := EnterExpired(d);
    } else if pdu == None && d.homeIrp.expired && d.rx.currentWhileTimer == 0 {
      r := EnterDefaulted(d);
    } else if pdu.Some? {
      r := EnterDrniCheck(d, pdu.value, adminSystem);
    } else {
      transitioned := false;
    }
  }

  /** What WAIT_TO_RECEIVE does with the relay `d` the ISS read left: without a DRCPDU,
      a timer that ran out leads to EXPIRED, or to DEFAULTED once the home IRP state is
      already expired, and a running timer changes nothing; a DRCPDU from an incompatible
      neighbour is only marked as such, and one from a compatible neighbour is recorded and
      the machine keeps waiting with its timer running. */
  predicate WaitOutcome(d: Relay, pdu: Option<Drcpdu>, adminSystem: SysId, r: Relay) {
    match pdu
    case None =>
      r == (if d.rx.currentWhileTimer > 0 then d
            else if d.homeIrp.expired then EnterDefaulted(d) else EnterExpired(d))
    case Some(p) =>
      if DiffersDrni(p, d.admin, adminSystem) then r == d.(rx := d.rx.(differDrni := true))
      else
        && r.rx.state == WaitToReceive && !r.rx.differDrni && r.rx.currentWhileTimer > 0
        && PduRecorded(d.(rx := d.rx.(differDrni := false)), p, adminSystem, r)
  }

  /** The relay one step of the receive machine leaves, case by case over the state it was
      in: INITIALIZE moves to EXPIRED once the IRP is up and DRCP enabled; WAIT_TO_RECEIVE
      with the IRP up and DRCP enabled has the outcome `WaitOutcome` describes; every other
      case ends in INITIALIZE with the defaults recorded. */
  predicate RxStepped(dr: Relay, issOperational: bool, adminSystem: SysId, r: Relay) {
    var d := Arrived(dr, issOperational);
    var up := issOperational && dr.drcpEnabled;
    if dr.rx.state == Initialize then r == (if up then EnterExpired(d) else d)
    else if dr.rx.state == WaitToReceive && up then WaitOutcome(d, dr.rx.frame, adminSystem, r)
    else r == EnterInitialize(d)
  }

  /** `step`.  The machine reads the IRP's operational state first.  Away from INITIALIZE,
      an IRP that is down or DRCP disabled forces INITIALIZE, as does any state the machine
      never rests in.  From INITIALIZE it goes to EXPIRED once the IRP is up and DRCP
      enabled.  Waiting to receive, a DRCPDU is checked and perhaps recorded; without one,
      a timer that ran out leads to EXPIRED, and a second time to DEFAULTED.  The machine
      always ends in INITIALIZE or WAIT_TO_RECEIVE, the DRCPDU slot is always emptied, and
      each transition brings the machine closer to rest. */
  method RxStep(dr: Relay, issOperational: bool, adminSystem: SysId) returns (r: Relay, transitioned: bool)
    ensures r.rx.state == Initialize || r.rx.state == WaitToReceive
    ensures r.rx.frame == None && r.irpOperational == issOperational
    ensures r.admin == dr.admin && r.home == dr.home && r.sel == dr.sel && r.drcpEnabled == dr.drcpEnabled
    ensures (dr.newHomeInfo ==> r.newHomeInfo) && (dr.newNborState ==> r.newNborState)
    ensures dr.rx.state != Initialize && (!(issOperational && dr.drcpEnabled) || dr.rx.state != WaitToReceive) ==>
              transitioned && r == EnterInitialize(Arrived(dr, issOperational))
    ensures dr.rx.state == Initialize ==> (transitioned <==> issOperational && dr.drcpEnabled)
    ensures dr.rx.state == Initialize && transitioned ==> r == EnterExpired(Arrived(dr, issOperational))
    ensures dr.rx.state == WaitToReceive && issOperational && dr.drcpEnabled ==>
              (transitioned <==> dr.rx.frame.Some? || dr.rx.currentWhileTimer == 0)
    ensures !transitioned ==> r == Arrived(dr, issOperational) && RxStable(r, issOperational)
    ensures transitioned ==> RxPending(r, issOperational) < RxPending(dr, issOperational)
    ensures RxStepped(dr, issOperational, adminSystem, r)
  {
    var d := Arrived(dr, issOperational);
    var up := issOperational && dr.drcpEnabled;
    transitioned := true;
    if dr.rx.state != Initialize && !up {
      r := EnterInitialize(d);
    } else if dr.rx.state == Initialize {
      if up {
        r := EnterExpired(d);
      } else {
        r, transitioned := d, false;
      }
    } else if dr.rx.state == WaitToReceive {
      r, transitioned := WaitStep(d, dr.rx.frame, adminSystem);
    } else {
      r := EnterInitialize(d);
    }
  }

  /** `run`: steps until a step takes no transition, at most ten times, or once when
      `singleStep`; the result counts the transitions taken.  The bound of ten is never
      reached: a run takes at most three transitions and, unless single-stepping, leaves the
      machine at rest. */
  method RxRun(dr: Relay, issOperational: bool, adminSystem: SysId, singleStep: bool) returns (r: Relay, transitions: nat)
    ensures r.rx.frame == None && (r.rx.state == Initialize || r.rx.state == WaitToReceive)
    ensures transitions <= RxPending(dr, issOperational) && transitions <= 3
    ensures singleStep ==> transitions <= 1
    ensures !singleStep ==> RxStable(r, issOperational)
    ensures r.irpOperational == issOperational
    ensures r.admin == dr.admin && r.home == dr.home && r.sel == dr.sel && r.drcpEnabled == dr.drcpEnabled
    ensures (dr.newHomeInfo ==> r.newHomeInfo) && (dr.newNborState ==> r.newNborState)
    ensures singleStep ==> RxStepped(dr, issOperational, adminSystem, r)
  {
    var taken;
    r, taken := RxStep(dr, issOperational, adminSystem);
    var loop := 1;
    while !singleStep && taken && loop < 10
      invariant 1 <= loop <= 10 && (singleStep ==> loop == 1)
      invariant r.rx.frame == None && (r.rx.state == Initialize || r.rx.state == WaitToReceive)
      invariant r.irpOperational == issOperational
      invariant r.admin == dr.admin && r.home == dr.home && r.sel == dr.sel && r.drcpEnabled == dr.drcpEnabled
      invariant (dr.newHomeInfo ==> r.newHomeInfo) && (dr.newNborState ==> r.newNborState)
      invariant singleStep ==> RxStepped(dr, issOperational, adminSystem, r)
      invariant taken ==> loop + RxPending(r, issOperational) <= RxPending(dr, issOperational)
      invariant !taken ==> loop - 1 <= RxPending(dr, issOperational) && RxStable(r, issOperational)
      decreases 10 - loop
    {
      r, taken := RxStep(r, issOperational, adminSystem);
      loop := loop + 1;
    }
    transitions := if taken then loop else loop - 1;
  }

  /** `reset`: the current-while timer stopped, the defaults recorded, INITIALIZE, and no
      DRCPDU waiting.  The machine then moves on its next step exactly when the IRP is up
      and DRCP is enabled. */
  function RxReset(dr: Relay): (r: Relay)
    ensures r.rx.state == Initialize && r.rx.currentWhileTimer == 0 && r.rx.frame == None
    ensures r.homeIrp.defaulted && !r.homeIrp.ircSync && r.nbor.systemId == NullSysId
    ensures forall op: bool {:trigger RxStable(r, op)} :: RxStable(r, op) <==> !(op && r.drcpEnabled)
    ensures r.drcpEnabled == dr.drcpEnabled && r.admin == dr.admin && r.home == dr.home && r.sel == dr.sel
  {
    var d := EnterInitialize(dr.(rx := dr.rx.(currentWhileTimer := 0)));
    d.(rx := d.rx.(frame := None))
  }
}

=== FILE: drcp_tx.dfy ===
/** The DRCP transmit machine of a Distributed Relay: periodic and need-to-transmit
    DRCPDUs on the intra-relay port (IRP), and the DRCPDU a transmission carries. */
module DrcpTx {
  import opened Common
  import opened DistRelayState
  import opened DistributedRelay

  /** A prepared DRCPDU together with the home information after preparing it (the
      last-transmitted sequence numbers of the TLVs it carries). */
  datatype Prepared = Prepared(pdu: Drcpdu, home: HomeInfo)

  /** The DRNI key a DRCPDU carries: the neighbour's key once the IRC is synchronised and
      the neighbour's system identifier is the lower one, this system's own key otherwise. */
  function AdvertisedKey(dr: Relay, adminSystem: SysId): (k: uint16)
    ensures k == dr.nbor.drniKey || k == dr.admin.drniKey
    ensures !dr.homeIrp.ircSync ==> k == dr.admin.drniKey
    ensures dr.homeIrp.ircSync && dr.nbor.systemId.Id() < adminSystem.Id() ==> k == dr.nbor.drniKey
    ensures dr.nbor.systemId.Id() >= adminSystem.Id() ==> k == dr.admin.drniKey
  {
    BelowIsIdOrder(dr.nbor.systemId, adminSystem);
    if dr.homeIrp.ircSync && Below(dr.nbor.systemId, adminSystem) then dr.nbor.drniKey else dr.admin.drniKey
  }

  /** `prepareDrcpdu`: identification, every sequence number and both IRP states are always
      sent; a state-vector TLV is carried exactly when the neighbour has not yet echoed its
      sequence number, and only a carried TLV moves the matching last-transmitted number.
      An absent TLV leaves its vector at the reset value. */
  function PrepareDrcpdu(dr: Relay, adminSystem: SysId): (p: Prepared)
    ensures p.pdu.version == dr.admin.drcpVersion && p.pdu.homeSystemId == adminSystem
    ensures p.pdu.drniAggregatorSystemId == dr.admin.drniSystemId && p.pdu.nborSystemId == dr.nbor.systemId
    ensures p.pdu.homeAggSequence == dr.home.aggState.seqNum && p.pdu.nborAggSequence == dr.nbor.aggState.seqNum
    ensures p.pdu.homeGwSequence == dr.home.gwState.seqNum && p.pdu.nborGwSequence == dr.nbor.gwState.seqNum
    ensures p.pdu.homeGpSequence == dr.home.gwPreference.seqNum && p.pdu.nborGpSequence == dr.nbor.gwPreference.seqNum
    ensures p.pdu.homeIrpState == dr.homeIrp && p.pdu.nborIrpState == dr.nbor.irpState
    ensures p.pdu.aggregatorStateTlv <==> dr.home.aggState.seqNum != dr.reflected.aggSeq
    ensures p.pdu.gatewayStateTlv <==> dr.home.gwState.seqNum != dr.reflected.gwSeq
    ensures p.pdu.gatewayPreferenceTlv <==> dr.home.gwPreference.seqNum != dr.reflected.gpSeq
    ensures p.pdu.homeAggregatorState == if p.pdu.aggregatorStateTlv then dr.home.aggState else ResetAggState()
    ensures p.pdu.homeGatewayState == if p.pdu.gatewayStateTlv then dr.home.gwState else ResetGwState()
    ensures p.pdu.homeGatewayPreference == if p.pdu.gatewayPreferenceTlv then dr.home.gwPreference else ResetGwPreference()
    ensures !p.pdu.aggregatorStateTlv && !p.pdu.gatewayStateTlv && !p.pdu.gatewayPreferenceTlv
            <==> AllAcknowledged(dr.home, dr.reflected)
    ensures p.home.aggState == dr.home.aggState && p.home.gwState == dr.home.gwState
    ensures p.home.gwPreference == dr.home.gwPreference
    ensures p.home.lastTxAggSeq == if p.pdu.aggregatorStateTlv then dr.home.aggState.seqNum else dr.home.lastTxAggSeq
    ensures p.home.lastTxGwSeq == if p.pdu.gatewayStateTlv then dr.home.gwState.seqNum else dr.home.lastTxGwSeq
    ensures p.home.lastTxGpSeq == if p.pdu.gatewayPreferenceTlv then dr.home.gwPreference.seqNum else dr.home.lastTxGpSeq
  {
    var h := dr.home;
    var aggTlv := h.aggState.seqNum != dr.reflected.aggSeq;
    var gwTlv := h.gwState.seqNum != dr.reflected.gwSeq;
    var gpTlv := h.gwPreference.seqNum != dr.reflected.gpSeq;
    var pdu := Drcpdu(
      dr.admin.drcpVersion, adminSystem, dr.admin.drniSystemId, AdvertisedKey(dr, adminSystem),
      dr.nbor.systemId,
      h.aggState.seqNum, h.gwState.seqNum, h.gwPreference.seqNum,
      dr.nbor.aggState.seqNum, dr.nbor.gwState.seqNum, dr.nbor.gwPreference.seqNum,
      dr.homeIrp, dr.nbor.irpState,
      aggTlv, if aggTlv then h.aggState else ResetAggState(),
      gwTlv, if gwTlv then h.gwState else ResetGwState(),
      gpTlv, if gpTlv then h.gwPreference else ResetGwPreference());
    var home := h.(lastTxAggSeq := if aggTlv then h.aggState.seqNum else h.lastTxAggSeq,
                   lastTxGwSeq := if gwTlv then h.gwState.seqNum else h.lastTxGwSeq,
                   lastTxGpSeq := if gpTlv then h.gwPreference.seqNum else h.lastTxGpSeq);
    Prepared(pdu, home)
  }

  /** The DRCPDU sent on the IRP: a DRCPDU is prepared and handed to the port exactly when
      the port is operational; otherwise nothing is sent and nothing changes. */
  function TransmitDrcpdu(dr: Relay, issOperational: bool, adminSystem: SysId): (t: (HomeInfo, Option<Drcpdu>))
    ensures t.1.Some? <==> issOperational
    ensures issOperational ==> t == (PrepareDrcpdu(dr, adminSystem).home, Some(PrepareDrcpdu(dr, adminSystem).pdu))
    ensures !issOperational ==> t.0 == dr.home
  {
    if issOperational then
      var p := PrepareDrcpdu(dr, adminSystem);
      (p.home, Some(p.pdu))
    else (dr.home, None)
  }

  /** `enterNoTx` (and the periodic states it hands over to): the transmit timer restarts
      with the period the neighbour asks for, fast when it uses the short timeout.  The
      machine therefore never rests in NO_TX once it has left it. */
  function EnterPeriodic(tx: TxVars, nborShort: bool): (t: TxVars)
    ensures t.state != NoTx && t.state != Tx && t.state != TxNoState
    ensures t.state == FastPeriodic <==> nborShort
    ensures t.txWhen > 0 && t.txWhen == if nborShort then FastPeriodicTime else SlowPeriodicTime
    ensures t.ntt == tx.ntt && t.opportunity == tx.opportunity && t.hold == tx.hold
  {
    if nborShort then tx.(state := FastPeriodic, txWhen := FastPeriodicTime)
    else tx.(state := SlowPeriodic, txWhen := SlowPeriodicTime)
  }

  /** A periodic state asks to transmit: in FAST_PERIODIC on need-to-transmit or an
      expired timer, in SLOW_PERIODIC also when the neighbour has switched to the short
      timeout; in both only with a transmit opportunity and no hold. */
  predicate TxDue(tx: TxVars, nborShort: bool) {
    && tx.opportunity && !tx.hold
    && ((tx.state == FastPeriodic && (tx.ntt || tx.txWhen == 0))
        || (tx.state == SlowPeriodic && (tx.ntt || tx.txWhen == 0 || nborShort)))
  }

  /** FAST_PERIODIC falls back to SLOW_PERIODIC when nothing is pending, the timer is
      running and the neighbour uses the long timeout. */
  predicate SlowsDown(tx: TxVars, nborShort: bool) {
    tx.state == FastPeriodic && !tx.ntt && tx.txWhen != 0 && !nborShort
  }

  /** The machine takes no transition: with the IRP up and DRCP enabled (`up`), a periodic
      state with nothing to do; otherwise NO_TX. */
  predicate TxRests(tx: TxVars, up: bool, nborShort: bool) {
    if up then (tx.state == FastPeriodic || tx.state == SlowPeriodic) && !TxDue(tx, nborShort) && !SlowsDown(tx, nborShort)
    else tx.state == NoTx
  }

  predicate TxStable(dr: Relay, issOperational: bool) {
    TxRests(dr.tx, issOperational && dr.drcpEnabled, dr.nbor.irpState.drcpShortTimeout)
  }

  /** An upper bound on the transitions the machine takes before it rests, with the IRP up
      and DRCP enabled. */
  ghost function TxPending(tx: TxVars, nborShort: bool): nat {
    var nttDue := if tx.ntt && tx.opportunity && !tx.hold then 1 else 0;
    match tx.state
    case FastPeriodic => if TxDue(tx, nborShort) || SlowsDown(tx, nborShort) then 1 else 0
    case SlowPeriodic => if TxDue(tx, nborShort) then 1 else 0
    case _ => 1 + nttDue
  }

  /** The transmit machine's own variables across one step (`step`), with `up` standing for
      an operational IRP and DRCP enabled: whether a transition is taken, whether it passes
      through TX and so transmits, and the variables after it. */
  method TxNext(tx: TxVars, up: bool, nborShort: bool) returns (t: TxVars, transmit: bool, moved: bool)
    ensures moved <==> !TxRests(tx, up, nborShort)
    ensures !moved ==> t == tx && !transmit
    ensures moved ==> (t.state == FastPeriodic || t.state == SlowPeriodic) && t.txWhen > 0
    ensures moved ==> (t.state == FastPeriodic <==> nborShort)
    ensures transmit <==> up && TxDue(tx, nborShort)
    ensures transmit ==> !t.ntt
    ensures !transmit ==> t.ntt == tx.ntt
    ensures t.opportunity == tx.opportunity && t.hold == tx.hold
    ensures up && moved ==> TxPending(t, nborShort) < TxPending(tx, nborShort)
    ensures up && transmit ==> TxPending(t, nborShort) == 0
  {
    transmit := false;
    if tx.state != NoTx && !up {
      t, moved := EnterPeriodic(tx, nborShort), true;
    } else if tx.state == NoTx {
      t, moved := if up then EnterPeriodic(tx, nborShort) else tx, up;
    } else if TxDue(tx, nborShort) {
      t, transmit, moved := EnterPeriodic(tx.(ntt := false), nborShort), true, true;
    } else if SlowsDown(tx, nborShort) {
      t, moved := EnterPeriodic(tx, false), true;
    } else if tx.state == FastPeriodic || tx.state == SlowPeriodic {
      t, moved := tx, false;
    } else {
      t, moved := EnterPeriodic(tx, nborShort), true;
    }
  }

  /** One step of the transmit machine with the IRP's operational state `issOperational`
      (`step` with `enterTx` and `transmitDrcpdu`).  A DRCPDU goes out exactly when the IRP
      is up, DRCP is enabled and a periodic state is due, and it is the one
      `PrepareDrcpdu` builds; a transmission clears need-to-transmit.  Every transition ends
      in a periodic state timed for the neighbour's timeout, and the machine moves exactly
      when it is not stable. */
  method TxStep(dr: Relay, issOperational: bool, adminSystem: SysId) returns (r: Relay, transitioned: bool, sent: Option<Drcpdu>)
    ensures transitioned <==> !TxStable(dr, issOperational)
    ensures !transitioned ==> r == dr && sent == None
    ensures transitioned ==> (r.tx.state == FastPeriodic || r.tx.state == SlowPeriodic) && r.tx.txWhen > 0
    ensures transitioned ==> (r.tx.state == FastPeriodic <==> dr.nbor.irpState.drcpShortTimeout)
    ensures sent.Some? <==> issOperational && dr.drcpEnabled && TxDue(dr.tx, dr.nbor.irpState.drcpShortTimeout)
    ensures sent.Some? ==> sent.value == PrepareDrcpdu(dr, adminSystem).pdu && r.home == PrepareDrcpdu(dr, adminSystem).home
    ensures sent.Some? ==> !r.tx.ntt && sent.value.homeSystemId == adminSystem
    ensures sent.None? ==> r.home == dr.home && r.tx.ntt == dr.tx.ntt
    ensures r.nbor == dr.nbor && r.sel == dr.sel && r.rx == dr.rx && r.admin == dr.admin
    ensures r.drcpEnabled == dr.drcpEnabled && r.enableIrcData == dr.enableIrcData
    ensures r.homeIrp == dr.homeIrp && r.reflected == dr.reflected && r.drSolo == dr.drSolo
    ensures r.tx.opportunity == dr.tx.opportunity && r.tx.hold == dr.tx.hold
    ensures issOperational && dr.drcpEnabled && transitioned ==>
              TxPending(r.tx, r.nbor.irpState.drcpShortTimeout) < TxPending(dr.tx, dr.nbor.irpState.drcpShortTimeout)
    ensures issOperational && dr.drcpEnabled && sent.Some? ==> TxPending(r.tx, r.nbor.irpState.drcpShortTimeout) == 0
  {
    var t, transmit;
    t, transmit, transitioned := TxNext(dr.tx, issOperational && dr.drcpEnabled, dr.nbor.irpState.drcpShortTimeout);
    if transmit {
      var p := TransmitDrcpdu(dr, issOperational, adminSystem);
      r, sent := dr.(home := p.0, tx := t), p.1;
    } else {
      r, sent := dr.(tx := t), None;
    }
  }

  /** Preparing a DRCPDU moves only the last-transmitted sequence numbers, which the
      DRCPDU does not carry: preparing again from the result gives the same DRCPDU. */
  lemma PrepareAgain(d1: Relay, d2: Relay, adminSystem: SysId)
    requires d2.home == PrepareDrcpdu(d1, adminSystem).home
    requires d1.nbor == d2.nbor && d1.reflected == d2.reflected && d1.homeIrp == d2.homeIrp && d1.admin == d2.admin
    ensures PrepareDrcpdu(d2, adminSystem).pdu == PrepareDrcpdu(d1, adminSystem).pdu
  {
  }

  /** `run`: steps until the machine rests, at most ten times (one step when `singleStep`).
      With the IRP up and DRCP enabled it rests after at most two transitions having sent at
      most one DRCPDU; with the IRP down or DRCP disabled it sends nothing, and outside NO_TX
      it takes a transition on every step, so an unbounded run stops only at the cap.  A
      single step sends at most the DRCPDU `PrepareDrcpdu` builds from the relay as the run
      found it, and only that preparation touches the home information. */
  method TxRun(dr: Relay, issOperational: bool, adminSystem: SysId, singleStep: bool)
    returns (r: Relay, transitions: nat, sent: seq<Drcpdu>)
    ensures singleStep ==> transitions <= 1
    ensures transitions <= 10
    ensures issOperational && dr.drcpEnabled ==> transitions <= TxPending(dr.tx, dr.nbor.irpState.drcpShortTimeout) <= 2 && |sent| <= 1
    ensures issOperational && dr.drcpEnabled && !singleStep ==> TxStable(r, issOperational)
    ensures !(issOperational && dr.drcpEnabled) ==> sent == []
    ensures !(issOperational && dr.drcpEnabled) && dr.tx.state != NoTx && !singleStep ==> transitions == 10
    ensures r.nbor == dr.nbor && r.sel == dr.sel && r.rx == dr.rx && r.admin == dr.admin
    ensures r.drcpEnabled == dr.drcpEnabled && r.enableIrcData == dr.enableIrcData
    ensures r.tx.hold == dr.tx.hold && r.tx.opportunity == dr.tx.opportunity
    ensures forall i :: 0 <= i < |sent| ==> sent[i].homeSystemId == adminSystem
    ensures singleStep ==> r.homeIrp == dr.homeIrp && r.reflected == dr.reflected && r.drSolo == dr.drSolo && |sent| <= 1
    ensures singleStep && |sent| == 1 ==>
              sent[0] == PrepareDrcpdu(dr, adminSystem).pdu && r.home == PrepareDrcpdu(dr, adminSystem).home
    ensures singleStep && sent == [] ==> r.home == dr.home
  {
    if singleStep {
      var taken, pdu;
      r, taken, pdu := TxStep(dr, issOperational, adminSystem);
      sent := if pdu.Some? then [pdu.value] else [];
      transitions := if taken then 1 else 0;
    } else {
      r, transitions, sent := TxRunToRest(dr, issOperational, adminSystem);
    }
  }

  /** `run` without single-stepping: steps until a step takes no transition, at most ten
      times. */
  method TxRunToRest(dr: Relay, issOperational: bool, adminSystem: SysId)
    returns (r: Relay, transitions: nat, sent: seq<Drcpdu>)
    ensures transitions <= 10
    ensures issOperational && dr.drcpEnabled ==> transitions <= TxPending(dr.tx, dr.nbor.irpState.drcpShortTimeout) <= 2 && |sent| <= 1
    ensures issOperational && dr.drcpEnabled ==> TxStable(r, issOperational)
    ensures !(issOperational && dr.drcpEnabled) ==> sent == []
    ensures !(issOperational && dr.drcpEnabled) && dr.tx.state != NoTx ==> transitions == 10
    ensures r.nbor == dr.nbor && r.sel == dr.sel && r.rx == dr.rx && r.admin == dr.admin
    ensures r.drcpEnabled == dr.drcpEnabled && r.enableIrcData == dr.enableIrcData
    ensures r.tx.hold == dr.tx.hold && r.tx.opportunity == dr.tx.opportunity
    ensures forall i :: 0 <= i < |sent| ==> sent[i].homeSystemId == adminSystem
  {
    var up := issOperational && dr.drcpEnabled;
    var taken, pdu;
    r, taken, pdu := TxStep(dr, issOperational, adminSystem);
    sent := if pdu.Some? then [pdu.value] else [];
    var loop := 1;
    while taken && loop < 10
      invariant 1 <= loop <= 10
      invariant r.nbor == dr.nbor && r.sel == dr.sel && r.rx == dr.rx && r.admin == dr.admin
      invariant r.drcpEnabled == dr.drcpEnabled && r.enableIrcData == dr.enableIrcData
      invariant r.tx.hold == dr.tx.hold && r.tx.opportunity == dr.tx.opportunity
      invariant forall i :: 0 <= i < |sent| ==> sent[i].homeSystemId == adminSystem
      invariant up && taken ==> loop + TxPending(r.tx, dr.nbor.irpState.drcpShortTimeout) <= TxPending(dr.tx, dr.nbor.irpState.drcpShortTimeout)
      invariant up && !taken ==> loop - 1 <= TxPending(dr.tx, dr.nbor.irpState.drcpShortTimeout) && TxStable(r, issOperational)
      invariant up ==> |sent| <= 1 && (|sent| == 1 ==> TxPending(r.tx, dr.nbor.irpState.drcpShortTimeout) == 0)
      invariant !up ==> sent == []
      invariant !up && dr.tx.state != NoTx ==> taken && r.tx.state != NoTx
      decreases 10 - loop
    {
      r, taken, pdu := TxStep(r, issOperational, adminSystem);
      sent := sent + if pdu.Some? then [pdu.value] else [];
      loop := loop + 1;
    }
    transitions := if taken then loop else loop - 1;
  }
}

=== FILE: drni_run.dfy ===
/** One scheduling cycle of a Distributed Relay: the timer tick, the machines run in order
    (DRCP receive, DRNI Gateway and Aggregator, DRCP transmit) and the operational status
    that follows, and the forwarding decisions for frames crossing the relay. */
module DrniRun {
  import opened Common
  import opened DistRelayState
  import opened DistributedRelay
  import opened DrcpRx
  import opened DrcpTx

  function Decrement(n: nat): nat {
    if n > 0 then n - 1 else 0
  }

  /** `timerTick`: with both an Aggregator and an IRP attached, the current-while timer and
      the transmit timer each count down by one and stop at zero; nothing else moves. */
  function TimerTick(dr: Relay, attached: bool): (r: Relay)
    ensures r.rx.currentWhileTimer <= dr.rx.currentWhileTimer && r.tx.txWhen <= dr.tx.txWhen
    ensures attached && dr.rx.currentWhileTimer > 0 ==> r.rx.currentWhileTimer + 1 == dr.rx.currentWhileTimer
    ensures attached && dr.tx.txWhen > 0 ==> r.tx.txWhen + 1 == dr.tx.txWhen
    ensures !attached ==> r == dr
    ensures r.rx == dr.rx.(currentWhileTimer := r.rx.currentWhileTimer) && r.tx == dr.tx.(txWhen := r.tx.txWhen)
    ensures r == dr.(rx := r.rx, tx := r.tx)
  {
    if attached then
      dr.(rx := dr.rx.(currentWhileTimer := Decrement(dr.rx.currentWhileTimer)),
          tx := dr.tx.(txWhen := Decrement(dr.tx.txWhen)))
    else dr
  }

  /** `n` consecutive ticks with the relay attached. */
  function Ticks(dr: Relay, n: nat): Relay
    decreases n
  {
    if n == 0 then dr else TimerTick(Ticks(dr, n - 1), true)
  }

  /** A timer loaded with `t` reads zero after exactly `t` ticks: after `n` ticks it reads
      `t - n`, and zero from then on; both machines' states are untouched meanwhile. */
  lemma {:induction false} TicksCountDown(dr: Relay, n: nat)
    ensures Ticks(dr, n).rx.currentWhileTimer == if n >= dr.rx.currentWhileTimer then 0 else dr.rx.currentWhileTimer - n
    ensures Ticks(dr, n).tx.txWhen == if n >= dr.tx.txWhen then 0 else dr.tx.txWhen - n
    ensures Ticks(dr, n).rx.state == dr.rx.state && Ticks(dr, n).tx.state == dr.tx.state
    ensures Ticks(dr, n) == dr.(rx := Ticks(dr, n).rx, tx := Ticks(dr, n).tx)
    decreases n
  {
    if n > 0 {
      TicksCountDown(dr, n - 1);
    }
  }

  /** `run` for one cycle.  `aggAttached` and `irpAttached` say whether an Aggregator and an
      IRP are attached, `issOperational` and `aggOperational` are their operational states.
      With both attached, the receive machine takes one step, the DRNI Gateway and
      Aggregator machines run, and the transmit machine takes one step; the relay is
      operational when its Aggregator is, or when IRC data is enabled and the neighbour has
      active links.  TxHold has been cleared before the transmit machine runs, at most one
      DRCPDU goes out, and it is one this relay would itself reject were it looped back.
      With only an Aggregator the relay is transparent and as operational as the
      Aggregator. */
  method Run(dr: Relay, agg: Aggregator, linkVector: LinkVectorFn, aggAttached: bool, irpAttached: bool,
             issOperational: bool, aggOperational: bool)
    returns (r: Relay, a: Aggregator, sent: seq<Drcpdu>, received: Relay)
    ensures !(aggAttached && irpAttached) ==> received == dr
    // With both attached, `received` is the relay the receive machine's step leaves, and
    // the cycle carries what it recorded through to the end.
    ensures aggAttached && irpAttached ==>
              RxStepped(dr, issOperational, agg.actorAdminSystem, received) && CycleFromReceived(received, agg, r, a)
    ensures !aggAttached ==> r == dr && a == agg && sent == []
    ensures aggAttached && !irpAttached ==> r == dr.(drOperational := aggOperational) && a == agg && sent == []
    ensures aggAttached && irpAttached ==>
              (r.drOperational <==> aggOperational || (r.enableIrcData && |r.nbor.aggState.activeLinks| > 0))
    ensures aggAttached && irpAttached ==>
              r.rx.frame == None && (r.rx.state == Initialize || r.rx.state == WaitToReceive) && !r.tx.hold
    ensures |sent| <= 1 && (|sent| == 1 ==> issOperational && dr.drcpEnabled)
    ensures forall i :: 0 <= i < |sent| ==> DiffersDrni(sent[i], r.admin, agg.actorAdminSystem)
    // The DRCPDU sent carries the relay's state as the cycle leaves it.
    ensures aggAttached && irpAttached && |sent| == 1 ==> sent[0] == PrepareDrcpdu(r, agg.actorAdminSystem).pdu
    ensures aggAttached && irpAttached ==>
              SelectionAfterCycle(dr.sel, r.sel, dr.newHomeInfo || dr.newNborState || agg.updateDistRelayAggState,
                                  r.drSolo, r.home, r.nbor, r.reflected, agg.actorAdminSystem, linkVector)
    ensures r.admin == dr.admin && r.drcpEnabled == dr.drcpEnabled
    ensures MasksExclusive(dr.sel) ==> MasksExclusive(r.sel)
  {
    received := dr;
    if !aggAttached {
      r, a, sent := dr, agg, [];
    } else if !irpAttached {
      r, a, sent := dr.(drOperational := aggOperational), agg, [];
    } else {
      r, a, sent, received := AttachedCycle(dr, agg, linkVector, issOperational, aggOperational);
    }
  }

  /** The cycle with both an Aggregator and an IRP attached. */
  method AttachedCycle(dr: Relay, agg: Aggregator, linkVector: LinkVectorFn, issOperational: bool, aggOperational: bool)
    returns (r: Relay, a: Aggregator, sent: seq<Drcpdu>, received: Relay)
    ensures RxStepped(dr, issOperational, agg.actorAdminSystem, received)
    ensures CycleFromReceived(received, agg, r, a)
    ensures r.drOperational <==> aggOperational || (r.enableIrcData && |r.nbor.aggState.activeLinks| > 0)
    ensures r.rx.frame == None && (r.rx.state == Initialize || r.rx.state == WaitToReceive) && !r.tx.hold
    ensures |sent| <= 1 && (|sent| == 1 ==> issOperational && dr.drcpEnabled)
    ensures forall i :: 0 <= i < |sent| ==> DiffersDrni(sent[i], r.admin, agg.actorAdminSystem)
    ensures |sent| == 1 ==> sent[0] == PrepareDrcpdu(r, agg.actorAdminSystem).pdu
    ensures SelectionAfterCycle(dr.sel, r.sel, dr.newHomeInfo || dr.newNborState || agg.updateDistRelayAggState,
                                r.drSolo, r.home, r.nbor, r.reflected, agg.actorAdminSystem, linkVector)
    ensures r.admin == dr.admin && r.drcpEnabled == dr.drcpEnabled
    ensures MasksExclusive(dr.sel) ==> MasksExclusive(r.sel)
  {
    var r1, n1 := RxRun(dr, issOperational, agg.actorAdminSystem, true);
    received := r1;
    r, a, sent := AfterReceive(r1, agg, linkVector, issOperational, aggOperational);
    SelectionRecomputedCases(r1.sel, r.sel, GwAggVectorsUpdated(r1, agg), r1.newReflectedState,
                             dr.newHomeInfo || dr.newNborState || agg.updateDistRelayAggState,
                             r.drSolo, r.home, r.nbor, r.reflected, agg.actorAdminSystem, linkVector);
  }

  /** The selection a cycle leaves: the DRNI Gateway and Aggregator machine recomputed the
      vectors and the masks, only the masks, or neither, and `forced` (home or neighbour
      information changed, or the Aggregator asked for an update) makes it the first. */
  predicate SelectionAfterCycle(before: Selection, after: Selection, forced: bool, solo: bool, home: HomeInfo,
                                nbor: NborInfo, refl: Reflected, adminSystem: SysId, linkVector: LinkVectorFn) {
    && (forced ==> SelectionRecomputed(before, after, true, true, solo, home, nbor, refl, adminSystem, linkVector))
    && (|| SelectionRecomputed(before, after, true, true, solo, home, nbor, refl, adminSystem, linkVector)
        || SelectionRecomputed(before, after, false, true, solo, home, nbor, refl, adminSystem, linkVector)
        || SelectionRecomputed(before, after, false, false, solo, home, nbor, refl, adminSystem, linkVector))
  }

  /** Whatever the pass decided, its selection is one of the three outcomes a cycle can
      leave, and a forced vector update is the first of them. */
  lemma SelectionRecomputedCases(before: Selection, after: Selection, vectors: bool, masks: bool, forced: bool,
                                 solo: bool, home: HomeInfo, nbor: NborInfo, refl: Reflected, adminSystem: SysId,
                                 linkVector: LinkVectorFn)
    requires forced ==> vectors
    requires SelectionRecomputed(before, after, vectors, vectors || masks, solo, home, nbor, refl, adminSystem, linkVector)
    ensures SelectionAfterCycle(before, after, forced, solo, home, nbor, refl, adminSystem, linkVector)
  {
  }

  /** What the rest of a cycle makes of the relay `received` the receive machine left: the
      receive machine's state and the neighbour and reflected state it recorded are kept,
      the home IRP state changes in its DRNI flag alone, the home vectors are the refreshed
      ones, the synchronisation mask is the one the machines leave, and the Aggregator is
      the one they install. */
  predicate CycleFromReceived(received: Relay, agg: Aggregator, r: Relay, a: Aggregator) {
    var h := RefreshedHome(received, DrSyncMask(received), agg).home;
    && r.rx == received.rx && r.nbor == received.nbor && r.reflected == received.reflected
    && r.homeIrp == received.homeIrp.(drni := r.homeIrp.drni)
    && r.home.aggState == h.aggState && r.home.gwState == h.gwState && r.home.gwPreference == h.gwPreference
    && SyncMaskAfterRun(received, agg, r)
    && a == RunDrniGwAggMachinesAggregator(received, agg)
  }

  /** The cycle once the receive machine has stepped: the DRNI Gateway and Aggregator
      machines, the transmit machine and the operational status. */
  method AfterReceive(r1: Relay, agg: Aggregator, linkVector: LinkVectorFn, issOperational: bool, aggOperational: bool)
    returns (r: Relay, a: Aggregator, sent: seq<Drcpdu>)
    ensures r.drOperational <==> aggOperational || (r.enableIrcData && |r.nbor.aggState.activeLinks| > 0)
    ensures r.rx == r1.rx && !r.tx.hold
    ensures |sent| <= 1 && (|sent| == 1 ==> issOperational && r1.drcpEnabled)
    ensures forall i :: 0 <= i < |sent| ==> DiffersDrni(sent[i], r.admin, agg.actorAdminSystem)
    ensures |sent| == 1 ==> sent[0] == PrepareDrcpdu(r, agg.actorAdminSystem).pdu
    ensures SelectionRecomputed(r1.sel, r.sel, GwAggVectorsUpdated(r1, agg), GwAggVectorsUpdated(r1, agg) || r1.newReflectedState,
                                r.drSolo, r.home, r.nbor, r.reflected, agg.actorAdminSystem, linkVector)
    ensures r.admin == r1.admin && r.drcpEnabled == r1.drcpEnabled
    ensures MasksExclusive(r1.sel) ==> MasksExclusive(r.sel)
    ensures CycleFromReceived(r1, agg, r, a)
  {
    var r2, a2 := RunDrniGwAggMachines(r1, agg, linkVector);
    a := a2;
    r, sent := TransmitStep(r2, issOperational, agg.actorAdminSystem, aggOperational);
    SelectionRecomputedSameVectors(r1.sel, r2.sel, GwAggVectorsUpdated(r1, agg),
                                   GwAggVectorsUpdated(r1, agg) || r1.newReflectedState, r2.drSolo, r2.home, r.home,
                                   r1.nbor, r1.reflected, agg.actorAdminSystem, linkVector);
  }

  /** The transmit machine's step and the operational status that follows: the DRCPDU
      sent, if any, is the one the relay it leaves would prepare, and only the
      last-transmitted sequence numbers of the home information move. */
  method TransmitStep(r2: Relay, issOperational: bool, adminSystem: SysId, aggOperational: bool)
    returns (r: Relay, sent: seq<Drcpdu>)
    ensures r.drOperational <==> aggOperational || (r.enableIrcData && |r.nbor.aggState.activeLinks| > 0)
    ensures |sent| <= 1 && (|sent| == 1 ==> issOperational && r2.drcpEnabled)
    ensures forall i :: 0 <= i < |sent| ==> DiffersDrni(sent[i], r.admin, adminSystem)
    ensures |sent| == 1 ==> sent[0] == PrepareDrcpdu(r, adminSystem).pdu
    ensures r.home.aggState == r2.home.aggState && r.home.gwState == r2.home.gwState
    ensures r.home.gwPreference == r2.home.gwPreference
    ensures r.nbor == r2.nbor && r.sel == r2.sel && r.rx == r2.rx && r.admin == r2.admin
    ensures r.homeIrp == r2.homeIrp && r.reflected == r2.reflected
    ensures r.drcpEnabled == r2.drcpEnabled && r.enableIrcData == r2.enableIrcData && r.drSolo == r2.drSolo
    ensures r.tx.hold == r2.tx.hold
  {
    var r3, n3, s3 := TxRun(r2, issOperational, adminSystem, true);
    var operational := aggOperational || (r3.enableIrcData && |r3.nbor.aggState.activeLinks| > 0);
    r, sent := r3.(drOperational := operational), s3;
    if |sent| == 1 {
      PrepareAgain(r2, r, adminSystem);
    }
  }

  /** Where the relay sends a frame. */
  datatype Route = ToAggregator | ToGateway | ToIrp | Discard

  /** A conversation identifier, as `frameConvID` yields it for a frame. */
  type Cid = c: int | 0 <= c < NumCids

  /** A frame that arrived on the IRP (and is not a DRCPDU), with the gateway and port
      conversation identifiers of its two algorithms: Down to the Aggregator when the
      neighbour holds its gateway, Up to the gateway when this system holds it and the
      neighbour's Aggregator may have sent it.  It never goes back to the IRP. */
  function IrpIngressRoute(sel: Selection, gwCid: Cid, portCid: Cid, discardWrong: bool): (d: Route)
    ensures d == ToAggregator <==> !sel.homeGatewayMask[gwCid] && sel.nborGatewayMask[gwCid]
    ensures d == ToGateway <==> sel.homeGatewayMask[gwCid] && !sel.nborGatewayMask[gwCid]
                                && (sel.nborAggregatorMask[portCid] || !discardWrong)
    ensures d != ToIrp
  {
    if !sel.homeGatewayMask[gwCid] && sel.nborGatewayMask[gwCid] then ToAggregator
    else if sel.homeGatewayMask[gwCid] && !sel.nborGatewayMask[gwCid]
            && (sel.nborAggregatorMask[portCid] || !discardWrong) then ToGateway
    else Discard
  }

  /** An Up frame from the Aggregator, accepted when the port conversation belongs here
      (or wrong conversations are not discarded): to the gateway when this system holds
      it, through the IRP when the neighbour does and the IRC carries data.  It never goes
      back Down. */
  function UpRoute(sel: Selection, gwCid: Cid, portCid: Cid, discardWrong: bool, ircData: bool): (d: Route)
    ensures d == ToGateway <==> (sel.homeAggregatorMask[portCid] || !discardWrong)
                                && sel.homeGatewayMask[gwCid] && !sel.nborGatewayMask[gwCid]
    ensures d == ToIrp <==> (sel.homeAggregatorMask[portCid] || !discardWrong)
                            && !sel.homeGatewayMask[gwCid] && sel.nborGatewayMask[gwCid] && ircData
    ensures d != ToAggregator
  {
    if !(sel.homeAggregatorMask[portCid] || !discardWrong) then Discard
    else if sel.homeGatewayMask[gwCid] && !sel.nborGatewayMask[gwCid] then ToGateway
    else if !sel.homeGatewayMask[gwCid] && sel.nborGatewayMask[gwCid] && ircData then ToIrp
    else Discard
  }

  /** The routing of a Down frame from the gateway as the code writes it: with this
      system's gateway open, to the Aggregator when the port conversation is here and the
      Aggregator is operational, otherwise through the IRP when the port conversation is
      here but not at the neighbour. */
  function DownRouteAsWritten(sel: Selection, gwCid: Cid, portCid: Cid, aggOperational: bool, ircData: bool): (d: Route)
    ensures d == ToIrp <==> sel.homeGatewayMask[gwCid] && !sel.nborGatewayMask[gwCid]
                            && sel.homeAggregatorMask[portCid] && !aggOperational
                            && !sel.nborAggregatorMask[portCid] && ircData
    ensures d != ToIrp && d != ToAggregator ==> d == Discard
  {
    if sel.homeGatewayMask[gwCid] && !sel.nborGatewayMask[gwCid] then
      if sel.homeAggregatorMask[portCid] && aggOperational then ToAggregator
      else if sel.homeAggregatorMask[portCid] && !sel.nborAggregatorMask[portCid] && ircData then ToIrp
      else Discard
    else Discard
  }

  /** As written, a Down frame whose port conversation is assigned to the neighbour's
      Aggregator is discarded even though the gateway is open here and the IRC carries
      data, so that traffic can never reach the neighbour's links. */
  lemma DownRouteStrandsNeighbourLinks(sel: Selection, gwCid: Cid, portCid: Cid, aggOperational: bool)
    requires sel.homeGatewayMask[gwCid] && !sel.nborGatewayMask[gwCid]
    requires !sel.homeAggregatorMask[portCid] && sel.nborAggregatorMask[portCid]
    ensures DownRouteAsWritten(sel, gwCid, portCid, aggOperational, true) == Discard
    ensures DownRoute(sel, gwCid, portCid, aggOperational, true) == ToIrp
  {
  }

  /** A Down frame from the gateway, with the IRP branch sending the frames whose port
      conversation is the neighbour's: to the Aggregator when the conversation is here and
      the Aggregator is operational, through the IRP when it is at the neighbour and the IRC
      carries data.  Only frames whose gateway is open here are forwarded, and never back
      to the gateway. */
  function DownRoute(sel: Selection, gwCid: Cid, portCid: Cid, aggOperational: bool, ircData: bool): (d: Route)
    ensures d == ToAggregator <==> sel.homeGatewayMask[gwCid] && !sel.nborGatewayMask[gwCid]
                                   && sel.homeAggregatorMask[portCid] && aggOperational
    ensures d == ToIrp <==> sel.homeGatewayMask[gwCid] && !sel.nborGatewayMask[gwCid]
                            && !sel.homeAggregatorMask[portCid] && sel.nborAggregatorMask[portCid] && ircData
    ensures d != ToGateway
  {
    if sel.homeGatewayMask[gwCid] && !sel.nborGatewayMask[gwCid] then
      if sel.homeAggregatorMask[portCid] && aggOperational then ToAggregator
      else if !sel.homeAggregatorMask[portCid] && sel.nborAggregatorMask[portCid] && ircData then ToIrp
      else Discard
    else Discard
  }

  /** Two portal systems agree on the masks: each one's home masks are the other's
      neighbour masks. */
  predicate Mirrored(a: Selection, b: Selection) {
    forall c :: 0 <= c < NumCids ==>
      && b.homeGatewayMask[c] == a.nborGatewayMask[c] && b.nborGatewayMask[c] == a.homeGatewayMask[c]
      && b.homeAggregatorMask[c] == a.nborAggregatorMask[c] && b.nborAggregatorMask[c] == a.homeAggregatorMask[c]
  }

  /** Between agreeing systems, an Up frame one sends through the IRP is delivered to the
      other's gateway, provided both discard wrong conversations alike. */
  lemma UpFrameCrossesToGateway(a: Selection, b: Selection, gwCid: Cid, portCid: Cid, discardWrong: bool, ircData: bool)
    requires Mirrored(a, b)
    requires UpRoute(a, gwCid, portCid, discardWrong, ircData) == ToIrp
    ensures IrpIngressRoute(b, gwCid, portCid, discardWrong) == ToGateway
  {
  }

  /** Between agreeing systems, a Down frame one sends through the IRP goes Down at the
      other, to the Aggregator that holds its port conversation. */
  lemma DownFrameCrossesToOwner(a: Selection, b: Selection, gwCid: Cid, portCid: Cid, aggOperational: bool,
                                discardWrong: bool)
    requires Mirrored(a, b)
    requires DownRoute(a, gwCid, portCid, aggOperational, true) == ToIrp
    ensures IrpIngressRoute(b, gwCid, portCid, discardWrong) == ToAggregator && b.homeAggregatorMask[portCid]
  {
  }

  /** Taking the next Down frame from the gateway's request queue as the code writes it,
      alike with the IRP attached and in the transparent case: while operational the head is
      dequeued into a variable local to that branch, so it is destroyed there and no frame
      reaches the routing; otherwise the queue is flushed. */
  function TakeDownFrameAsWritten<F>(requests: seq<F>, drOperational: bool): (t: (seq<F>, Option<F>))
    ensures t.1 == None
    ensures drOperational && |requests| > 0 ==> t.0 == requests[1..]
    ensures !drOperational ==> t.0 == []
  {
    if |requests| == 0 then (requests, None)
    else if drOperational then (requests[1..], None)
    else ([], None)
  }

  /** Taking the next Down frame with the dequeued frame kept for routing: while
      operational the head of the queue is taken and the rest stays queued, so no frame is
      lost; otherwise the queue is flushed. */
  function TakeDownFrame<F>(requests: seq<F>, drOperational: bool): (t: (seq<F>, Option<F>))
    ensures t.1.Some? <==> drOperational && |requests| > 0
    ensures t.1.Some? ==> [t.1.value] + t.0 == requests
    ensures !drOperational ==> t.0 == []
    ensures t.1.None? && drOperational ==> t.0 == requests
  {
    if |requests| == 0 then (requests, None)
    else if drOperational then (requests[1..], Some(requests[0]))
    else ([], None)
  }

  /** Every frame queued while the relay is operational is lost as written, where the
      intended code forwards the head of the queue. */
  lemma DownFrameLost<F>(requests: seq<F>)
    requires |requests| > 0
    ensures TakeDownFrameAsWritten(requests, true).1 == None
    ensures TakeDownFrame(requests, true).1 == Some(requests[0])
  {
  }

  /** The Down stage of `run` with the intended behaviour: the next queued frame, if any,
      together with where it is routed; `cids` gives a frame's gateway and port conversation
      identifiers. */
  function DownStage<F>(sel: Selection, requests: seq<F>, drOperational: bool, cids: F -> (Cid, Cid),
                        aggOperational: bool, ircData: bool): (t: (seq<F>, Option<(F, Route)>))
    ensures t.1.Some? <==> drOperational && |requests| > 0
    ensures t.1.Some? ==> t.1.value.0 == requests[0] && t.0 == requests[1..]
    ensures t.1.Some? ==> t.1.value.1 == DownRoute(sel, cids(requests[0]).0, cids(requests[0]).1, aggOperational, ircData)
  {
    var (rest, f) := TakeDownFrame(requests, drOperational);
    if f.Some? then
      var (g, p) := cids(f.value);
      (rest, Some((f.value, DownRoute(sel, g, p, aggOperational, ircData))))
    else (rest, None)
  }
}

=== FILE: lacp_link.dfy ===
/** Two Aggregation Ports at the ends of one link: what the receive machine of one end
    records from the LACPDU the transmit machine of the other end builds. */
module LacpLink {
  import opened Common
  import opened LacpPort
  import LacpRx
  import LacpTx

  /** The receiver of a LACPDU takes the sender's actor information as its partner
      information: identity, key, state (with `sync` as the receiver computes it) and
      version, and, when both ends run version 2, the sender's link number, algorithm and
      digests. */
  lemma ReceiverLearnsSender(a: AggPort, b: AggPort)
    ensures var q := LacpRx.RecordPdu(b, LacpTx.PrepareLacpdu(a));
            && q.partner.operSystem == a.actor.operSystem && q.partner.operPort == a.actor.port
            && q.partner.operKey == a.actor.operKey && q.partner.version == a.actor.version
            && q.partner.operState
               == a.actor.operState.(sync := LacpRx.PartnerSync(b.actor, LacpTx.PrepareLacpdu(a)))
    ensures var q := LacpRx.RecordPdu(b, LacpTx.PrepareLacpdu(a));
            (a.actor.version >= 2 && b.actor.version >= 2 ==>
               && q.link.partnerAlgorithm == a.link.actorAlgorithm
               && q.link.partnerLinkNumber == a.link.linkNumber
               && q.link.partnerLinkDigest == a.link.actorLinkDigest
               && q.link.partnerServiceDigest == a.link.actorServiceDigest)
  {
    var m := LacpTx.PrepareLacpdu(a);
    if a.actor.version >= 2 && b.actor.version >= 2 {
      var q := LacpRx.RecordPartner(b, m);
      assert LacpRx.RecordPdu(b, m).link == LacpRx.RecordPduVersion2(q, m).link;
    }
  }

  /** The receiver's NTT check passes exactly when the sender's partner information is the
      receiver's actor information in identity, key and the four compared state bits. */
  lemma NttQuietIffEcho(a: AggPort, b: AggPort)
    ensures LacpRx.PartnerViewCurrent(b.actor, LacpTx.PrepareLacpdu(a)) <==>
              && a.partner.operSystem == b.actor.operSystem && a.partner.operPort == b.actor.port
              && a.partner.operKey == b.actor.operKey
              && a.partner.operState.lacpActivity == b.actor.operState.lacpActivity
              && a.partner.operState.lacpShortTimeout == b.actor.operState.lacpShortTimeout
              && a.partner.operState.sync == b.actor.operState.sync
              && a.partner.operState.aggregation == b.actor.operState.aggregation
    ensures !b.ntt ==> (LacpRx.UpdateNtt(b, LacpTx.PrepareLacpdu(a)) == b <==>
                          LacpRx.PartnerViewCurrent(b.actor, LacpTx.PrepareLacpdu(a)))
  {
  }

  /** One exchange completes half a handshake: once `b` has recorded `a`'s LACPDU, the
      LACPDU `b` sends back names `a` as its partner, so `a` accepts it as a match for its
      actor, and it leaves `a`'s NTT alone unless the `sync` bit `b` recorded differs from
      `a`'s own. */
  lemma RecordedPartnerEchoes(a: AggPort, b: AggPort)
    ensures var m := LacpTx.PrepareLacpdu(a);
            var back := LacpTx.PrepareLacpdu(LacpRx.RecordPdu(b, m));
            && LacpRx.ComparePartnerViewOfActor(a.actor, back)
            && (LacpRx.PartnerViewCurrent(a.actor, back) <==> LacpRx.PartnerSync(b.actor, m) == a.actor.operState.sync)
  {
    ReceiverLearnsSender(a, b);
  }

  /** A repeated LACPDU from the same sender changes nothing more: recording it again
      gives the same port, and it does not unselect the port. */
  lemma RepeatedLacpduIsQuiet(a: AggPort, b: AggPort)
    ensures var m := LacpTx.PrepareLacpdu(a);
            var q := LacpRx.RecordPdu(b, m);
            LacpRx.RecordPdu(q, m) == q && LacpRx.UpdateSelected(q, m) == q
  {
    var m := LacpTx.PrepareLacpdu(a);
    LacpRx.RecordPduIdempotent(b, m);
    LacpRx.RecordedSenderIsPartner(b, m);
  }
}

=== FILE: lacp_port.dfy ===
/** The state of one Aggregation Port as the LACP receive and transmit machines and the
    management routines see it: the actor and partner information, the version-2 link
    number and algorithm information, the change flags that link management to the
    machines, and the LACPDU the port exchanges with its link partner. */
module LacpPort {
  import opened Common

  /** An Actor_State / Partner_State octet, bit 0 (least significant) first, in the order
      of section 6.4.2.3 of IEEE Std 802.1AX-2014. */
  datatype LacpState = LacpState(
    lacpActivity: bool,
    lacpShortTimeout: bool,
    aggregation: bool,
    sync: bool,
    collecting: bool,
    distributing: bool,
    defaulted: bool,
    expired: bool)

  function Bit(b: bool, weight: bv8): bv8 {
    if b then weight else 0
  }

  /** The `state` octet of a port state. */
  function LacpStateToByte(s: LacpState): bv8 {
    Bit(s.lacpActivity, 0x01) | Bit(s.lacpShortTimeout, 0x02) | Bit(s.aggregation, 0x04)
    | Bit(s.sync, 0x08) | Bit(s.collecting, 0x10) | Bit(s.distributing, 0x20)
    | Bit(s.defaulted, 0x40) | Bit(s.expired, 0x80)
  }

  /** Reading a state octet through its bit fields: every octet is a port state and every
      port state is exactly one octet. */
  function LacpStateFromByte(x: bv8): (s: LacpState)
    ensures LacpStateToByte(s) == x
    ensures s.lacpActivity == (x & 0x01 != 0) && s.lacpShortTimeout == (x & 0x02 != 0)
    ensures s.aggregation == (x & 0x04 != 0) && s.sync == (x & 0x08 != 0)
  {
    LacpState(x & 0x01 != 0, x & 0x02 != 0, x & 0x04 != 0, x & 0x08 != 0,
              x & 0x10 != 0, x & 0x20 != 0, x & 0x40 != 0, x & 0x80 != 0)
  }

  lemma LacpStateRoundTrip(s: LacpState)
    ensures LacpStateFromByte(LacpStateToByte(s)) == s
  {
  }

  /** A port identifier: a 16-bit priority above a 16-bit port number.  Ordering
      comparisons use the combined 32-bit value. */
  datatype PortId = PortId(pri: uint16, num: uint16) {
    function Id(): nat {
      pri * 0x1_0000 + num
    }
  }

  /** `a.id < b.id` on port identifiers, priority first. */
  predicate PortBelow(a: PortId, b: PortId) {
    a.pri < b.pri || (a.pri == b.pri && a.num < b.num)
  }

  lemma PortBelowIsIdOrder(a: PortId, b: PortId)
    ensures PortBelow(a, b) <==> a.Id() < b.Id()
    ensures a.Id() == b.Id() <==> a == b
  {
  }

  /** The Selection Logic's verdict on a port. */
  datatype SelectedVal = Unselected | Selected | Standby

  /** A LACPDU (version 1 fields and the version-2 TLVs this implementation sends). The
      version-2 values are meaningful only when their TLV flag is set. */
  datatype Lacpdu = Lacpdu(
    version: uint8,
    actorSystem: SysId,
    actorKey: uint16,
    actorPort: PortId,
    actorState: LacpState,
    partnerSystem: SysId,
    partnerKey: uint16,
    partnerPort: PortId,
    partnerState: LacpState,
    collectorMaxDelay: uint16,
    portAlgorithmTlv: bool,
    actorPortAlgorithm: Alg,
    portConversationIdDigestTlv: bool,
    linkNumberId: LinkNum,
    actorConversationLinkListDigest: Digest,
    portConversationServiceMappingDigestTlv: bool,
    actorConversationServiceMappingDigest: Digest,
    portConversationMaskTlvs: bool)

  /** The constants of the port's machines.  They are declared in a header that is not part
      of this model, so they are parameters here. */
  datatype PortConstants = PortConstants(
    fastPeriodicTime: nat,
    slowPeriodicTime: nat,
    shortTimeout: nat,
    longTimeout: nat,
    txLimit: nat,
    txLimitInterval: nat,
    defaultActorKey: uint16,
    defaultPartnerKey: uint16,
    defaultPortState: LacpState,
    defaultPartnerPortState: LacpState)

  /** This system's side of the port. */
  datatype ActorInfo = ActorInfo(
    adminSystem: SysId,
    operSystem: SysId,
    port: PortId,
    adminKey: uint16,
    operKey: uint16,
    adminState: LacpState,
    operState: LacpState,
    version: uint8,
    collectorMaxDelay: uint16)

  /** What the port knows of its link partner, administratively and operationally. */
  datatype PartnerInfo = PartnerInfo(
    adminSystem: SysId,
    operSystem: SysId,
    adminPort: PortId,
    operPort: PortId,
    adminKey: uint16,
    operKey: uint16,
    adminState: LacpState,
    operState: LacpState,
    version: uint8)

  /** The version-2 link numbers, algorithms and digests of both ends. */
  datatype LinkInfo = LinkInfo(
    adminLinkNumber: LinkNum,
    linkNumber: LinkNum,
    partnerLinkNumber: LinkNum,
    actorAlgorithm: Alg,
    actorLinkDigest: Digest,
    actorServiceDigest: Digest,
    partnerAlgorithm: Alg,
    partnerLinkDigest: Digest,
    partnerServiceDigest: Digest)

  /** Flags by which management and the receive machine ask other machines for work. */
  datatype ChangeFlags = ChangeFlags(
    actorAdmin: bool,
    actorAdminPortKey: bool,
    actorSystem: bool,
    partnerAdmin: bool,
    adminLinkNumber: bool,
    portLinkState: bool,
    partnerOperDistAlg: bool,
    actorDistributing: bool)

  datatype LacpRxState = RxNoState | Initialize | PortDisabled | LacpDisabled | Expired | Defaulted | Current

  datatype LacpTxState = TxNoState | NoTx | ResetTxCount | TxLacpdu | FastPeriodic | SlowPeriodic

  /** Variables of the receive machine. */
  datatype LacpRxVars = LacpRxVars(
    state: LacpRxState,
    currentWhileTimer: nat,
    portOperational: bool,
    lacpEnabled: bool,
    portMoved: bool,
    frame: Option<Lacpdu>)

  /** Variables of the transmit machine. */
  datatype LacpTxVars = LacpTxVars(
    state: LacpTxState,
    txWhen: nat,
    txCount: nat,
    txLimitTimer: nat,
    txOpportunity: bool,
    lacpTxEnabled: bool)

  /** Selection Logic, Wait-To-Restore and conversation-mask state of the port. */
  datatype PortSelection = PortSelection(
    selected: SelectedVal,
    newPartner: bool,
    ready: bool,
    readyN: bool,
    aggregatorIdentifier: uint16,
    aggregatorIndex: int,
    individual: bool,
    coupledMuxControl: bool,
    wtrTime: uint16,
    wtrRevertive: bool,
    wtrWaiting: bool,
    nonRevertive: bool,
    actorAttached: bool,
    actorDWC: bool,
    operConversationMask: Mask,
    distributionMask: Mask,
    collectionMask: Mask)

  /** One Aggregation Port. */
  datatype AggPort = AggPort(
    portId: uint16,                   // aggregationPortIdentifier
    protocolDA: uint48,               // lacpDestinationAddress
    ntt: bool,
    actor: ActorInfo,
    partner: PartnerInfo,
    link: LinkInfo,
    change: ChangeFlags,
    rx: LacpRxVars,
    tx: LacpTxVars,
    sel: PortSelection)
}

=== FILE: lacp_rx.dfy ===
/** The LACP Receive machine of one Aggregation Port (section 6.4.12 of IEEE Std
    802.1AX-2014) with the version-2 extensions: the routines that record a LACPDU or the
    administrative defaults, the NTT and selection updates, the management prelude that
    runs at the start of every step, and `step`/`run`. */
module LacpRx {
  import opened Common
  import opened LacpPort

  /** `recordVersion2Defaults`: the version-2 partner information falls back to its
      defaults -- version 1, no algorithm, zero digests -- and both the operational and the
      partner link number take the administrative link number. */
  function RecordVersion2Defaults(p: AggPort): (r: AggPort)
    ensures r.partner == p.partner.(version := 1)
    ensures r.link.linkNumber == p.link.adminLinkNumber && r.link.partnerLinkNumber == p.link.adminLinkNumber
    ensures r.link.partnerAlgorithm == NoneAlg
    ensures r.link.partnerLinkDigest == ZeroDigest && r.link.partnerServiceDigest == ZeroDigest
    ensures r.link.adminLinkNumber == p.link.adminLinkNumber && r.link.actorAlgorithm == p.link.actorAlgorithm
    ensures r.link.actorLinkDigest == p.link.actorLinkDigest && r.link.actorServiceDigest == p.link.actorServiceDigest
    ensures r == p.(partner := r.partner, link := r.link)
  {
    p.(partner := p.partner.(version := 1),
       link := p.link.(partnerLinkNumber := p.link.adminLinkNumber, linkNumber := p.link.adminLinkNumber,
                       partnerAlgorithm := NoneAlg, partnerLinkDigest := ZeroDigest,
                       partnerServiceDigest := ZeroDigest))
  }

  /** `recordDefault`: the partner's operational identity and state become the
      administrative ones, the actor is marked defaulted, the version-2 defaults apply and
      the request to re-read the partner's admin values is consumed. */
  function RecordDefault(p: AggPort): (r: AggPort)
    ensures r.partner.operSystem == p.partner.adminSystem && r.partner.operPort == p.partner.adminPort
    ensures r.partner.operKey == p.partner.adminKey && r.partner.operState == p.partner.adminState
    ensures r.partner.version == 1
    ensures r.actor == p.actor.(operState := p.actor.operState.(defaulted := true))
    ensures r.link == RecordVersion2Defaults(p).link
    ensures r.change == p.change.(partnerAdmin := false)
    ensures r.sel == p.sel && r.ntt == p.ntt && r.rx == p.rx && r.tx == p.tx
  {
    var q := p.(partner := p.partner.(operSystem := p.partner.adminSystem, operPort := p.partner.adminPort,
                                      operKey := p.partner.adminKey, operState := p.partner.adminState),
                actor := p.actor.(operState := p.actor.operState.(defaulted := true)));
    var d := RecordVersion2Defaults(q);
    d.(change := d.change.(partnerAdmin := false))
  }

  /** The partner's operational LAG identity differs from its administrative one. */
  predicate PartnerOperNotAdmin(partner: PartnerInfo) {
    partner.operSystem != partner.adminSystem || partner.operPort != partner.adminPort
    || partner.operKey != partner.adminKey
    || partner.operState.aggregation != partner.adminState.aggregation
  }

  /** `updateDefaultSelected`: going to the defaults unselects the port exactly when that
      changes the partner's part of the LAG identity; nothing else is touched. */
  function UpdateDefaultSelected(p: AggPort): (r: AggPort)
    ensures r.sel.selected == Unselected <==> (PartnerOperNotAdmin(p.partner) || p.sel.selected == Unselected)
    ensures !PartnerOperNotAdmin(p.partner) ==> r == p
    ensures r == p.(sel := p.sel.(selected := r.sel.selected))
  {
    if PartnerOperNotAdmin(p.partner) then p.(sel := p.sel.(selected := Unselected)) else p
  }

  /** Once the defaults are recorded they are the partner's operational identity, so a
      further `updateDefaultSelected` (a repeated DEFAULTED entry with no admin change) never
      unselects the port. */
  lemma DefaultsKeepSelection(p: AggPort)
    ensures !PartnerOperNotAdmin(RecordDefault(p).partner)
    ensures UpdateDefaultSelected(RecordDefault(p)) == RecordDefault(p)
  {
  }

  /** `compareActorViewOfPartner`: the LACPDU's actor is the partner this port knows -- same
      system and port, and the same key and aggregation bit whatever its other state bits. */
  predicate CompareActorViewOfPartner(partner: PartnerInfo, rx: Lacpdu)
    ensures CompareActorViewOfPartner(partner, rx) ==>
              partner.operSystem == rx.actorSystem && partner.operPort == rx.actorPort
    ensures (&& partner.operSystem == rx.actorSystem && partner.operPort == rx.actorPort && partner.operKey == rx.actorKey
             && partner.operState.aggregation == rx.actorState.aggregation)
            ==> CompareActorViewOfPartner(partner, rx)
  {
    partner.operSystem == rx.actorSystem && partner.operPort == rx.actorPort
    && partner.operKey == rx.actorKey && partner.operState.aggregation == rx.actorState.aggregation
  }

  /** `comparePartnerViewOfActor`: the LACPDU's partner is this port's actor.  It is the
      identity half of the NTT check: a LACPDU that passes `updateNTT` passes this one. */
  predicate ComparePartnerViewOfActor(actor: ActorInfo, rx: Lacpdu)
    ensures ComparePartnerViewOfActor(actor, rx) ==> rx.partnerSystem == actor.operSystem && rx.partnerPort == actor.port
    ensures PartnerViewCurrent(actor, rx) ==> ComparePartnerViewOfActor(actor, rx)
  {
    rx.partnerSystem == actor.operSystem && rx.partnerPort == actor.port
    && rx.partnerKey == actor.operKey && rx.partnerState.aggregation == actor.operState.aggregation
  }

  /** The seven partner fields of a LACPDU that `updateNTT` compares with the actor's
      operational values. */
  predicate PartnerViewCurrent(actor: ActorInfo, rx: Lacpdu)
    ensures PartnerViewCurrent(actor, rx) ==> rx.partnerState == rx.partnerState.(
              lacpActivity := actor.operState.lacpActivity, lacpShortTimeout := actor.operState.lacpShortTimeout,
              sync := actor.operState.sync, aggregation := actor.operState.aggregation)
  {
    rx.partnerSystem == actor.operSystem && rx.partnerPort == actor.port && rx.partnerKey == actor.operKey
    && rx.partnerState.lacpActivity == actor.operState.lacpActivity
    && rx.partnerState.lacpShortTimeout == actor.operState.lacpShortTimeout
    && rx.partnerState.sync == actor.operState.sync
    && rx.partnerState.aggregation == actor.operState.aggregation
  }

  /** `updateSelected`: a LACPDU from another partner than the recorded one unselects the
      port and asks the Selection Logic to look for a moved partner. */
  function UpdateSelected(p: AggPort, rx: Lacpdu): (r: AggPort)
    ensures !CompareActorViewOfPartner(p.partner, rx) ==> r.sel.selected == Unselected && r.sel.newPartner
    ensures CompareActorViewOfPartner(p.partner, rx) ==> r == p
    ensures r == p.(sel := r.sel) && r.sel == p.sel.(selected := r.sel.selected, newPartner := r.sel.newPartner)
  {
    if CompareActorViewOfPartner(p.partner, rx) then p
    else p.(sel := p.sel.(selected := Unselected, newPartner := true))
  }

  /** `updateNTT`: NTT is raised iff the partner's view of this actor is out of date in any
      of the seven compared fields, and it is never cleared. */
  function UpdateNtt(p: AggPort, rx: Lacpdu): (r: AggPort)
    ensures r.ntt <==> p.ntt || !PartnerViewCurrent(p.actor, rx)
    ensures p.ntt ==> r.ntt
    ensures r == p.(ntt := r.ntt)
  {
    if !PartnerViewCurrent(p.actor, rx) then p.(ntt := true) else p
  }

  /** A LACPDU that leaves NTT alone carries a partner view that `recordPdu` accepts as a
      match for this actor. */
  lemma NttQuietImpliesPartnerMatch(p: AggPort, rx: Lacpdu)
    requires !p.ntt && !UpdateNtt(p, rx).ntt
    ensures ComparePartnerViewOfActor(p.actor, rx)
  {
  }

  /** The partner's `sync` as `recordPdu` records it: the partner is in sync, has either no
      aggregation or this actor as its partner, and one of the two ends is active. */
  predicate PartnerSync(actor: ActorInfo, rx: Lacpdu)
    ensures PartnerSync(actor, rx) ==> rx.actorState.sync
    ensures rx.actorState.aggregation && !ComparePartnerViewOfActor(actor, rx) ==> !PartnerSync(actor, rx)
    ensures (PartnerViewCurrent(actor, rx) && rx.actorState.sync && (rx.actorState.lacpActivity || rx.partnerState.lacpActivity))
              ==> PartnerSync(actor, rx)
  {
    (!rx.actorState.aggregation || ComparePartnerViewOfActor(actor, rx))
    && rx.actorState.sync
    && (rx.actorState.lacpActivity || (actor.operState.lacpActivity && rx.partnerState.lacpActivity))
  }

  /** The version-2 values recorded from one LACPDU, with the requests they raise. */
  datatype TlvRecord = TlvRecord(link: LinkInfo, portLinkState: bool, partnerOperDistAlg: bool)

  /** `recordPortAlgorithmTlv`: the partner's algorithm becomes the TLV's, or UNSPECIFIED
      without the TLV; a change of algorithm while collecting requests a new distribution. */
  function RecordPortAlgorithmTlv(link: LinkInfo, collecting: bool, rx: Lacpdu): (r: TlvRecord)
    ensures r.link.partnerAlgorithm == if rx.portAlgorithmTlv then rx.actorPortAlgorithm else Unspecified
    ensures r.link == link.(partnerAlgorithm := r.link.partnerAlgorithm)
    ensures !r.portLinkState
    ensures r.partnerOperDistAlg <==> collecting && r.link.partnerAlgorithm != link.partnerAlgorithm
  {
    var alg := if rx.portAlgorithmTlv then rx.actorPortAlgorithm else Unspecified;
    if link.partnerAlgorithm != alg then TlvRecord(link.(partnerAlgorithm := alg), false, collecting)
    else TlvRecord(link, false, false)
  }

  /** `recordConversationPortDigestTlv`: the partner's link number and link-list digest
      become the TLV's, or the admin link number and a zero digest without it.  A new link
      number changes the active links only when this port is active and wins the
      comparison of system and port identifiers (`actorWins`); a new digest whenever it is
      active. */
  function RecordConversationPortDigestTlv(link: LinkInfo, active: bool, actorWins: bool, rx: Lacpdu)
    : (r: TlvRecord)
    ensures r.link.partnerLinkNumber == if rx.portConversationIdDigestTlv then rx.linkNumberId else link.adminLinkNumber
    ensures r.link.partnerLinkDigest
            == if rx.portConversationIdDigestTlv then rx.actorConversationLinkListDigest else ZeroDigest
    ensures r.link == link.(partnerLinkNumber := r.link.partnerLinkNumber, partnerLinkDigest := r.link.partnerLinkDigest)
    ensures r.portLinkState <==> active && actorWins && r.link.partnerLinkNumber != link.partnerLinkNumber
    ensures r.partnerOperDistAlg <==> active && r.link.partnerLinkDigest != link.partnerLinkDigest
  {
    var num := if rx.portConversationIdDigestTlv then rx.linkNumberId else link.adminLinkNumber;
    var digest := if rx.portConversationIdDigestTlv then rx.actorConversationLinkListDigest else ZeroDigest;
    var numChanged := link.partnerLinkNumber != num;
    var digestChanged := link.partnerLinkDigest != digest;
    TlvRecord(link.(partnerLinkNumber := num, partnerLinkDigest := digest),
              active && actorWins && numChanged, active && digestChanged)
  }

  /** `recordConversationServiceMappingDigestTlv`: the partner's service-mapping digest
      becomes the TLV's, or zero without it; a change while collecting requests a new
      distribution. */
  function RecordServiceMappingDigestTlv(link: LinkInfo, collecting: bool, rx: Lacpdu): (r: TlvRecord)
    ensures r.link.partnerServiceDigest
            == if rx.portConversationServiceMappingDigestTlv then rx.actorConversationServiceMappingDigest else ZeroDigest
    ensures r.link == link.(partnerServiceDigest := r.link.partnerServiceDigest)
    ensures !r.portLinkState
    ensures r.partnerOperDistAlg <==> collecting && r.link.partnerServiceDigest != link.partnerServiceDigest
  {
    var digest := if rx.portConversationServiceMappingDigestTlv then rx.actorConversationServiceMappingDigest
                  else ZeroDigest;
    if link.partnerServiceDigest != digest then TlvRecord(link.(partnerServiceDigest := digest), false, collecting)
    else TlvRecord(link, false, false)
  }

  /** This port's system and port identifiers exceed the partner's (`id` comparison,
      system first). */
  predicate ActorWins(actor: ActorInfo, partner: PartnerInfo) {
    Below(partner.operSystem, actor.operSystem)
    || (partner.operSystem == actor.operSystem && PortBelow(partner.operPort, actor.port))
  }

  /** The three version-2 TLV recorders in order, on the partner information already
      taken from the LACPDU's actor fields. */
  function RecordTlvs(p: AggPort, rx: Lacpdu): (r: TlvRecord)
    ensures r.link.partnerAlgorithm == if rx.portAlgorithmTlv then rx.actorPortAlgorithm else Unspecified
    ensures r.link.partnerLinkNumber == if rx.portConversationIdDigestTlv then rx.linkNumberId else p.link.adminLinkNumber
    ensures r.link.partnerLinkDigest
            == if rx.portConversationIdDigestTlv then rx.actorConversationLinkListDigest else ZeroDigest
    ensures r.link.partnerServiceDigest
            == if rx.portConversationServiceMappingDigestTlv then rx.actorConversationServiceMappingDigest else ZeroDigest
    ensures r.link.adminLinkNumber == p.link.adminLinkNumber && r.link.linkNumber == p.link.linkNumber
    ensures r.link.actorAlgorithm == p.link.actorAlgorithm
    ensures r.link.actorLinkDigest == p.link.actorLinkDigest && r.link.actorServiceDigest == p.link.actorServiceDigest
    ensures r.portLinkState ==> p.actor.operState.collecting && p.sel.selected == Selected
    ensures r.link == p.link ==> !r.portLinkState && !r.partnerOperDistAlg
  {
    var collecting := p.actor.operState.collecting;
    var active := collecting && p.sel.selected == Selected;
    var a := RecordPortAlgorithmTlv(p.link, collecting, rx);
    var b := RecordConversationPortDigestTlv(a.link, active, ActorWins(p.actor, p.partner), rx);
    var c := RecordServiceMappingDigestTlv(b.link, collecting, rx);
    TlvRecord(c.link, b.portLinkState, a.partnerOperDistAlg || b.partnerOperDistAlg || c.partnerOperDistAlg)
  }

  /** The version-2 half of `recordPdu` when both ends run version 2: the TLV recorders'
      values, and their requests added to the sticky change flags. */
  function RecordPduVersion2(q: AggPort, rx: Lacpdu): (r: AggPort)
    ensures r.link.partnerAlgorithm == if rx.portAlgorithmTlv then rx.actorPortAlgorithm else Unspecified
    ensures r.link.partnerLinkNumber == if rx.portConversationIdDigestTlv then rx.linkNumberId else q.link.adminLinkNumber
    ensures r.link.partnerLinkDigest
            == if rx.portConversationIdDigestTlv then rx.actorConversationLinkListDigest else ZeroDigest
    ensures r.link.partnerServiceDigest
            == if rx.portConversationServiceMappingDigestTlv then rx.actorConversationServiceMappingDigest else ZeroDigest
    ensures r.link.adminLinkNumber == q.link.adminLinkNumber && r.link.linkNumber == q.link.linkNumber
    ensures r.link.actorAlgorithm == q.link.actorAlgorithm
    ensures r.link.actorLinkDigest == q.link.actorLinkDigest && r.link.actorServiceDigest == q.link.actorServiceDigest
    ensures q.change.portLinkState ==> r.change.portLinkState
    ensures q.change.partnerOperDistAlg ==> r.change.partnerOperDistAlg
    ensures r.change.portLinkState && !q.change.portLinkState ==>
              q.actor.operState.collecting && q.sel.selected == Selected
    ensures r.link == q.link ==> r.change == q.change
    ensures r.change == q.change.(portLinkState := r.change.portLinkState,
                                  partnerOperDistAlg := r.change.partnerOperDistAlg)
    ensures r == q.(link := r.link, change := r.change)
  {
    var t := RecordTlvs(q, rx);
    q.(link := t.link,
       change := q.change.(portLinkState := q.change.portLinkState || t.portLinkState,
                           partnerOperDistAlg := q.change.partnerOperDistAlg || t.partnerOperDistAlg))
  }

  /** The partner half of `recordPdu`: the LACPDU's actor becomes the partner. */
  function RecordPartner(p: AggPort, rx: Lacpdu): (r: AggPort)
    ensures r.partner == p.partner.(operSystem := rx.actorSystem, operPort := rx.actorPort, operKey := rx.actorKey,
                                    operState := rx.actorState.(sync := PartnerSync(p.actor, rx)))
    ensures r.actor == p.actor.(operState := p.actor.operState.(defaulted := false))
    ensures r == p.(partner := r.partner, actor := r.actor)
  {
    p.(partner := p.partner.(operSystem := rx.actorSystem, operPort := rx.actorPort, operKey := rx.actorKey,
                             operState := rx.actorState.(sync := PartnerSync(p.actor, rx))),
       actor := p.actor.(operState := p.actor.operState.(defaulted := false)))
  }

  /** `recordPdu`: the partner's operational information becomes the LACPDU's actor
      information, with `sync` computed by `PartnerSync`; the actor is no longer defaulted.
      The version-2 values are taken from the TLVs only when both ends run version 2 or
      later, and otherwise revert to their defaults; the partner's version ends as the
      LACPDU's. */
  function RecordPdu(p: AggPort, rx: Lacpdu): (r: AggPort)
    ensures r.partner == p.partner.(operSystem := rx.actorSystem, operPort := rx.actorPort, operKey := rx.actorKey,
                                    operState := rx.actorState.(sync := PartnerSync(p.actor, rx)),
                                    version := rx.version)
    ensures r.actor == p.actor.(operState := p.actor.operState.(defaulted := false))
    ensures p.actor.version >= 2 && rx.version >= 2 ==> r == RecordPduVersion2(RecordPartner(p, rx), rx).(partner := r.partner)
    ensures !(p.actor.version >= 2 && rx.version >= 2) ==>
              r.link == RecordVersion2Defaults(p).link && r.change == p.change
    ensures r.sel == p.sel && r.ntt == p.ntt && r.rx == p.rx && r.tx == p.tx
  {
    var q := RecordPartner(p, rx);
    var v := if p.actor.version >= 2 && rx.version >= 2 then RecordPduVersion2(q, rx)
             else
               var d := RecordVersion2Defaults(q);
               d.(link := d.link.(partnerLinkNumber := d.link.adminLinkNumber));
    v.(partner := v.partner.(version := rx.version))
  }

  /** Recording the same LACPDU twice is recording it once: the second time nothing
      changes and no request is raised. */
  lemma RecordPduIdempotent(p: AggPort, rx: Lacpdu)
    ensures RecordPdu(RecordPdu(p, rx), rx) == RecordPdu(p, rx)
  {
  }

  /** After a LACPDU is recorded its sender is the known partner, so the same LACPDU again
      does not unselect the port. */
  lemma RecordedSenderIsPartner(p: AggPort, rx: Lacpdu)
    ensures CompareActorViewOfPartner(RecordPdu(p, rx).partner, rx)
    ensures UpdateSelected(RecordPdu(p, rx), rx) == RecordPdu(p, rx)
  {
  }

  /** `actorAdminChange`: the actor's aggregation, activity and timeout bits take their
      administrative values, an explicit admin-key change resets the operational key, and a
      change of the actor's LAG identity unselects the port.  A LACPDU is always requested. */
  function ActorAdminChange(p: AggPort): (r: AggPort)
    ensures r.sel.selected == Unselected <==>
              (p.actor.operState.aggregation != p.actor.adminState.aggregation || p.change.actorAdminPortKey
               || p.sel.selected == Unselected)
    ensures r.sel == p.sel.(selected := r.sel.selected)
    ensures r.actor.operKey == if p.change.actorAdminPortKey then p.actor.adminKey else p.actor.operKey
    ensures r.actor.operState == p.actor.operState.(aggregation := p.actor.adminState.aggregation,
                                                    lacpActivity := p.actor.adminState.lacpActivity,
                                                    lacpShortTimeout := p.actor.adminState.lacpShortTimeout)
    ensures r.actor == p.actor.(operKey := r.actor.operKey, operState := r.actor.operState)
    ensures r.change == p.change.(actorAdminPortKey := false)
    ensures r.ntt
    ensures r == p.(sel := r.sel, actor := r.actor, change := r.change, ntt := true)
  {
    var unselect := p.actor.operState.aggregation != p.actor.adminState.aggregation || p.change.actorAdminPortKey;
    var key := if p.change.actorAdminPortKey then p.actor.adminKey else p.actor.operKey;
    p.(sel := if unselect then p.sel.(selected := Unselected) else p.sel,
       actor := p.actor.(operKey := key,
                         operState := p.actor.operState.(aggregation := p.actor.adminState.aggregation,
                                                         lacpActivity := p.actor.adminState.lacpActivity,
                                                         lacpShortTimeout := p.actor.adminState.lacpShortTimeout)),
       change := p.change.(actorAdminPortKey := false),
       ntt := true)
  }

  /** Applying the admin values twice is applying them once. */
  lemma ActorAdminChangeIdempotent(p: AggPort)
    ensures ActorAdminChange(ActorAdminChange(p)) == ActorAdminChange(p)
  {
  }

  /** `updateLinkNumber`, run after a management change of the admin link number: a
      defaulted or version-1 partner is assumed to use the new number too; a collecting port
      leaves the change to the aggregator (when it is SELECTED), any other port adopts the
      number at once and, when in sync, requests a LACPDU. */
  function UpdateLinkNumber(p: AggPort): (r: AggPort)
    ensures r.link.partnerLinkNumber
            == if p.actor.operState.defaulted || p.partner.version == 1 then p.link.adminLinkNumber
               else p.link.partnerLinkNumber
    ensures p.actor.operState.collecting ==>
              r.link.linkNumber == p.link.linkNumber && r.ntt == p.ntt
              && r.change == p.change.(portLinkState := p.change.portLinkState || p.sel.selected == Selected)
    ensures !p.actor.operState.collecting ==>
              r.link.linkNumber == p.link.adminLinkNumber && (r.ntt <==> p.ntt || p.actor.operState.sync)
              && r.change == p.change
    ensures r.link == p.link.(partnerLinkNumber := r.link.partnerLinkNumber, linkNumber := r.link.linkNumber)
    ensures r == p.(link := r.link, change := r.change, ntt := r.ntt)
  {
    var q := if p.actor.operState.defaulted || p.partner.version == 1
             then p.(link := p.link.(partnerLinkNumber := p.link.adminLinkNumber)) else p;
    if q.actor.operState.collecting then
      q.(change := q.change.(portLinkState := q.change.portLinkState || q.sel.selected == Selected))
    else
      q.(link := q.link.(linkNumber := q.link.adminLinkNumber), ntt := q.ntt || q.actor.operState.sync)
  }

  /** A LACPDU from a version-1 partner, or received by a version-1 actor, leaves the same
      version-2 state as the administrative defaults do. */
  lemma Version1PduRecordsDefaults(p: AggPort, rx: Lacpdu)
    requires p.actor.version < 2 || rx.version < 2
    ensures RecordPdu(p, rx).link == RecordDefault(p).link
  {
  }

  /** A state action leaves alone what the receive machine only reads: the LACPDU slot, the
      port's operational and LACP-enabled state, the management requests handled by the
      prelude, and the transmit machine. */
  predicate KeepsInputs(p: AggPort, r: AggPort) {
    && r.rx.frame == p.rx.frame && r.rx.portOperational == p.rx.portOperational
    && r.rx.lacpEnabled == p.rx.lacpEnabled
    && r.change.actorAdmin == p.change.actorAdmin && r.change.adminLinkNumber == p.change.adminLinkNumber
    && r.tx == p.tx
  }

  // The state actions.  Each returns the port with the machine in the new state.

  /** `enterInitialize`: unselected, defaulted, not expired, not moved. */
  function EnterInitialize(p: AggPort): (r: AggPort)
    ensures r.rx.state == Initialize && !r.rx.portMoved
    ensures r.sel.selected == Unselected && !r.actor.operState.expired && r.actor.operState.defaulted
    ensures r.partner == RecordDefault(p).partner && r.link == RecordDefault(p).link
    ensures r.change == RecordDefault(p).change && r.ntt == p.ntt && r.tx == p.tx
    ensures KeepsInputs(p, r)
  {
    var d := RecordDefault(p.(sel := p.sel.(selected := Unselected)));
    d.(actor := d.actor.(operState := d.actor.operState.(expired := false)),
       rx := d.rx.(state := Initialize, portMoved := false))
  }

  /** `enterPortDisabled`: the partner is out of sync and assumed to be version 1. */
  function EnterPortDisabled(p: AggPort): (r: AggPort)
    ensures r.rx == p.rx.(state := PortDisabled)
    ensures r.partner == p.partner.(operState := p.partner.operState.(sync := false), version := 1)
    ensures r == p.(rx := r.rx, partner := r.partner)
    ensures KeepsInputs(p, r)
  {
    p.(partner := p.partner.(operState := p.partner.operState.(sync := false), version := 1),
       rx := p.rx.(state := PortDisabled))
  }

  /** `enterLacpDisabled`: unselected and defaulted, with the partner recorded as an
      individual link. */
  function EnterLacpDisabled(p: AggPort): (r: AggPort)
    ensures r.rx == p.rx.(state := LacpDisabled) && !r.change.partnerAdmin
    ensures r.sel.selected == Unselected && !r.actor.operState.expired && r.actor.operState.defaulted
    ensures r.partner == RecordDefault(p).partner.(operState := p.partner.adminState.(aggregation := false))
    ensures r.link == RecordDefault(p).link && r.change == RecordDefault(p).change
    ensures r.ntt == p.ntt && r.tx == p.tx
    ensures KeepsInputs(p, r)
  {
    var d := RecordDefault(p.(sel := p.sel.(selected := Unselected)));
    d.(partner := d.partner.(operState := d.partner.operState.(aggregation := false)),
       actor := d.actor.(operState := d.actor.operState.(expired := false)),
       rx := d.rx.(state := LacpDisabled))
  }

  /** `enterExpired`: the partner is out of sync and assumed to use short timeouts, the
      actor is expired and the current-while timer runs the short timeout.  Only a version-1
      actor requests a LACPDU here. */
  function EnterExpired(p: AggPort, k: PortConstants): (r: AggPort)
    ensures r.rx == p.rx.(state := Expired, currentWhileTimer := k.shortTimeout)
    ensures r.partner == p.partner.(operState := p.partner.operState.(sync := false, lacpShortTimeout := true))
    ensures r.actor == p.actor.(operState := p.actor.operState.(expired := true))
    ensures r.ntt <==> p.ntt || p.actor.version == 1
    ensures r == p.(rx := r.rx, partner := r.partner, actor := r.actor, ntt := r.ntt)
    ensures KeepsInputs(p, r)
  {
    p.(partner := p.partner.(operState := p.partner.operState.(sync := false, lacpShortTimeout := true)),
       rx := p.rx.(state := Expired, currentWhileTimer := k.shortTimeout),
       actor := p.actor.(operState := p.actor.operState.(expired := true)),
       ntt := p.ntt || p.actor.version == 1)
  }

  /** `enterDefaulted`: unselect if the defaults change the partner's identity, then record
      the defaults. */
  function EnterDefaulted(p: AggPort): (r: AggPort)
    ensures r.rx == p.rx.(state := Defaulted) && !r.change.partnerAdmin
    ensures r.sel.selected == Unselected <==> (PartnerOperNotAdmin(p.partner) || p.sel.selected == Unselected)
    ensures !r.actor.operState.expired && r.actor.operState.defaulted
    ensures r.partner == RecordDefault(p).partner && r.link == RecordDefault(p).link
    ensures r.change == RecordDefault(p).change && r.ntt == p.ntt && r.tx == p.tx
    ensures KeepsInputs(p, r)
  {
    var d := RecordDefault(UpdateDefaultSelected(p));
    d.(actor := d.actor.(operState := d.actor.operState.(expired := false)), rx := d.rx.(state := Defaulted))
  }

  /** `enterCurrent`: `updateSelected` and `updateNTT` compare the LACPDU with the state
      before `recordPdu` overwrites it; the current-while timer then runs the timeout the
      actor asked for. */
  function EnterCurrent(p: AggPort, rx: Lacpdu, k: PortConstants): (r: AggPort)
    ensures r.rx == p.rx.(state := Current,
                          currentWhileTimer := if p.actor.operState.lacpShortTimeout then k.shortTimeout
                                               else k.longTimeout)
    ensures !CompareActorViewOfPartner(p.partner, rx) ==> r.sel.selected == Unselected && r.sel.newPartner
    ensures CompareActorViewOfPartner(p.partner, rx) ==> r.sel == p.sel
    ensures r.ntt <==> p.ntt || !PartnerViewCurrent(p.actor, rx)
    ensures r.actor == p.actor.(operState := p.actor.operState.(defaulted := false, expired := false))
    ensures r.tx == p.tx
    ensures KeepsInputs(p, r)
  {
    var d := RecordPdu(UpdateNtt(UpdateSelected(p, rx), rx), rx);
    d.(rx := d.rx.(state := Current,
                   currentWhileTimer := if d.actor.operState.lacpShortTimeout then k.shortTimeout else k.longTimeout),
       actor := d.actor.(operState := d.actor.operState.(expired := false)))
  }

  /** The partner and version-2 state CURRENT records are what `recordPdu` records on the
      port as it was: `updateSelected` and `updateNTT` touch neither. */
  lemma EnterCurrentRecordsPdu(p: AggPort, rx: Lacpdu, k: PortConstants)
    ensures EnterCurrent(p, rx, k).partner == RecordPdu(p, rx).partner
    ensures EnterCurrent(p, rx, k).link == RecordPdu(p, rx).link
  {
  }

  /** The change requests CURRENT raises are those of `recordPdu` on the port as
      `updateSelected` left it: a LACPDU from a new partner has already unselected the port,
      so it cannot ask for a change of active links. */
  lemma EnterCurrentRequests(p: AggPort, rx: Lacpdu, k: PortConstants)
    ensures EnterCurrent(p, rx, k).change == RecordPdu(UpdateSelected(p, rx), rx).change
    ensures !CompareActorViewOfPartner(p.partner, rx) ==>
              EnterCurrent(p, rx, k).change.portLinkState == p.change.portLinkState
  {
  }

  /** The management prelude of every step: a pending change of the actor's admin values
      is applied by `actorAdminChange`, a pending change of the admin link number by
      `updateLinkNumber`, and both requests are consumed.  Neither touches the receive
      machine's own variables or the partner's state. */
  function AdminPrelude(p: AggPort): (r: AggPort)
    ensures !r.change.actorAdmin && !r.change.adminLinkNumber
    ensures p.change.actorAdmin ==> r.ntt && r.actor.operState.aggregation == p.actor.adminState.aggregation
    ensures !p.change.actorAdmin && !p.change.adminLinkNumber ==> r == p
    ensures r.rx == p.rx && r.partner == p.partner && r.tx == p.tx
    ensures r.change.partnerAdmin == p.change.partnerAdmin
  {
    var a := if p.change.actorAdmin then ActorAdminChange(p.(change := p.change.(actorAdmin := false))) else p;
    if a.change.adminLinkNumber then UpdateLinkNumber(a.(change := a.change.(adminLinkNumber := false))) else a
  }

  /** The port as a step starts working on it: the port's operational state read and the
      LACPDU slot emptied (every step is done with the received LACPDU, if any). */
  function Arrived(p: AggPort, issOperational: bool): (r: AggPort)
    ensures r.rx == p.rx.(portOperational := issOperational, frame := None)
    ensures r == p.(rx := r.rx)
  {
    p.(rx := p.rx.(portOperational := issOperational, frame := None))
  }

  /** The global transition to PORT_DISABLED: the port is down and has not moved, and the
      machine is not already disabled with the partner out of sync. */
  predicate GlobalDisable(p: AggPort, issOperational: bool) {
    (p.rx.state != PortDisabled || p.partner.operState.sync) && !issOperational && !p.rx.portMoved
  }

  /** The machine rests: its next step takes no transition. */
  predicate RxStable(p: AggPort, issOperational: bool) {
    && p.rx.frame == None
    && !GlobalDisable(p, issOperational)
    && match p.rx.state
       case PortDisabled => !p.rx.portMoved && !issOperational
       case LacpDisabled => !p.rx.lacpEnabled && !p.change.partnerAdmin
       case Expired => p.rx.currentWhileTimer != 0
       case Defaulted => !p.change.partnerAdmin
       case Current => p.rx.currentWhileTimer != 0
       case _ => false
  }

  /** The transitions still to come once the machine is in PORT_DISABLED with the partner
      out of sync. */
  function DisabledPending(moved: bool, issOperational: bool): (n: nat)
    ensures n <= 3
  {
    (if moved then 2 else 0) + (if issOperational then 1 else 0)
  }

  /** An upper bound on the transitions the machine can still take before it rests, with the
      port's operational state fixed and positive timeouts; `hasFrame` says whether a
      LACPDU is waiting. */
  ghost function PendingWith(p: AggPort, issOperational: bool, hasFrame: bool): (n: nat)
    ensures n <= 4
  {
    var fromDisabled := DisabledPending(p.rx.portMoved, issOperational);
    if GlobalDisable(p, issOperational) then 1
    else match p.rx.state
      case PortDisabled => fromDisabled
      case LacpDisabled => if p.rx.lacpEnabled then 1 + fromDisabled else if p.change.partnerAdmin then 1 else 0
      case Expired => if hasFrame || p.rx.currentWhileTimer == 0 then 1 else 0
      case Defaulted => if hasFrame || p.change.partnerAdmin then 1 else 0
      case Current => if hasFrame then 1 else if p.rx.currentWhileTimer == 0 then 1 + fromDisabled else 0
      case _ => 1 + fromDisabled
  }

  ghost function RxPending(p: AggPort, issOperational: bool): (n: nat)
    ensures n <= 4
  {
    PendingWith(p, issOperational, p.rx.frame.Some?)
  }

  /** One step in PORT_DISABLED or LACP_DISABLED, on the port `d` as the prelude and
      `Arrived` left it. */
  method DisabledStep(d: AggPort, issOperational: bool, k: PortConstants) returns (r: AggPort, transitioned: bool)
    requires d.rx.state == PortDisabled || d.rx.state == LacpDisabled
    requires d.rx.frame == None && d.rx.portOperational == issOperational
    ensures KeepsInputs(d, r) && (r.rx.portMoved ==> d.rx.portMoved)
    ensures d.rx.state == PortDisabled ==>
              (transitioned <==> d.rx.portMoved || issOperational)
              && (d.rx.portMoved ==> r.rx.state == Initialize && r.sel.selected == Unselected)
              && (!d.rx.portMoved && issOperational ==>
                    r.rx.state == if d.rx.lacpEnabled then Expired else LacpDisabled)
    ensures d.rx.state == LacpDisabled ==>
              (transitioned <==> d.rx.lacpEnabled || d.change.partnerAdmin)
              && (transitioned ==> r.rx.state == if d.rx.lacpEnabled then PortDisabled else LacpDisabled)
    ensures d.rx.state == PortDisabled && transitioned ==>
              r == if d.rx.portMoved then EnterInitialize(d)
                   else if d.rx.lacpEnabled then EnterExpired(d, k) else EnterLacpDisabled(d)
    ensures d.rx.state == LacpDisabled && transitioned ==>
              r == if d.rx.lacpEnabled then EnterPortDisabled(d) else EnterLacpDisabled(d)
    ensures !transitioned ==> r == d
    ensures transitioned && !GlobalDisable(d, issOperational) && k.shortTimeout > 0 ==>
              RxPending(r, issOperational) < PendingWith(d, issOperational, true)
              && RxPending(r, issOperational) < PendingWith(d, issOperational, false)
  {
    r, transitioned := d, true;
    if d.rx.state == PortDisabled {
      if d.rx.portMoved {
        r := EnterInitialize(d);
      } else if issOperational && !d.rx.lacpEnabled {
        r := EnterLacpDisabled(d);
      } else if issOperational && d.rx.lacpEnabled {
        r := EnterExpired(d, k);
      } else {
        transitioned := false;
      }
    } else {
      if d.rx.lacpEnabled {
        r := EnterPortDisabled(d);
      } else if d.change.partnerAdmin {
        r := EnterLacpDisabled(d);
      } else {
        transitioned := false;
      }
    }
  }

  /** CURRENT entered with a LACPDU: the partner is the LACPDU's sender, the actor is no
      longer defaulted, and with positive timeouts the machine is then at rest. */
  lemma CurrentEntryFacts(d: AggPort, rx: Lacpdu, issOperational: bool, k: PortConstants)
    requires d.rx.state in {Expired, Defaulted, Current}
    requires d.rx.frame == None && d.rx.portOperational == issOperational
    ensures var r := EnterCurrent(d, rx, k);
            && r.rx.state == Current && !r.actor.operState.defaulted
            && r.partner.operSystem == rx.actorSystem && r.partner.version == rx.version
            && KeepsInputs(d, r) && r.rx.portMoved == d.rx.portMoved
    ensures k.shortTimeout > 0 && k.longTimeout > 0 && !GlobalDisable(d, issOperational) ==>
              RxPending(EnterCurrent(d, rx, k), issOperational) == 0
  {
    var r := EnterCurrent(d, rx, k);
    EnterCurrentRecordsPdu(d, rx, k);
    if k.shortTimeout > 0 && k.longTimeout > 0 && !GlobalDisable(d, issOperational) {
      StablePending(r, issOperational);
    }
  }

  /** One step in EXPIRED, DEFAULTED or CURRENT, on the port `d` as the prelude and
      `Arrived` left it; `frame` is the LACPDU that was waiting, if any. */
  method ReceiveStep(d: AggPort, frame: Option<Lacpdu>, issOperational: bool, k: PortConstants)
    returns (r: AggPort, transitioned: bool)
    requires d.rx.state in {Expired, Defaulted, Current}
    requires d.rx.frame == None && d.rx.portOperational == issOperational
    ensures KeepsInputs(d, r) && r.rx.portMoved == d.rx.portMoved
    ensures frame.Some? ==>
              transitioned && r.rx.state == Current && !r.actor.operState.defaulted
              && r.partner.operSystem == frame.value.actorSystem && r.partner.version == frame.value.version
    ensures frame.Some? ==> r == EnterCurrent(d, frame.value, k)
    ensures frame == None && transitioned ==>
              r == if d.rx.state == Current then EnterPortDisabled(d) else EnterDefaulted(d)
    ensures frame == None && d.rx.state == Expired ==>
              (transitioned <==> d.rx.currentWhileTimer == 0)
              && (transitioned ==> r.rx.state == Defaulted && r.actor.operState.defaulted)
    ensures frame == None && d.rx.state == Defaulted ==>
              (transitioned <==> d.change.partnerAdmin) && (transitioned ==> r.rx.state == Defaulted)
    ensures frame == None && d.rx.state == Current ==>
              (transitioned <==> d.rx.currentWhileTimer == 0) && (transitioned ==> r.rx.state == PortDisabled)
    ensures !transitioned ==> r == d
    ensures transitioned && !GlobalDisable(d, issOperational) && k.shortTimeout > 0 && k.longTimeout > 0 ==>
              RxPending(r, issOperational) < PendingWith(d, issOperational, frame.Some?)
  {
    r, transitioned := d, true;
    var positive := k.shortTimeout > 0 && k.longTimeout > 0;
    if frame.Some? {
      r := EnterCurrent(d, frame.value, k);
      CurrentEntryFacts(d, frame.value, issOperational, k);
    } else if d.rx.state == Expired && d.rx.currentWhileTimer == 0 {
      r := EnterDefaulted(d);
      if !GlobalDisable(d, issOperational) {
        StablePending(r, issOperational);
      }
    } else if d.rx.state == Defaulted && d.change.partnerAdmin {
      r := EnterDefaulted(d);
      if !GlobalDisable(d, issOperational) {
        StablePending(r, issOperational);
      }
    } else if d.rx.state == Current && d.rx.currentWhileTimer == 0 {
      r := EnterPortDisabled(d);
      assert !GlobalDisable(r, issOperational);
    } else {
      transitioned := false;
    }
  }

  /** Entering PORT_DISABLED leaves only the transitions out of it to come. */
  lemma DisabledEntryPending(d: AggPort, issOperational: bool)
    requires d.rx.frame == None
    ensures RxPending(EnterPortDisabled(d), issOperational) == DisabledPending(d.rx.portMoved, issOperational)
  {
  }

  /** A machine at rest has no transitions to come. */
  lemma StablePending(p: AggPort, issOperational: bool)
    requires RxStable(p, issOperational)
    ensures RxPending(p, issOperational) == 0
  {
  }

  /** The prelude and `Arrived` do not change how far the machine is from rest, nor whether
      it is at rest. */
  lemma PrepareKeepsPending(p: AggPort, d: AggPort, issOperational: bool)
    requires d.rx.state == p.rx.state && d.rx.currentWhileTimer == p.rx.currentWhileTimer
    requires d.rx.portMoved == p.rx.portMoved && d.rx.lacpEnabled == p.rx.lacpEnabled && d.rx.frame == None
    requires d.partner == p.partner && d.change.partnerAdmin == p.change.partnerAdmin
    ensures PendingWith(d, issOperational, p.rx.frame.Some?) == RxPending(p, issOperational)
    ensures GlobalDisable(d, issOperational) == GlobalDisable(p, issOperational)
    ensures RxStable(p, issOperational) ==> RxStable(d, issOperational)
  {
  }

  /** The prelude and `Arrived` together: the port as the state-specific part of a step
      sees it. */
  function Prepare(p: AggPort, issOperational: bool): (d: AggPort)
    ensures d.rx.state == p.rx.state && d.rx.currentWhileTimer == p.rx.currentWhileTimer
    ensures d.rx.portMoved == p.rx.portMoved && d.rx.lacpEnabled == p.rx.lacpEnabled
    ensures d.rx.frame == None && d.rx.portOperational == issOperational
    ensures d.partner == p.partner && d.tx == p.tx && d.change.partnerAdmin == p.change.partnerAdmin
    ensures !d.change.actorAdmin && !d.change.adminLinkNumber
  {
    Arrived(AdminPrelude(p), issOperational)
  }

  /** `DisabledStep` on the prepared port, stated over the port before the step. */
  method DisabledBranch(p: AggPort, issOperational: bool, k: PortConstants) returns (r: AggPort, transitioned: bool)
    requires !GlobalDisable(p, issOperational) && (p.rx.state == PortDisabled || p.rx.state == LacpDisabled)
    ensures r.rx.frame == None && r.rx.portOperational == issOperational
    ensures !r.change.actorAdmin && !r.change.adminLinkNumber
    ensures r.rx.lacpEnabled == p.rx.lacpEnabled && r.tx == p.tx
    ensures r.rx.portMoved ==> p.rx.portMoved
    ensures p.rx.state == PortDisabled ==>
              (transitioned <==> p.rx.portMoved || issOperational)
              && (p.rx.portMoved ==> r.rx.state == Initialize && r.sel.selected == Unselected)
              && (!p.rx.portMoved && issOperational ==> r.rx.state == if p.rx.lacpEnabled then Expired else LacpDisabled)
    ensures p.rx.state == LacpDisabled ==>
              (transitioned <==> p.rx.lacpEnabled || p.change.partnerAdmin)
              && (transitioned ==> r == if p.rx.lacpEnabled then EnterPortDisabled(Prepare(p, issOperational))
                                        else EnterLacpDisabled(Prepare(p, issOperational)))
    ensures p.rx.state == PortDisabled && transitioned ==>
              r == if p.rx.portMoved then EnterInitialize(Prepare(p, issOperational))
                   else if p.rx.lacpEnabled then EnterExpired(Prepare(p, issOperational), k)
                   else EnterLacpDisabled(Prepare(p, issOperational))
    ensures !transitioned ==> r == Prepare(p, issOperational)
    ensures RxStable(p, issOperational) ==> !transitioned
    ensures !transitioned ==> RxStable(r, issOperational)
    ensures transitioned && k.shortTimeout > 0 && k.longTimeout > 0 ==>
              RxPending(r, issOperational) < RxPending(p, issOperational)
  {
    var d := Prepare(p, issOperational);
    PrepareKeepsPending(p, d, issOperational);
    r, transitioned := DisabledStep(d, issOperational, k);
  }

  /** `ReceiveStep` with a LACPDU waiting, stated over the port before the step. */
  method PduBranch(p: AggPort, issOperational: bool, k: PortConstants) returns (r: AggPort, transitioned: bool)
    requires !GlobalDisable(p, issOperational) && p.rx.state in {Expired, Defaulted, Current}
    requires p.rx.frame.Some?
    ensures r.rx.frame == None && r.rx.portOperational == issOperational
    ensures !r.change.actorAdmin && !r.change.adminLinkNumber
    ensures r.rx.lacpEnabled == p.rx.lacpEnabled && r.tx == p.tx
    ensures r.rx.portMoved ==> p.rx.portMoved
    ensures transitioned && r.rx.state == Current && !r.actor.operState.defaulted
    ensures r.partner.operSystem == p.rx.frame.value.actorSystem && r.partner.version == p.rx.frame.value.version
    ensures r == EnterCurrent(Prepare(p, issOperational), p.rx.frame.value, k)
    ensures RxStable(p, issOperational) ==> !transitioned
    ensures !transitioned ==> RxStable(r, issOperational)
    ensures transitioned && k.shortTimeout > 0 && k.longTimeout > 0 ==>
              RxPending(r, issOperational) < RxPending(p, issOperational)
  {
    var d := Prepare(p, issOperational);
    PrepareKeepsPending(p, d, issOperational);
    r, transitioned := ReceiveStep(d, p.rx.frame, issOperational, k);
  }

  /** `ReceiveStep` without a LACPDU, stated over the port before the step. */
  method TimeoutBranch(p: AggPort, issOperational: bool, k: PortConstants) returns (r: AggPort, transitioned: bool)
    requires !GlobalDisable(p, issOperational) && p.rx.state in {Expired, Defaulted, Current}
    requires p.rx.frame == None
    ensures r.rx.frame == None && r.rx.portOperational == issOperational
    ensures !r.change.actorAdmin && !r.change.adminLinkNumber
    ensures r.rx.lacpEnabled == p.rx.lacpEnabled && r.tx == p.tx
    ensures r.rx.portMoved ==> p.rx.portMoved
    ensures p.rx.state == Current && p.rx.currentWhileTimer == 0 ==> transitioned && r.rx.state == PortDisabled
    ensures p.rx.state == Expired && p.rx.currentWhileTimer == 0 ==>
              transitioned && r.rx.state == Defaulted && r.actor.operState.defaulted
    ensures p.rx.state == Defaulted ==>
              (transitioned <==> p.change.partnerAdmin)
              && (transitioned ==> r == EnterDefaulted(Prepare(p, issOperational)))
    ensures transitioned ==>
              r == if p.rx.state == Current then EnterPortDisabled(Prepare(p, issOperational))
                   else EnterDefaulted(Prepare(p, issOperational))
    ensures !transitioned ==> r == Prepare(p, issOperational)
    ensures RxStable(p, issOperational) ==> !transitioned
    ensures !transitioned ==> RxStable(r, issOperational)
    ensures transitioned && k.shortTimeout > 0 && k.longTimeout > 0 ==>
              RxPending(r, issOperational) < RxPending(p, issOperational)
  {
    var d := Prepare(p, issOperational);
    PrepareKeepsPending(p, d, issOperational);
    r, transitioned := ReceiveStep(d, p.rx.frame, issOperational, k);
  }

  /** `step`.  The management prelude runs first and the port's operational state is read.
      A port that is down and has not moved goes to PORT_DISABLED (unless it is already
      there with the partner out of sync).  Otherwise INITIALIZE goes to PORT_DISABLED;
      PORT_DISABLED goes to INITIALIZE if the port moved, else, once operational, to
      LACP_DISABLED or EXPIRED as LACP is disabled or enabled; LACP_DISABLED goes back when
      LACP is enabled and re-enters itself on a partner admin change; EXPIRED, DEFAULTED and
      CURRENT go to CURRENT with a LACPDU; without one, EXPIRED goes to DEFAULTED and CURRENT
      to PORT_DISABLED (not EXPIRED) when the timer has run out, and DEFAULTED re-enters
      itself on a partner admin change.  The LACPDU slot is always emptied. */
  method Step(p: AggPort, issOperational: bool, k: PortConstants) returns (r: AggPort, transitioned: bool)
    ensures r.rx.frame == None && r.rx.portOperational == issOperational
    ensures !r.change.actorAdmin && !r.change.adminLinkNumber
    ensures r.rx.lacpEnabled == p.rx.lacpEnabled && r.tx == p.tx
    ensures r.rx.portMoved ==> p.rx.portMoved
    ensures GlobalDisable(p, issOperational) ==>
              transitioned && r.rx.state == PortDisabled && !r.partner.operState.sync && r.partner.version == 1
    ensures GlobalDisable(p, issOperational) ==> r == EnterPortDisabled(Prepare(p, issOperational))
    ensures !GlobalDisable(p, issOperational) && p.rx.state == PortDisabled ==>
              (transitioned <==> p.rx.portMoved || issOperational)
              && (p.rx.portMoved ==> r.rx.state == Initialize && r.sel.selected == Unselected)
              && (!p.rx.portMoved && issOperational ==> r.rx.state == if p.rx.lacpEnabled then Expired else LacpDisabled)
    ensures (!GlobalDisable(p, issOperational) && p.rx.state == Current && p.rx.frame == None
             && p.rx.currentWhileTimer == 0) ==> transitioned && r.rx.state == PortDisabled
    ensures (!GlobalDisable(p, issOperational) && p.rx.state == Expired && p.rx.frame == None
             && p.rx.currentWhileTimer == 0) ==> transitioned && r.rx.state == Defaulted && r.actor.operState.defaulted
    ensures !GlobalDisable(p, issOperational) && p.rx.state in {Expired, Defaulted, Current} && p.rx.frame.Some? ==>
              transitioned && r.rx.state == Current && !r.actor.operState.defaulted
              && r.partner.operSystem == p.rx.frame.value.actorSystem && r.partner.version == p.rx.frame.value.version
    ensures !GlobalDisable(p, issOperational) && p.rx.state in {Expired, Defaulted, Current} && p.rx.frame.Some? ==>
              r == EnterCurrent(Prepare(p, issOperational), p.rx.frame.value, k)
    ensures (!GlobalDisable(p, issOperational)
             && p.rx.state !in {PortDisabled, LacpDisabled, Expired, Defaulted, Current}) ==>
              transitioned && r == EnterPortDisabled(Prepare(p, issOperational))
    ensures !GlobalDisable(p, issOperational) && p.rx.state == LacpDisabled ==>
              (transitioned <==> p.rx.lacpEnabled || p.change.partnerAdmin)
              && (transitioned ==> r == if p.rx.lacpEnabled then EnterPortDisabled(Prepare(p, issOperational))
                                        else EnterLacpDisabled(Prepare(p, issOperational)))
    ensures !GlobalDisable(p, issOperational) && p.rx.state == Defaulted && p.rx.frame == None ==>
              (transitioned <==> p.change.partnerAdmin)
              && (transitioned ==> r == EnterDefaulted(Prepare(p, issOperational)))
    ensures (!GlobalDisable(p, issOperational) && p.rx.state == PortDisabled && transitioned) ==>
              r == if p.rx.portMoved then EnterInitialize(Prepare(p, issOperational))
                   else if p.rx.lacpEnabled then EnterExpired(Prepare(p, issOperational), k)
                   else EnterLacpDisabled(Prepare(p, issOperational))
    ensures (!GlobalDisable(p, issOperational) && p.rx.state in {Expired, Defaulted, Current}
             && p.rx.frame == None && transitioned) ==>
              r == if p.rx.state == Current then EnterPortDisabled(Prepare(p, issOperational))
                   else EnterDefaulted(Prepare(p, issOperational))
    ensures !transitioned ==> r == Prepare(p, issOperational)
    ensures RxStable(p, issOperational) ==> !transitioned
    ensures !transitioned ==> RxStable(r, issOperational)
    ensures transitioned && k.shortTimeout > 0 && k.longTimeout > 0 ==>
              RxPending(r, issOperational) < RxPending(p, issOperational)
  {
    var d := Prepare(p, issOperational);
    PrepareKeepsPending(p, d, issOperational);
    if GlobalDisable(d, issOperational) {
      r, transitioned := EnterPortDisabled(d), true;
      DisabledEntryPending(d, issOperational);
    } else if d.rx.state == PortDisabled || d.rx.state == LacpDisabled {
      r, transitioned := DisabledBranch(p, issOperational, k);
    } else if d.rx.state in {Expired, Defaulted, Current} {
      if p.rx.frame.Some? {
        r, transitioned := PduBranch(p, issOperational, k);
      } else {
        r, transitioned := TimeoutBranch(p, issOperational, k);
      }
    } else {
      r, transitioned := EnterPortDisabled(d), true;
      DisabledEntryPending(d, issOperational);
    }
  }

  /** `run`: steps until a step takes no transition, at most ten times, or once when
      `singleStep`; the result counts the transitions taken.  With positive timeouts the
      bound of ten is never reached: a run takes at most four transitions and, unless
      single-stepping, leaves the machine at rest.  A port that is down and has not moved
      always ends in PORT_DISABLED with the partner out of sync. */
  method Run(p: AggPort, issOperational: bool, k: PortConstants, singleStep: bool) returns (r: AggPort, transitions: nat)
    ensures r.rx.frame == None && r.rx.portOperational == issOperational
    ensures !r.change.actorAdmin && !r.change.adminLinkNumber
    ensures r.rx.lacpEnabled == p.rx.lacpEnabled && r.tx == p.tx
    ensures transitions <= 10 && (singleStep ==> transitions <= 1)
    ensures k.shortTimeout > 0 && k.longTimeout > 0 ==>
              transitions <= RxPending(p, issOperational) && transitions <= 4
              && (!singleStep ==> RxStable(r, issOperational))
    ensures !issOperational && !p.rx.portMoved ==> r.rx.state == PortDisabled && !r.partner.operState.sync
    ensures (singleStep && !GlobalDisable(p, issOperational) && p.rx.state in {Expired, Defaulted, Current}
             && p.rx.frame.Some?) ==> r == EnterCurrent(Prepare(p, issOperational), p.rx.frame.value, k)
  {
    var positive := k.shortTimeout > 0 && k.longTimeout > 0;
    var taken;
    r, taken := Step(p, issOperational, k);
    var loop := 1;
    while !singleStep && taken && loop < 10
      invariant 1 <= loop <= 10 && (singleStep ==> loop == 1)
      invariant r.rx.frame == None && r.rx.portOperational == issOperational
      invariant !r.change.actorAdmin && !r.change.adminLinkNumber
      invariant r.rx.lacpEnabled == p.rx.lacpEnabled && r.tx == p.tx
      invariant r.rx.portMoved ==> p.rx.portMoved
      invariant !issOperational && !p.rx.portMoved ==> r.rx.state == PortDisabled && !r.partner.operState.sync
      invariant (singleStep && !GlobalDisable(p, issOperational) && p.rx.state in {Expired, Defaulted, Current}
                 && p.rx.frame.Some?) ==> r == EnterCurrent(Prepare(p, issOperational), p.rx.frame.value, k)
      invariant positive && taken ==> loop + RxPending(r, issOperational) <= RxPending(p, issOperational)
      invariant positive && !taken ==> loop - 1 <= RxPending(p, issOperational) && RxStable(r, issOperational)
      decreases 10 - loop
    {
      r, taken := Step(r, issOperational, k);
      loop := loop + 1;
    }
    transitions := if taken then loop else loop - 1;
  }

  /** `reset`: the current-while timer stopped, the port taken as down, the actor's admin
      values applied and both management requests consumed, then INITIALIZE, with no LACPDU
      waiting and the Selection Logic asked to look for a moved partner. */
  function Reset(p: AggPort): (r: AggPort)
    ensures r.rx.state == Initialize && r.rx.currentWhileTimer == 0 && !r.rx.portOperational
    ensures r.rx.frame == None && !r.rx.portMoved && r.rx.lacpEnabled == p.rx.lacpEnabled
    ensures !r.change.actorAdmin && !r.change.adminLinkNumber && !r.change.actorAdminPortKey
    ensures r.sel.selected == Unselected && r.sel.newPartner && r.ntt
    ensures r.actor.operState.defaulted && !r.actor.operState.expired
    ensures r.partner.operSystem == p.partner.adminSystem && r.partner.operKey == p.partner.adminKey
    ensures r.link.linkNumber == p.link.adminLinkNumber && r.link.partnerLinkNumber == p.link.adminLinkNumber
    ensures r.tx == p.tx
  {
    var q := p.(rx := p.rx.(currentWhileTimer := 0, portOperational := false));
    var a := ActorAdminChange(q);
    var i := EnterInitialize(a.(change := a.change.(actorAdmin := false, adminLinkNumber := false)));
    i.(rx := i.rx.(frame := None), sel := i.sel.(newPartner := true))
  }

  /** `timerTick`: the current-while timer counts down to zero and stops there. */
  function TimerTick(p: AggPort): (r: AggPort)
    ensures r.rx.currentWhileTimer == if p.rx.currentWhileTimer > 0 then p.rx.currentWhileTimer - 1 else 0
    ensures r == p.(rx := p.rx.(currentWhileTimer := r.rx.currentWhileTimer))
  {
    p.(rx := p.rx.(currentWhileTimer := if p.rx.currentWhileTimer > 0 then p.rx.currentWhileTimer - 1 else 0))
  }
}

=== FILE: lacp_tx.dfy ===
/** The LACP Transmit machine of one Aggregation Port: the version-1 machine (NO_TX,
    RESET_TX_COUNT, TX_LACPDU with a transmit limit per interval) and the version-2 machine
    (NO_TX, FAST_PERIODIC, SLOW_PERIODIC, TX_LACPDU with a transmit opportunity), the
    LACPDU the port sends, and `reset`, `timerTick`, `step` and `run`. */
module LacpTx {
  import opened Common
  import opened LacpPort

  /** What one transition of the machine produces: the port, the LACPDU handed to the MAC,
      if any, and whether a transition was taken. */
  datatype TxOutcome = TxOutcome(port: AggPort, sent: Option<Lacpdu>, transitioned: bool)

  /** The machine runs the version-1 rules exactly when the actor's LACP version is 1; any
      other version runs the version-2 rules. */
  predicate IsVersion1(p: AggPort) {
    p.actor.version == 1
  }

  /** Only the transmit variables and NTT change; in particular the administrative
      enabling of transmission stays as it was. */
  predicate TxOnly(p: AggPort, r: AggPort) {
    && r.portId == p.portId && r.protocolDA == p.protocolDA
    && r.actor == p.actor && r.partner == p.partner && r.link == p.link
    && r.change == p.change && r.rx == p.rx && r.sel == p.sel
    && r.tx.lacpTxEnabled == p.tx.lacpTxEnabled
  }

  /** `prepareLacpdu`: the port's operational actor and partner information; the
      version-2 TLVs carry the link number, algorithm and digests, and are present exactly
      when the actor runs version 2 or later.  The conversation-mask TLVs are never sent.
      The values a version-1 LACPDU carries in the absent TLVs are never read; they are
      zero here. */
  function PrepareLacpdu(p: AggPort): (m: Lacpdu)
    ensures m.version == p.actor.version
    ensures m.portAlgorithmTlv <==> p.actor.version >= 2
    ensures m.portConversationIdDigestTlv == m.portAlgorithmTlv
    ensures m.portConversationServiceMappingDigestTlv == m.portAlgorithmTlv
    ensures !m.portConversationMaskTlvs
  {
    var v2 := p.actor.version >= 2;
    Lacpdu(
      version := p.actor.version,
      actorSystem := p.actor.operSystem,
      actorKey := p.actor.operKey,
      actorPort := p.actor.port,
      actorState := p.actor.operState,
      partnerSystem := p.partner.operSystem,
      partnerKey := p.partner.operKey,
      partnerPort := p.partner.operPort,
      partnerState := p.partner.operState,
      collectorMaxDelay := p.actor.collectorMaxDelay,
      portAlgorithmTlv := v2,
      actorPortAlgorithm := if v2 then p.link.actorAlgorithm else NoneAlg,
      portConversationIdDigestTlv := v2,
      linkNumberId := if v2 then p.link.linkNumber else 0,
      actorConversationLinkListDigest := if v2 then p.link.actorLinkDigest else ZeroDigest,
      portConversationServiceMappingDigestTlv := v2,
      actorConversationServiceMappingDigest := if v2 then p.link.actorServiceDigest else ZeroDigest,
      portConversationMaskTlvs := false)
  }

  /** `transmitLacpdu`: a LACPDU is handed to the MAC exactly when the port's service
      interface is present and operational (`issUp`); it is the one `prepareLacpdu` builds. */
  function TransmitLacpdu(p: AggPort, issUp: bool): (sent: Option<Lacpdu>)
    ensures sent.Some? <==> issUp
    ensures sent.Some? ==> sent.value == PrepareLacpdu(p) && sent.value.actorSystem == p.actor.operSystem
  {
    if issUp then Some(PrepareLacpdu(p)) else None
  }

  /** `enterNoTx`: version 1 drops NTT and clears the transmit count and limit timer;
      version 2 only stops the periodic timer. */
  function EnterNoTx(p: AggPort): (r: AggPort)
    ensures r.tx.state == NoTx && TxOnly(p, r) && r.tx.txOpportunity == p.tx.txOpportunity
    ensures IsVersion1(p) ==>
              !r.ntt && r.tx.txCount == 0 && r.tx.txLimitTimer == 0 && r.tx.txWhen == p.tx.txWhen
    ensures !IsVersion1(p) ==>
              r.ntt == p.ntt && r.tx.txWhen == 0
              && r.tx.txCount == p.tx.txCount && r.tx.txLimitTimer == p.tx.txLimitTimer
  {
    if IsVersion1(p) then p.(ntt := false, tx := p.tx.(state := NoTx, txCount := 0, txLimitTimer := 0))
    else p.(tx := p.tx.(state := NoTx, txWhen := 0))
  }

  /** `enterFastPeriodic` and `enterSlowPeriodic` (version 2): the periodic timer starts
      with the period of the state entered. */
  function EnterPeriodic(p: AggPort, fast: bool, k: PortConstants): (r: AggPort)
    ensures r.tx.state == (if fast then FastPeriodic else SlowPeriodic)
    ensures r.tx.txWhen == (if fast then k.fastPeriodicTime else k.slowPeriodicTime)
    ensures TxOnly(p, r) && r.ntt == p.ntt && r.tx.txOpportunity == p.tx.txOpportunity
    ensures r.tx.txCount == p.tx.txCount && r.tx.txLimitTimer == p.tx.txLimitTimer
  {
    p.(tx := p.tx.(state := if fast then FastPeriodic else SlowPeriodic,
                   txWhen := if fast then k.fastPeriodicTime else k.slowPeriodicTime))
  }

  /** `enterResetTxCount` (version 1): the transmit count starts again from zero. */
  function EnterResetTxCount(p: AggPort): (r: AggPort)
    ensures r.tx.state == ResetTxCount && r.tx.txCount == 0
    ensures TxOnly(p, r) && r.ntt == p.ntt && r.tx.txOpportunity == p.tx.txOpportunity
    ensures r.tx.txWhen == p.tx.txWhen && r.tx.txLimitTimer == p.tx.txLimitTimer
  {
    p.(tx := p.tx.(state := ResetTxCount, txCount := 0))
  }

  /** `enterTxLacpdu`, version 1: a LACPDU goes out when the link is up, and then NTT is
      satisfied and the transmission is counted -- as the first of a new limit interval
      when none is running, else as one more in the running interval.  When the link is
      down nothing but the state changes. */
  function EnterTxLacpduV1(p: AggPort, k: PortConstants, issUp: bool): (o: TxOutcome)
    ensures o.sent == TransmitLacpdu(p, issUp) && o.transitioned
    ensures o.port.tx.state == TxLacpdu && TxOnly(p, o.port)
    ensures o.port.tx.txWhen == p.tx.txWhen && o.port.tx.txOpportunity == p.tx.txOpportunity
    ensures !issUp ==> o.port == p.(tx := p.tx.(state := TxLacpdu))
    ensures issUp ==>
              !o.port.ntt
              && (p.tx.txLimitTimer == 0 ==> o.port.tx.txCount == 1 && o.port.tx.txLimitTimer == k.txLimitInterval)
              && (p.tx.txLimitTimer > 0 ==>
                    o.port.tx.txCount == p.tx.txCount + 1 && o.port.tx.txLimitTimer == p.tx.txLimitTimer)
  {
    var q := p.(tx := p.tx.(state := TxLacpdu));
    if !issUp then TxOutcome(q, None, true)
    else if p.tx.txLimitTimer == 0 then
      TxOutcome(q.(ntt := false, tx := q.tx.(txLimitTimer := k.txLimitInterval, txCount := 1)),
                TransmitLacpdu(p, issUp), true)
    else TxOutcome(q.(ntt := false, tx := q.tx.(txCount := p.tx.txCount + 1)), TransmitLacpdu(p, issUp), true)
  }

  /** `enterTxLacpdu`, version 2: the LACPDU is offered to the MAC (it goes out when the
      link is up), the transmission is counted whether or not it went out, NTT is
      satisfied, and the machine continues at once in FAST_PERIODIC or SLOW_PERIODIC as the
      partner asks for short or long timeouts. */
  function EnterTxLacpduV2(p: AggPort, k: PortConstants, issUp: bool): (o: TxOutcome)
    ensures o.sent == TransmitLacpdu(p, issUp) && o.transitioned
    ensures !o.port.ntt && o.port.tx.txCount == p.tx.txCount + 1
    ensures o.port == EnterPeriodic(p, p.partner.operState.lacpShortTimeout, k).(ntt := false, tx := o.port.tx)
    ensures o.port.tx == EnterPeriodic(p, p.partner.operState.lacpShortTimeout, k).tx.(txCount := p.tx.txCount + 1)
  {
    var q := p.(ntt := false, tx := p.tx.(txCount := p.tx.txCount + 1));
    TxOutcome(EnterPeriodic(q, p.partner.operState.lacpShortTimeout, k), TransmitLacpdu(p, issUp), true)
  }

  /** The version-1 bound on the transmit count: zero in NO_TX and RESET_TX_COUNT, and never
      above the limit (or one, when the limit is zero and one LACPDU was still sent). */
  predicate CountWithinLimitV1(p: AggPort, k: PortConstants) {
    && (p.tx.state == NoTx || p.tx.state == ResetTxCount ==> p.tx.txCount == 0)
    && (p.tx.txCount <= k.txLimit || p.tx.txCount <= 1)
  }

  /** A version-1 machine inside a running limit interval: transmission is enabled, the
      limit timer has not run out, and the machine is past NO_TX, so the count it keeps is
      the count of LACPDUs sent in this interval. */
  predicate InLimitInterval(p: AggPort, k: PortConstants) {
    && IsVersion1(p) && p.tx.lacpTxEnabled && p.tx.txLimitTimer > 0
    && (p.tx.state == ResetTxCount || p.tx.state == TxLacpdu)
  }

  /** From `p` to `r` the machine stays in the same limit interval and counts `n` more
      LACPDUs: the count is never restarted inside an interval. */
  predicate StaysInInterval(p: AggPort, r: AggPort, n: nat, k: PortConstants) {
    && InLimitInterval(r, k)
    && r.tx.txLimitTimer == p.tx.txLimitTimer
    && r.tx.txCount == p.tx.txCount + n
  }

  /** One version-1 step.  Disabling transmission sends the machine to NO_TX from anywhere
      else; NO_TX re-enters itself to drop a pending NTT while disabled and goes to
      RESET_TX_COUNT once enabled; RESET_TX_COUNT goes to TX_LACPDU on NTT; TX_LACPDU
      transmits again on NTT while the count is below the limit, and otherwise goes back to
      RESET_TX_COUNT once the limit interval has run out; any other state goes to NO_TX. */
  function StepV1(p: AggPort, k: PortConstants, issUp: bool): (o: TxOutcome)
    requires IsVersion1(p)
    ensures TxOnly(p, o.port)
    ensures !o.transitioned ==> o.port == p && o.sent == None
    ensures o.sent.Some? <==>
              issUp && p.ntt && p.tx.lacpTxEnabled
              && (p.tx.state == ResetTxCount || (p.tx.state == TxLacpdu && p.tx.txCount < k.txLimit))
    ensures o.sent.Some? ==> o.sent.value == PrepareLacpdu(p) && !o.port.ntt && o.port.tx.state == TxLacpdu
    ensures !p.tx.lacpTxEnabled ==>
              o.port.tx.state == NoTx && !o.port.ntt
              && (o.transitioned <==> p.tx.state != NoTx || p.ntt)
              && (o.transitioned ==> o.port.tx.txCount == 0 && o.port.tx.txLimitTimer == 0)
    ensures p.tx.lacpTxEnabled && p.tx.state == NoTx ==> o.transitioned && o.port.tx.state == ResetTxCount
    ensures CountWithinLimitV1(p, k) ==> CountWithinLimitV1(o.port, k)
    ensures !p.tx.lacpTxEnabled && o.transitioned ==> o == TxOutcome(EnterNoTx(p), None, true)
    ensures p.tx.state !in {NoTx, ResetTxCount, TxLacpdu} ==> o == TxOutcome(EnterNoTx(p), None, true)
    ensures p.tx.lacpTxEnabled && p.tx.state == NoTx ==> o == TxOutcome(EnterResetTxCount(p), None, true)
    ensures p.tx.lacpTxEnabled && p.tx.state == ResetTxCount ==>
              (o.transitioned <==> p.ntt) && (p.ntt ==> o == EnterTxLacpduV1(p, k, issUp))
    ensures (p.tx.lacpTxEnabled && p.tx.state == TxLacpdu && p.ntt && p.tx.txCount < k.txLimit) ==>
              o == EnterTxLacpduV1(p, k, issUp)
    ensures (p.tx.lacpTxEnabled && p.tx.state == TxLacpdu && !(p.ntt && p.tx.txCount < k.txLimit)) ==>
              (o.transitioned <==> p.tx.txLimitTimer == 0)
              && (o.transitioned ==> o.port == EnterResetTxCount(p))
    ensures p.tx.state != NoTx && o.port.tx.txCount < p.tx.txCount ==>
              p.tx.txLimitTimer == 0 || o.port.tx.txLimitTimer == 0
    ensures InLimitInterval(p, k) ==> StaysInInterval(p, o.port, if o.sent.Some? then 1 else 0, k)
  {
    var enabled := p.tx.lacpTxEnabled;
    if p.tx.state != NoTx && !enabled then TxOutcome(EnterNoTx(p), None, true)
    else match p.tx.state
      case NoTx =>
        if !enabled && p.ntt then TxOutcome(EnterNoTx(p), None, true)
        else if enabled then TxOutcome(EnterResetTxCount(p), None, true)
        else TxOutcome(p, None, false)
      case ResetTxCount =>
        if p.ntt then EnterTxLacpduV1(p, k, issUp) else TxOutcome(p, None, false)
      case TxLacpdu =>
        if p.ntt && p.tx.txCount < k.txLimit then EnterTxLacpduV1(p, k, issUp)
        else if p.tx.txLimitTimer == 0 then TxOutcome(EnterResetTxCount(p), None, true)
        else TxOutcome(p, None, false)
      case _ => TxOutcome(EnterNoTx(p), None, true)
  }

  /** The version-2 prelude of every step: a limit interval that has run out starts again
      with a zero count, and a transmit opportunity exists while the count has not passed
      the limit. */
  function OpportunityPrelude(p: AggPort, k: PortConstants): (r: AggPort)
    ensures r.tx.txLimitTimer == if p.tx.txLimitTimer == 0 then k.txLimitInterval else p.tx.txLimitTimer
    ensures r.tx.txCount == if p.tx.txLimitTimer == 0 then 0 else p.tx.txCount
    ensures r.tx.txOpportunity <==> r.tx.txCount <= k.txLimit
    ensures TxOnly(p, r) && r.ntt == p.ntt && r.tx.state == p.tx.state && r.tx.txWhen == p.tx.txWhen
  {
    var q := if p.tx.txLimitTimer == 0 then p.(tx := p.tx.(txLimitTimer := k.txLimitInterval, txCount := 0)) else p;
    q.(tx := q.tx.(txOpportunity := q.tx.txCount <= k.txLimit))
  }

  /** The version-2 global condition for NO_TX: the port is not operational, its service
      interface is absent or not point-to-point, or both ends are passive. */
  predicate TxGlobalOff(p: AggPort, pointToPoint: bool) {
    || !p.rx.portOperational
    || !pointToPoint
    || (!p.actor.operState.lacpActivity && !p.partner.operState.lacpActivity)
  }

  /** The NO_TX rule of the version-2 machine AS WRITTEN: with a partner using long
      timeouts the SLOW_PERIODIC entry action runs but its next state is dropped, so the
      machine stays in NO_TX and reports no transition. */
  function NoTxStepAsWritten(p: AggPort, k: PortConstants): (o: TxOutcome)
    ensures o.sent == None && TxOnly(p, o.port) && o.port.ntt == p.ntt
    ensures o.transitioned <==> p.partner.operState.lacpShortTimeout
    ensures !o.transitioned ==> o.port.tx.state == p.tx.state && o.port.tx.txWhen == k.slowPeriodicTime
    ensures o.transitioned ==> o.port == EnterPeriodic(p, true, k)
    ensures !o.transitioned ==> o.port == p.(tx := p.tx.(txWhen := k.slowPeriodicTime))
  {
    if p.partner.operState.lacpShortTimeout then TxOutcome(EnterPeriodic(p, true, k), None, true)
    else TxOutcome(EnterPeriodic(p, false, k).(tx := EnterPeriodic(p, false, k).tx.(state := p.tx.state)), None, false)
  }

  /** The NO_TX rule as intended: NO_TX moves on to FAST_PERIODIC or SLOW_PERIODIC as the
      partner asks for short or long timeouts. */
  function NoTxStep(p: AggPort, k: PortConstants): (o: TxOutcome)
    ensures o.sent == None && o.transitioned
    ensures o.port == EnterPeriodic(p, p.partner.operState.lacpShortTimeout, k)
  {
    TxOutcome(EnterPeriodic(p, p.partner.operState.lacpShortTimeout, k), None, true)
  }

  /** As written, a version-2 port whose partner uses long timeouts never leaves NO_TX:
      however often it steps, it sends nothing and takes no transition. */
  lemma NoTxAsWrittenStuck(p: AggPort, k: PortConstants)
    requires p.tx.state == NoTx && !p.partner.operState.lacpShortTimeout
    ensures var o := NoTxStepAsWritten(p, k);
            o.port.tx.state == NoTx && o.sent == None && !o.transitioned
            && NoTxStepAsWritten(o.port, k) == o
  {
  }

  /** As intended, NO_TX is left on the first step, into the periodic state that matches
      the partner's timeout, so that the next opportunity transmits. */
  lemma NoTxStepLeavesNoTx(p: AggPort, k: PortConstants)
    ensures var o := NoTxStep(p, k);
            o.port.tx.state != NoTx && o.transitioned
            && (o.port.tx.state == FastPeriodic <==> p.partner.operState.lacpShortTimeout)
  {
  }

  /** What makes a periodic state of the version-2 machine transmit, given an
      opportunity: NTT or an expired periodic timer, and in SLOW_PERIODIC also a partner
      that has come to ask for short timeouts. */
  predicate PeriodicTrigger(p: AggPort) {
    || (p.tx.state == FastPeriodic && (p.ntt || p.tx.txWhen == 0))
    || (p.tx.state == SlowPeriodic && (p.ntt || p.tx.txWhen == 0 || p.partner.operState.lacpShortTimeout))
  }

  /** The state-specific rules of the version-2 machine, after the prelude and with the
      global condition false.  NO_TX moves on by the corrected rule; a periodic state with
      its trigger and an opportunity enters TX_LACPDU; FAST_PERIODIC with nothing to send
      and neither NTT nor an expired timer drops to SLOW_PERIODIC when the partner uses
      long timeouts; any other state goes to NO_TX. */
  function PeriodicStepV2(p: AggPort, k: PortConstants, issUp: bool): (o: TxOutcome)
    requires !IsVersion1(p)
    ensures TxOnly(p, o.port)
    ensures !o.transitioned ==> o.port == p && o.sent == None
    ensures o.sent.Some? ==> o.sent.value == PrepareLacpdu(p)
    ensures p.tx.state == NoTx ==> o == NoTxStep(p, k)
    ensures PeriodicTrigger(p) && p.tx.txOpportunity ==> o == EnterTxLacpduV2(p, k, issUp)
    ensures (p.tx.state == FastPeriodic && !(PeriodicTrigger(p) && p.tx.txOpportunity)) ==>
              o.sent == None
              && (o.transitioned <==> !p.ntt && p.tx.txWhen != 0 && !p.partner.operState.lacpShortTimeout)
              && (o.transitioned ==> o.port == EnterPeriodic(p, false, k))
    ensures p.tx.state == SlowPeriodic && !(PeriodicTrigger(p) && p.tx.txOpportunity) ==> !o.transitioned
    ensures p.tx.state !in {NoTx, FastPeriodic, SlowPeriodic} ==> o == TxOutcome(EnterNoTx(p), None, true)
  {
    var short := p.partner.operState.lacpShortTimeout;
    var expired := p.tx.txWhen == 0;
    match p.tx.state
      case NoTx => NoTxStep(p, k)
      case FastPeriodic =>
        if (p.ntt || expired) && p.tx.txOpportunity then EnterTxLacpduV2(p, k, issUp)
        else if !p.ntt && !expired && !short then TxOutcome(EnterPeriodic(p, false, k), None, true)
        else TxOutcome(p, None, false)
      case SlowPeriodic =>
        if (p.ntt || expired || short) && p.tx.txOpportunity then EnterTxLacpduV2(p, k, issUp)
        else TxOutcome(p, None, false)
      case _ => TxOutcome(EnterNoTx(p), None, true)
  }

  /** One version-2 step: the prelude, then NO_TX under the global condition (a transition
      only when not already there), else the state-specific rules.  A LACPDU is sent
      exactly when the port is up, no global condition holds, the count after the prelude
      leaves a transmit opportunity, and the periodic state's trigger holds: NTT or an
      expired periodic timer, or in SLOW_PERIODIC also a partner asking for short timeouts.
      The count passes the limit by at most one, and only through a transmission. */
  function StepV2(p: AggPort, k: PortConstants, issUp: bool, pointToPoint: bool): (o: TxOutcome)
    requires !IsVersion1(p)
    ensures TxOnly(p, o.port)
    ensures o.sent.Some? ==> o.sent.value == PrepareLacpdu(p) && issUp && !o.port.ntt
    ensures TxGlobalOff(p, pointToPoint) ==>
              o.sent == None && o.port.tx.state == NoTx && (o.transitioned <==> p.tx.state != NoTx)
    ensures !TxGlobalOff(p, pointToPoint) && p.tx.state == NoTx ==>
              o.transitioned && o.sent == None
              && o.port.tx.state == (if p.partner.operState.lacpShortTimeout then FastPeriodic else SlowPeriodic)
    ensures o.sent.Some? <==>
              issUp && !TxGlobalOff(p, pointToPoint)
              && (if p.tx.txLimitTimer == 0 then 0 else p.tx.txCount) <= k.txLimit
              && ((p.tx.state == FastPeriodic && (p.ntt || p.tx.txWhen == 0))
                  || (p.tx.state == SlowPeriodic
                      && (p.ntt || p.tx.txWhen == 0 || p.partner.operState.lacpShortTimeout)))
    ensures o.port.tx.txCount <= k.txLimit + 1 || o.port.tx.txCount <= p.tx.txCount
    ensures !o.transitioned ==> o.port == OpportunityPrelude(p, k) && o.sent == None
    ensures TxGlobalOff(p, pointToPoint) && p.tx.state != NoTx ==>
              o == TxOutcome(EnterNoTx(OpportunityPrelude(p, k)), None, true)
    ensures !TxGlobalOff(p, pointToPoint) && p.tx.state == NoTx ==> o == NoTxStep(OpportunityPrelude(p, k), k)
    ensures (!TxGlobalOff(p, pointToPoint) && PeriodicTrigger(p) && OpportunityPrelude(p, k).tx.txOpportunity) ==>
              o == EnterTxLacpduV2(OpportunityPrelude(p, k), k, issUp)
    ensures (!TxGlobalOff(p, pointToPoint) && p.tx.state == FastPeriodic
             && !(PeriodicTrigger(p) && OpportunityPrelude(p, k).tx.txOpportunity)) ==>
              o.sent == None
              && (o.transitioned <==> !p.ntt && p.tx.txWhen != 0 && !p.partner.operState.lacpShortTimeout)
              && (o.transitioned ==> o.port == EnterPeriodic(OpportunityPrelude(p, k), false, k))
    ensures (!TxGlobalOff(p, pointToPoint) && p.tx.state == SlowPeriodic
             && !(PeriodicTrigger(p) && OpportunityPrelude(p, k).tx.txOpportunity)) ==> !o.transitioned
    ensures (!TxGlobalOff(p, pointToPoint) && p.tx.state !in {NoTx, FastPeriodic, SlowPeriodic}) ==>
              o == TxOutcome(EnterNoTx(OpportunityPrelude(p, k)), None, true)
  {
    var q := OpportunityPrelude(p, k);
    if TxGlobalOff(q, pointToPoint) then
      if q.tx.state != NoTx then TxOutcome(EnterNoTx(q), None, true) else TxOutcome(q, None, false)
    else PeriodicStepV2(q, k, issUp)
  }

  /** `stepTxSM`: the version-1 or the version-2 rules, as the actor's LACP version says. */
  function Step(p: AggPort, k: PortConstants, issUp: bool, pointToPoint: bool): (o: TxOutcome)
    ensures TxOnly(p, o.port)
    ensures o.sent.Some? ==> o.sent.value == PrepareLacpdu(p) && issUp && !o.port.ntt
    ensures !issUp ==> o.sent == None
    ensures o.sent.Some? ==> o.transitioned
    ensures IsVersion1(p) && CountWithinLimitV1(p, k) ==> CountWithinLimitV1(o.port, k)
    ensures !IsVersion1(p) && p.tx.txCount <= k.txLimit + 1 ==> o.port.tx.txCount <= k.txLimit + 1
    ensures (IsVersion1(p) && p.tx.state != NoTx && o.port.tx.txCount < p.tx.txCount) ==>
              p.tx.txLimitTimer == 0 || o.port.tx.txLimitTimer == 0
    ensures InLimitInterval(p, k) ==> StaysInInterval(p, o.port, if o.sent.Some? then 1 else 0, k)
  {
    if IsVersion1(p) then StepV1(p, k, issUp) else StepV2(p, k, issUp, pointToPoint)
  }

  /** `run`: steps until a step takes no transition, at most ten times, or once when
      `singleStep`.  It reports the transitions taken and returns the LACPDUs handed to the
      MAC, in order -- at most one per transition, and each the port's current LACPDU, since
      a run changes nothing a LACPDU carries. */
  method Run(p: AggPort, k: PortConstants, issUp: bool, pointToPoint: bool, singleStep: bool)
    returns (r: AggPort, sent: seq<Lacpdu>, transitions: nat)
    ensures TxOnly(p, r)
    ensures transitions <= 10 && (singleStep ==> transitions <= 1)
    ensures |sent| <= transitions
    ensures forall i :: 0 <= i < |sent| ==> sent[i] == PrepareLacpdu(p)
    ensures !issUp ==> sent == []
    ensures IsVersion1(p) && CountWithinLimitV1(p, k) ==> CountWithinLimitV1(r, k)
    ensures !IsVersion1(p) && p.tx.txCount <= k.txLimit + 1 ==> r.tx.txCount <= k.txLimit + 1
    ensures InLimitInterval(p, k) ==> StaysInInterval(p, r, |sent|, k)
    ensures InLimitInterval(p, k) && CountWithinLimitV1(p, k) ==>
              p.tx.txCount + |sent| <= k.txLimit || p.tx.txCount + |sent| <= 1
  {
    r, sent := p, [];
    var taken, loop := true, 0;
    while taken && loop < (if singleStep then 1 else 10)
      invariant 0 <= loop <= 10 && (singleStep ==> loop <= 1) && (!taken ==> loop >= 1)
      invariant TxOnly(p, r) && r.actor.version == p.actor.version
      invariant |sent| <= (if taken then loop else loop - 1)
      invariant forall i :: 0 <= i < |sent| ==> sent[i] == PrepareLacpdu(p)
      invariant !issUp ==> sent == []
      invariant IsVersion1(p) && CountWithinLimitV1(p, k) ==> CountWithinLimitV1(r, k)
      invariant !IsVersion1(p) && p.tx.txCount <= k.txLimit + 1 ==> r.tx.txCount <= k.txLimit + 1
      invariant InLimitInterval(p, k) ==> StaysInInterval(p, r, |sent|, k)
      decreases 10 - loop
    {
      var o := Step(r, k, issUp, pointToPoint);
      r, taken := o.port, o.transitioned;
      if o.sent.Some? {
        sent := sent + [o.sent.value];
      }
      loop := loop + 1;
    }
    transitions := if taken then loop else loop - 1;
  }

  /** `reset`: NO_TX with no limit interval running and a zero count. */
  function Reset(p: AggPort): (r: AggPort)
    ensures r.tx.state == NoTx && r.tx.txLimitTimer == 0 && r.tx.txCount == 0
    ensures TxOnly(p, r) && (IsVersion1(p) ==> !r.ntt)
  {
    var n := EnterNoTx(p);
    n.(tx := n.tx.(txLimitTimer := 0, txCount := 0))
  }

  /** A reset machine meets the count bounds of both versions, whatever the limit. */
  lemma ResetWithinLimits(p: AggPort, k: PortConstants)
    ensures CountWithinLimitV1(Reset(p), k) && Reset(p).tx.txCount <= k.txLimit + 1
  {
  }

  /** `timerTick`: the limit timer and the periodic timer each count down to zero. */
  function TimerTick(p: AggPort): (r: AggPort)
    ensures r.tx.txLimitTimer == if p.tx.txLimitTimer > 0 then p.tx.txLimitTimer - 1 else 0
    ensures r.tx.txWhen == if p.tx.txWhen > 0 then p.tx.txWhen - 1 else 0
    ensures r == p.(tx := r.tx) && r.tx.state == p.tx.state && r.tx.txCount == p.tx.txCount
  {
    p.(tx := p.tx.(txLimitTimer := if p.tx.txLimitTimer > 0 then p.tx.txLimitTimer - 1 else 0,
                   txWhen := if p.tx.txWhen > 0 then p.tx.txWhen - 1 else 0))
  }
}

=== FILE: link_lists.dfy ===
/** Lists of Link Number IDs as the distributed relay handles them: the `std::list::merge`
    of the home and neighbour active-link lists, and the "last match wins" scan the
    aggregator selection runs over each list. */
module LinkLists {
  import opened Common

  /** Non-decreasing order, the order `std::list::merge` expects of both inputs. */
  predicate Sorted(s: seq<LinkNum>) {
    forall i, j :: 0 <= i < j < |s| ==> s[i] <= s[j]
  }

  /** `a.merge(b)`: repeatedly move the smaller head to the output; on equal heads the
      element of `a` goes first.  No element is lost or duplicated. */
  function Merge(a: seq<LinkNum>, b: seq<LinkNum>): (m: seq<LinkNum>)
    ensures multiset(m) == multiset(a) + multiset(b)
    ensures |m| == |a| + |b|
    decreases |a| + |b|
  {
    if a == [] then b
    else if b == [] then a
    else if b[0] < a[0] then
      assert b == [b[0]] + b[1..];
      [b[0]] + Merge(a, b[1..])
    else
      assert a == [a[0]] + a[1..];
      [a[0]] + Merge(a[1..], b)
  }

  /** A sorted list starts with its least element. */
  lemma SortedHeadIsLeast(s: seq<LinkNum>, x: LinkNum)
    requires Sorted(s) && x in multiset(s)
    ensures s[0] <= x
  {
    var k :| 0 <= k < |s| && s[k] == x;
  }

  /** Merging two sorted lists yields a sorted list. */
  lemma {:induction false} MergeSorted(a: seq<LinkNum>, b: seq<LinkNum>)
    requires Sorted(a) && Sorted(b)
    ensures Sorted(Merge(a, b))
    decreases |a| + |b|
  {
    if a == [] || b == [] {
    } else if b[0] < a[0] {
      var rest := Merge(a, b[1..]);
      MergeSorted(a, b[1..]);
      forall y | y in multiset(rest)
        ensures b[0] <= y
      {
        if y in multiset(a) {
          SortedHeadIsLeast(a, y);
        } else {
          assert y in multiset(b[1..]);
          var k :| 0 <= k < |b[1..]| && b[1..][k] == y;
          assert b[k + 1] == y;
        }
      }
      SortedCons(b[0], rest);
    } else {
      var rest := Merge(a[1..], b);
      MergeSorted(a[1..], b);
      forall y | y in multiset(rest)
        ensures a[0] <= y
      {
        if y in multiset(b) {
          SortedHeadIsLeast(b, y);
        } else {
          assert y in multiset(a[1..]);
          var k :| 0 <= k < |a[1..]| && a[1..][k] == y;
          assert a[k + 1] == y;
        }
      }
      SortedCons(a[0], rest);
    }
  }

  /** Prefixing a sorted list with a lower bound of its elements keeps it sorted. */
  lemma SortedCons(x: LinkNum, s: seq<LinkNum>)
    requires Sorted(s)
    requires forall y :: y in multiset(s) ==> x <= y
    ensures Sorted([x] + s)
  {
    forall i, j | 0 <= i < j < |[x] + s|
      ensures ([x] + s)[i] <= ([x] + s)[j]
    {
      if i == 0 {
        assert s[j - 1] in multiset(s);
      }
    }
  }

  /** A sorted list is determined by its elements. */
  lemma {:induction false} SortedUnique(a: seq<LinkNum>, b: seq<LinkNum>)
    requires Sorted(a) && Sorted(b) && multiset(a) == multiset(b)
    ensures a == b
    decreases |a|
  {
    if a != [] {
      assert |multiset(a)| == |a| && |multiset(b)| == |b|;
      assert a[0] in multiset(b) && b[0] in multiset(a);
      SortedHeadIsLeast(a, b[0]);
      SortedHeadIsLeast(b, a[0]);
      assert a[0] == b[0];
      assert a == [a[0]] + a[1..] && b == [b[0]] + b[1..];
      assert multiset(a) == multiset{a[0]} + multiset(a[1..]);
      assert multiset(b) == multiset{b[0]} + multiset(b[1..]);
      calc {
        multiset(a[1..]);
        multiset(a) - multiset{a[0]};
        multiset(b) - multiset{b[0]};
        multiset(b[1..]);
      }
      SortedUnique(a[1..], b[1..]);
    }
  }

  /** Both portal systems merge the same two sorted lists, in opposite order, and obtain
      the same list. */
  lemma MergeSymmetric(a: seq<LinkNum>, b: seq<LinkNum>)
    requires Sorted(a) && Sorted(b)
    ensures Merge(a, b) == Merge(b, a)
  {
    MergeSorted(a, b);
    MergeSorted(b, a);
    SortedUnique(Merge(a, b), Merge(b, a));
  }

  /** `for (link : links) if (link == target) acc = drn;` -- the loop leaves `drn` exactly
      when the target occurs in the list, and the incoming value otherwise. */
  function ScanLinks(links: seq<LinkNum>, target: LinkNum, acc: Drn, drn: Drn): (r: Drn)
    ensures r == (if target in links then drn else acc)
  {
    if links == [] then acc
    else ScanLinks(links[1..], target, if links[0] == target then drn else acc, drn)
  }
}
